=== FILE: README.md ===
# Tag-filtered photo and video thumbnail browser, modelled in Dafny

The program is a Tkinter desktop viewer for one folder of pictures and
videos. On start it scans the folder for media files. It rebuilds the tag
map kept in `image_tag_map.json`: each file gets its modification time as
`createday` and keeps the tags stored for it. It counts how often every tag
occurs. The window shows three things:

- a row of tag checkboxes, led by a "no tags" box that excludes the real tags;
- a FROM/TO date range, initialised to the span of the files' dates;
- a grid of thumbnails for the files that pass both filters, with a
  thumbnail cache keyed by file name and size.

Clicking a thumbnail selects it. A right click opens a tag dialog. There the
user picks tags from the list, or types a new one, which goes on top, picked.
Confirming overwrites the tags of every selected file, writes the map back,
rescans the folder and redraws the grid.

Two versions of the window exist, and both are modelled:

- `LegacyApp` is the first version (`main.py`). It is one class holding the
  tag map, the counts, the checkbox states, the selection and the grid.
  The scan and the thumbnail pass of the logic module are bound onto it as
  methods.
- `App` is the refactored version (`src/main.py`). It owns the tag map and
  the counts, and hands the checkbox row, the date pickers and the grid to
  three manager classes:
  - `TagButtons.TagButtonManager`
  - `DateRange.DateRangeManager`
  - `ThumbnailDisplay.ThumbnailDisplayManager`

The other modules hold the shared logic:

- `Logic`: file-name matching, scan and reconciliation, tag counting, batch
  overwrite, the display filter, the grid geometry and both thumbnail loops.
- `TagDialog`: the tag dialog.
- `Constants`: the fixed settings.
- Value helpers for Python's insertion-ordered `dict` (`OrderedDict`),
  `str`/`int` on numbers (`Decimal`) and `datetime` with its
  `"%Y-%m-%d %H:%M:%S"` text (`Calendar`).

The filesystem, the clock, JSON, PIL, OpenCV and the message boxes enter as
parameters:

- a directory listing and a map of modification times;
- the parsed tag file, or `None`;
- whether a write succeeds;
- a `Loader` of image functions;
- today's date;
- the answer to the yes/no question.

## Model

| member | source | states |
|---|---|---|
| `Constants.ExtensionTables` | src/constants.py:15-17 | the accepted extensions are the image extensions followed by the video extensions; each is a dot plus lower-case text; no extension is both an image and a video |
| `Constants.MinThumbWidthAgrees` | src/constants.py:20-21 | the stored minimum column width equals the thumbnail width plus 20, as the display manager computes it |
| `Decimal.FormatNat` | src/date_range_manager.py:210 | `str(n)` is a non-empty digit string, without a leading zero, whose value is `n` |
| `Decimal.Pad` | src/date_range_manager.py:211-212 | `f"{n:02d}"` has the value `n` and is exactly `width` long when `n` has fewer digits |
| `Decimal.ParseInt` | src/date_range_manager.py:191-193 | on the texts a read-only drop-down holds (empty or ASCII digits), `int(s)` fails on the empty text and otherwise gives the digits' value |
| `Decimal.ParseFormatNat` | src/date_range_manager.py:191 | `int(str(n)) == n` |
| `Decimal.ParsePad` | src/date_range_manager.py:192-193 | a zero-padded number reads back as the number |
| `Calendar.DaysInMonth` | src/date_range_manager.py:194 | the month lengths `datetime.date` accepts lie between 28 and 31 |
| `Calendar.DateOrderTotal` | src/date_range_manager.py:117 | the date order is total, antisymmetric and transitive, so `from > to` means `to < from` |
| `Calendar.DateTimeOrderTotal` | src/date_range_manager.py:163-164 | the date-time order is total and transitive, so `min` and `max` exist |
| `Calendar.DateOfMonotone` | src/date_range_manager.py:163-164 | `.date()` keeps the order: the earliest date-time has the earliest date |
| `Calendar.ParseDateTime` | src/date_range_manager.py:182 | `strptime` on the zero-padded text: whatever it accepts is a valid calendar date-time |
| `Calendar.ParseFormat` | src/logic.py:41 | the `createday` text the scan writes parses back to the same date-time |
| `OrderedDict.Empty` | src/logic.py:35 | `{}` has no keys |
| `OrderedDict.Put` | src/logic.py:46-55 | an assignment keeps the key list free of repetition and in line with the keys |
| `OrderedDict.PutAll` | src/logic.py:65 | after putting a list of keys, the values are the source's for those keys and unchanged for the rest; the old key order is a prefix |
| `OrderedDict.NewKeys` | src/logic.py:65 | the keys not yet present, each once, in order of first occurrence |
| `OrderedDict.PutAllOrder` | src/logic.py:65 | putting keys one by one appends each new key once, where it first comes |
| `OrderedDict.Update` | src/logic.py:65 | `d.update(e)`: the values of `e` win, the keys only `d` has keep their values, and `d`'s keys keep their places |
| `OrderedDict.UpdateOrder` | src/logic.py:65 | after `d.update(e)` the keys only `e` has follow `d`'s keys, in `e`'s order |
| `Logic.AsciiLower` | src/logic.py:19 | lower-casing keeps the length and lowers each ASCII capital |
| `Logic.Extension` | src/logic.py:19 | `splitext(name)[1]` is a suffix of the name that starts with a dot, or empty |
| `Logic.ExtensionLower` | src/logic.py:19 | taking the extension commutes with lower-casing |
| `Logic.MediaMatchIgnoresCase` | src/logic.py:19 | names that differ only in ASCII case are both media (and both video) or neither |
| `Logic.TagFileIsNotMedia` | src/logic.py:19-22 | the tag file itself, and a name like `.jpg`, are never scanned as media |
| `Logic.MediaFilesSpec` | src/logic.py:19 | the scan keeps exactly the listed files with a media extension, in listing order, each once |
| `Logic.Reconcile` | src/logic.py:35-55 | the rebuilt map is a well-formed ordered dict |
| `Logic.ReconcileShape` | src/logic.py:38-55 | the rebuilt map lists exactly the scanned files, in order; each record carries the file's time and its stored tags, or none for an unknown file |
| `Logic.ReconcileReadsOnlyTags` | src/logic.py:44-49 | the scan reads nothing from a stored record but its tags |
| `Logic.Dump` | src/logic.py:68-70 | the written file holds every file of the map, with its tags |
| `Logic.RescanIsIdempotent` | src/logic.py:26-72 | rescanning an unchanged folder after the scan saved its map gives the same map |
| `Logic.MissingJsonMeansNoTags` | src/logic.py:23-32 | without a readable tag file every scanned file starts with no tags |
| `Logic.FirstOccurrences` | src/logic.py:62 | the distinct elements of a list, each once |
| `Logic.Counter` | src/logic.py:62 | `Counter(tags)` has a key for exactly the tags that occur, with the number of their occurrences |
| `Logic.CounterOrder` | src/logic.py:62 | the counter lists the tags in order of first occurrence |
| `Logic.ScanFile` | src/logic.py:39-58 | one pass of the scan loop adds the file's record last and appends its tags to `temp_tags` |
| `Logic.ScanLoop` | src/logic.py:38-58 | the scan loop builds the reconciled map in listing order and collects every record's tags in that order |
| `Logic.Scan` | src/main.py:156 | the tuple-returning scan gives a well-formed map and well-formed fresh counts |
| `Logic.AccumulateCounts` | src/logic.py:62-65 | merged counts hold every earlier tag and every tag in the map; tags in the map get their fresh count, the others keep their old count; old keys keep their places |
| `Logic.AccumulateOrder` | src/logic.py:62-65 | tags the counts did not know come after the known ones, in the order the map's records first mention them |
| `Logic.ScanFolder` | src/logic.py:17-72 | `scan_tags`: the map is the reconciliation of the media files with the stored file, in listing order; the counts are merged; the file is rewritten only when the write succeeds |
| `Logic.Overwrite` | src/main.py:260-261 | a selected file's tags are replaced by the new tags, not merged with them; everything else is unchanged |
| `Logic.OverwriteSelected` | main.py:267-268 | the loop over the selection, in any order, yields that overwrite |
| `Logic.OverwriteSurvivesRescan` | src/main.py:260-277 | after writing the overwritten map and rescanning, a selected file has exactly the new tags, another known file keeps its tags, and a new file has none |
| `Logic.FrameRows` | src/logic.py:100-101 | the table rows exist exactly when every `createday` parses; they are the files in order with their tags and parsed times |
| `Logic.Frame` | src/logic.py:100-101 | the table exists exactly when the map is non-empty and every `createday` parses |
| `Logic.ScannedMapFrames` | src/logic.py:100-101 | a map the scan just built always gives a table once the folder holds a media file |
| `Logic.ScannedDatesParse` | src/logic.py:41 | every `createday` the scan wrote reads back as the file's time |
| `Logic.Filter` | src/logic.py:106-114 | a row is kept exactly when it is in the date range and passes the tag test |
| `Logic.FilterKeepsFilesDistinct` | src/logic.py:106-114 | filtering keeps files unique and adds none |
| `Logic.FilterAppend` | src/logic.py:106-114 | filtering keeps table order: it distributes over concatenation |
| `Logic.FilterKeepsAllWhenOpen` | src/logic.py:106-114 | with no tag selected and a range covering every row, nothing is filtered out |
| `Logic.NoneTagExcludesOthers` | src/logic.py:110-114 | "no tags" selected alongside a real tag only matches files carrying the "no tags" label as a tag |
| `Logic.MoreTagsFewerFiles` | src/logic.py:113-114 | selecting more tags never shows more files |
| `Logic.ShownTable` | src/components/thumbnail_display_manager.py:80-92 | the filtered file list exists exactly when the table does; its files are unique and all in the map |
| `Logic.Columns` | src/logic.py:120 | at least one column, and as many full minimum-width columns as fit in the frame |
| `Logic.Cell` | src/logic.py:154 | `(idx // columns, idx % columns)` has its column below `columns` and reads back as `idx` in row-major order |
| `Logic.CacheKey` | src/logic.py:132 | the cache key starts with the file name and is longer than it |
| `Logic.CacheKeyInjective` | src/logic.py:132 | two files share a cache key exactly when they are the same file |
| `Logic.VideoThumbnail` | src/logic.py:77-89 | a video whose first frame cannot be read gets the gray placeholder |
| `Logic.GenerateFails` | src/logic.py:136-145 | a video always gets a thumbnail; only a picture PIL cannot open gets none |
| `Logic.StoredThumbnailWins` | src/components/thumbnail_display_manager.py:189-201 | on a cache miss a stored thumbnail is used first; a file goes without only when there is no stored thumbnail and none can be made |
| `Logic.PlaceNextPlaces` | src/logic.py:136-155 | one loop step places the file in the given slot exactly when it is cached or can be made, and adds at most its key to the cache |
| `Logic.LegacyCached` | src/logic.py:136-149 | the legacy pass keeps every earlier cache entry, and every placed file shows its cached image |
| `Logic.LegacyLayout` | src/logic.py:128-155 | the legacy pass fills the grid row by row without gaps, the `j`-th thumbnail in cell `(j // columns, j % columns)`, and places only files of the table |
| `Logic.WidgetLayout` | src/components/thumbnail_display_manager.py:98-101 | the display manager's pass keeps the cache, puts the `i`-th table file in slot `i`, and its slots increase along the grid |
| `Logic.LegacyShows` | src/logic.py:128-181 | the legacy pass shows exactly the table files that are cached or whose image can be made, in table order, and caches at most those |
| `Logic.WidgetShows` | src/components/thumbnail_display_manager.py:98-101 | the display manager's pass shows exactly the cached or fetchable table files, in table order |
| `Logic.PlaceThumbnails` | src/logic.py:128-181 | the legacy thumbnail loop yields the grid and cache of the legacy pass |
| `TagButtons.SelectedKeys` | src/components/tag_button_manager.py:109-113 | the selected tags are exactly the checked boxes, each once |
| `TagButtons.NothingSelectedWhenClear` | src/components/tag_button_manager.py:109-113 | with no box checked the selection is empty |
| `TagButtons.Buttons` | src/components/tag_button_manager.py:37-78 | the rebuilt row has "no tags" first, then every known tag in count order; a box exists exactly for those; none is checked |
| `TagButtons.AfterToggle` | src/components/tag_button_manager.py:89-96 | the exclusivity rule keeps the box order and the box set |
| `TagButtons.NoneTagIsExclusive` | src/components/tag_button_manager.py:89-93 | after the "no tags" box is handled, the selection is that box alone or nothing |
| `TagButtons.TagClearsNoneTag` | src/components/tag_button_manager.py:94-96 | after a real tag is handled, "no tags" is unselected and every other box keeps its state |
| `TagButtons.CheckAll` | src/main.py:281-283 | checking a list of tags sets exactly their boxes and leaves the others |
| `TagButtons.TagButtonManager.constructor` | src/components/tag_button_manager.py:14-27 | a new row holds the given counts and the freshly built, unchecked boxes |
| `TagButtons.TagButtonManager.CreateTagButtons` | src/components/tag_button_manager.py:29-46 | the loop rebuilds the row that `Buttons` describes |
| `TagButtons.TagButtonManager.GetSelectedTags` | src/components/tag_button_manager.py:102-113 | the loop returns the checked tags in box order |
| `TagButtons.TagButtonManager.SetTagSelection` | src/components/tag_button_manager.py:122-131 | sets the box of a known tag; an unknown tag changes nothing |
| `TagButtons.TagButtonManager.OnTagToggle` | src/components/tag_button_manager.py:80-100 | applies the exclusivity rule to the boxes and runs the callback when one is set |
| `TagButtons.TagButtonManager.Click` | src/components/tag_button_manager.py:69-74 | a click flips the box, then the exclusivity rule applies |
| `TagButtons.TagButtonManager.ClearSelection` | src/components/tag_button_manager.py:117-120 | every box is unchecked; the boxes themselves stay |
| `TagButtons.TagButtonManager.UpdateTagCounts` | src/components/tag_button_manager.py:133-141 | new counts rebuild the row, which drops every selection |
| `TagDialog.Strip` | src/submenu.py:57 | `str.strip()` cuts only white space off the ends; what is kept starts and ends with something else |
| `TagDialog.StripIdempotent` | src/submenu.py:57 | stripping twice changes nothing more |
| `TagDialog.StripKeepsTrimmed` | src/submenu.py:57 | a text with no white space at its ends is kept as it is |
| `TagDialog.MarkedIndices` | src/submenu.py:65 | `curselection()` lists exactly the marked positions, in increasing order |
| `TagDialog.PickedAtMarks` | src/submenu.py:65-66 | the `k`-th tag handed over is the entry at the `k`-th marked position: list order, each once |
| `TagDialog.NothingPicked` | src/submenu.py:65-66 | nothing marked, nothing handed over |
| `TagDialog.AllPicked` | src/submenu.py:65-66 | everything marked, the whole list in order |
| `TagDialog.PickedCons` | src/submenu.py:65-66 | the top entry comes first among the picked tags exactly when it is marked |
| `TagDialog.AddedTagComesFirst` | src/submenu.py:59-62 | a tag just added is the first tag handed over |
| `TagDialog.SubMenu.constructor` | src/submenu.py:5-43 | the dialog lists the known tags in the given order, none marked, with an empty entry |
| `TagDialog.SubMenu.SetEntry` | src/submenu.py:19-20 | typing sets the entry text only |
| `TagDialog.SubMenu.ClickItem` | src/submenu.py:28 | a click flips whether one entry is marked |
| `TagDialog.SubMenu.AddTag` | src/submenu.py:56-62 | a non-empty stripped text that is not a known tag goes on top, marked, and the entry is cleared; anything else changes nothing |
| `TagDialog.SubMenu.SaveTags` | src/submenu.py:64-71 | hands over the marked entries in list order; the callback fires once at most; the dialog is destroyed |
| `TagDialog.SubMenu.Destroy` | src/submenu.py:71 | the dialog is destroyed and nothing else changes |
| `ThumbnailDisplay.Toggled` | src/components/thumbnail_display_manager.py:123-128 | a toggle flips exactly the clicked file in the selection |
| `ThumbnailDisplay.ToggleTwice` | src/components/thumbnail_display_manager.py:123-128 | toggling the same file twice restores the selection |
| `ThumbnailDisplay.ShowsPlaceableFiles` | src/components/thumbnail_display_manager.py:63-101 | a redraw shows exactly the filtered files that are cached or fetchable, in table order |
| `ThumbnailDisplay.ThumbnailDisplayManager.constructor` | src/components/thumbnail_display_manager.py:19-44 | a new grid shares the given cache, has one column, and holds no selection and no thumbnails |
| `ThumbnailDisplay.ThumbnailDisplayManager.AddToSelection` | src/components/thumbnail_display_manager.py:104-107 | the file joins the selection |
| `ThumbnailDisplay.ThumbnailDisplayManager.RemoveFromSelection` | src/components/thumbnail_display_manager.py:109-112 | the file leaves the selection; an unselected file is no error |
| `ThumbnailDisplay.ThumbnailDisplayManager.GetSelectedItems` | src/components/thumbnail_display_manager.py:115-117 | returns the selection |
| `ThumbnailDisplay.ThumbnailDisplayManager.ToggleSelection` | src/components/thumbnail_display_manager.py:123-128 | the clicked file flips, and nothing else changes |
| `ThumbnailDisplay.ThumbnailDisplayManager.OnThumbnailDoubleClick` | src/components/thumbnail_display_manager.py:324-331 | after opening a file it is no longer selected |
| `ThumbnailDisplay.ThumbnailDisplayManager.OnThumbnailRightClick` | src/components/thumbnail_display_manager.py:333-345 | the callback runs exactly when files are selected and a callback is set |
| `ThumbnailDisplay.ThumbnailDisplayManager.ClearSelection` | src/components/thumbnail_display_manager.py:154-157 | the loop empties the selection and touches nothing else |
| `ThumbnailDisplay.ThumbnailDisplayManager.CalculateColumns` | src/components/thumbnail_display_manager.py:159-171 | the column count is recorded and returned |
| `ThumbnailDisplay.ThumbnailDisplayManager.CreateThumbnailWidget` | src/components/thumbnail_display_manager.py:173-232 | a cached image is shown as it is; otherwise the fetched thumbnail is cached and shown; a file with none is skipped; the slot is the given index |
| `ThumbnailDisplay.ThumbnailDisplayManager.PlaceAll` | src/components/thumbnail_display_manager.py:97-101 | the loop yields the grid and the cache of the display manager's pass |
| `ThumbnailDisplay.ThumbnailDisplayManager.ShowThumbnails` | src/components/thumbnail_display_manager.py:63-101 | the selection is cleared; the grid is that pass over the filtered table, or empty with the cache untouched when the table cannot be built |
| `DateRange.FieldsDate` | src/date_range_manager.py:188-196 | three texts name a date exactly when all three parse and form a valid calendar date |
| `DateRange.TextsRoundTrip` | src/date_range_manager.py:188-218 | a date written to the drop-downs reads back unchanged |
| `DateRange.ChoiceText` | src/date_range_manager.py:55-98 | every drop-down entry is a digit text that reads back as its number |
| `DateRange.CreatedayList` | src/date_range_manager.py:181-185 | the parsed `createday` list exists exactly when every text parses, and lists them in map order |
| `DateRange.Earliest` | src/date_range_manager.py:163 | `min` is a member no later than any other |
| `DateRange.Latest` | src/date_range_manager.py:164 | `max` is a member no earlier than any other |
| `DateRange.DataRange` | src/date_range_manager.py:155-170 | FROM is the date of the earliest date-time and TO the date of the latest: each end is the date of a member, and the range is ordered and holds every member's date; today twice for no data |
| `DateRange.RangeCoversMap` | src/date_range_manager.py:37-39 | the range set from a map covers every file of it, so the first view filters nothing out by date |
| `DateRange.ScannedMapHasDates` | src/date_range_manager.py:181-186 | a freshly scanned map always yields its date list, of valid date-times |
| `DateRange.DateRangeManager.GetFromDate` | src/date_range_manager.py:188-196 | the FROM date is always a valid date: the one the texts name, or today |
| `DateRange.DateRangeManager.GetToDate` | src/date_range_manager.py:198-206 | the TO date is always a valid date: the one the texts name, or today |
| `DateRange.DateRangeManager.ShowsReadsBack` | src/date_range_manager.py:132-142 | once the texts name a range, that range is read back on any day |
| `DateRange.DateRangeManager.constructor` | src/date_range_manager.py:15-39 | a map with files sets the range its files span; an empty map leaves every drop-down empty |
| `DateRange.DateRangeManager.SetFromDate` | src/date_range_manager.py:208-212 | FROM gets the texts of the date, reads back as it, and TO is untouched |
| `DateRange.DateRangeManager.SetToDate` | src/date_range_manager.py:214-218 | TO gets the texts of the date, reads back as it, and FROM is untouched |
| `DateRange.DateRangeManager.SetDateRange` | src/date_range_manager.py:144-153 | the drop-downs name exactly the given range |
| `DateRange.DateRangeManager.SetDateRangeFromData` | src/date_range_manager.py:155-170 | the drop-downs name the range of the data |
| `DateRange.DateRangeManager.SetDateRangeFromImageData` | src/date_range_manager.py:172-186 | with every `createday` parsing, the drop-downs name the range of the map; otherwise nothing is set |
| `DateRange.DateRangeManager.OnDateChange` | src/date_range_manager.py:106-130 | a FROM later than TO sets TO to exactly FROM, does not notify, and leaves FROM; otherwise nothing changes and the callback runs; either way the range reads back in order |
| `DateRange.DateRangeManager.Pick` | src/date_range_manager.py:55-100 | after any pick the range reads back in order |
| `DateRange.DateRangeManager.ResetDateRange` | src/date_range_manager.py:220-226 | the range of the map given at construction is set again; the callback runs when it was set |
| `LegacyApp.RemoveFirst` | main.py:294 | `list.remove(x)` drops the first `x` and keeps the rest in order |
| `LegacyApp.RestoreFrom` | main.py:286-294 | the restore loop only ever checks boxes that exist |
| `LegacyApp.RestoreAllPresent` | main.py:286-294 | when every selected tag still has a box, the loop keeps the list and re-checks every tag |
| `LegacyApp.RestoreKeepsVisited` | main.py:286-294 | on a list without repetition, the visits from a position on never touch earlier positions |
| `LegacyApp.RestoreSkipsNext` | main.py:286-294 | removing a boxless tag during the iteration moves the next tag into the visited position, so it is skipped and stays in the list |
| `LegacyApp.RestoreVisit` | main.py:289-294 | one visit checks a tag's box or removes the boxless tag, as `RestoreFrom` steps |
| `LegacyApp.RestoreLoop` | main.py:286-294 | the loop run in place yields the list and the boxes `RestoreFrom` describes |
| `LegacyApp.RestoreSelection` | main.py:286-294 | after a rescan every selected tag is kept and its box checked again |
| `LegacyApp.UncheckRealTags` | main.py:192-196 | the loop clears every box but "no tags" |
| `LegacyApp.DrawGrid` | src/logic.py:93-181 | the grid is the legacy pass over the filtered table, or empty with the cache untouched when the table cannot be built; only files of the map are placed |
| `LegacyApp.RescanKeepsBoxes` | main.py:281-294 | the rescan only adds tags, so every selected tag still has a box and the row stays in line with the counts |
| `LegacyApp.RescanWritten` | main.py:281-294 | the rescan over the written map gives the reconciled map, the merged counts, the stored file, and the selection checked again on fresh boxes |
| `LegacyApp.ThumbnailApp.constructor` | main.py:22-164 | scans the folder with fresh counts, writes the tag file when the write succeeds, builds the unchecked boxes, and sets the pickers to the span of the files (today twice for none) |
| `LegacyApp.ThumbnailApp.ScanTags` | src/logic.py:17-72 | the bound `scan_tags` replaces the map and merges the counts into `all_tags` |
| `LegacyApp.ThumbnailApp.CreateTagButtons` | main.py:137 | the boxes are rebuilt for the current counts |
| `LegacyApp.ThumbnailApp.ShowThumbnails` | src/logic.py:93-181 | the bound `show_thumbnails` redraws the grid for the current filters |
| `LegacyApp.ThumbnailApp.OnDateChange` | main.py:167-179 | a FROM later than TO sets TO to FROM and stops; otherwise the grid is redrawn |
| `LegacyApp.ThumbnailApp.ToggleBoxes` | main.py:183-202 | applies the exclusivity rule, reads the checked tags back and clears the file selection |
| `LegacyApp.ThumbnailApp.OnTagToggle` | main.py:183-204 | the boxes as the rule leaves them, then the grid redrawn for the new tags |
| `LegacyApp.ThumbnailApp.OnWindowResize` | main.py:208-220 | a redraw is scheduled exactly when the window's own size differs from the last one, which is then recorded |
| `LegacyApp.ThumbnailApp.OnThumbnailClick` | main.py:238-252 | the clicked file flips in the selection |
| `LegacyApp.ThumbnailApp.OnMainFrameRightClick` | main.py:325-342 | the dialog opens on the known tags in count order exactly when files are selected |
| `LegacyApp.ThumbnailApp.ApplyTags` | main.py:266-268 | every selected file gets the new tags |
| `LegacyApp.ThumbnailApp.SaveAndRescan` | main.py:266-294 | overwrite, write, rescan, rebuild the boxes, check the earlier selection again, and clear the file selection |
| `LegacyApp.ThumbnailApp.SaveAndRedraw` | main.py:266-296 | that rescan, then the grid redrawn |
| `LegacyApp.ThumbnailApp.CloseMenu` | main.py:302-303 | an open dialog is destroyed |
| `LegacyApp.ThumbnailApp.CloseMenuWhen` | main.py:302-303 | the dialog is destroyed when the handler reaches its last lines, and left as it is otherwise |
| `LegacyApp.ThumbnailApp.HandOver` | main.py:265-300 | a declined update changes nothing; an unsaved update leaves only the map overwritten; a saved one rescans and redraws |
| `LegacyApp.ThumbnailApp.OnTagMenuClose` | main.py:255-303 | no tags, or a save whose grid is drawn, destroys the dialog. The handler does not touch the dialog on a declined or unsaved update, where `TagDialog.SubMenu.SaveTags` destroys it once the handler returns. Nor does it after a save whose rescan finds no media file, where the redraw raises before the dialog is reached. Each outcome's state is as in `HandOver` |
| `App.RestoreAsWrittenSelectsNothing` | src/main.py:277-283 | the restore loop as written re-checks nothing: no box is checked after a save |
| `App.RestoredKeeping` | src/main.py:280-283 | the corrected restore gives a well-formed row |
| `App.RestoredKeepingSelection` | src/main.py:280-283 | reading the selection before the rebuild re-checks exactly the earlier tags that still have a box |
| `App.SelectionLostOnSave` | src/main.py:277-283 | any known tag checked before a save is unchecked as written, and kept by the corrected restore |
| `App.ThumbnailApp.constructor` | src/main.py:153-181 | scans the folder; builds the boxes for its counts; sets the pickers to the span of its files; starts an empty grid with an empty cache |
| `App.ThumbnailApp.ShowThumbnailsWrapper` | src/main.py:190-204 | the grid is redrawn for the checked tags and the picked dates; the selection is cleared |
| `App.ThumbnailApp.OnWindowResize` | src/main.py:210-220 | a redraw is scheduled exactly when the window's own size differs from the last one, which is then recorded |
| `App.ThumbnailApp.OnThumbnailClick` | src/components/thumbnail_display_manager.py:315-322 | the clicked file flips in the display's selection; the grid and cache stay |
| `App.ThumbnailApp.OnMainFrameRightClick` | src/main.py:235-244 | the dialog always opens on the known tags in count order |
| `App.ThumbnailApp.CheckTags` | src/main.py:281-283 | setting every listed tag that has a box checks exactly those boxes |
| `App.ThumbnailApp.RebuildAsWritten` | src/main.py:277-283 | the counts are replaced and the row ends up as the as-written restore leaves it |
| `App.ThumbnailApp.RebuildKeepingSelection` | src/main.py:278-283 | with the selection read first, the row ends up with the earlier tags checked again |
| `App.ThumbnailApp.SaveAndRescan` | src/main.py:264-283 | the map is written; the map and counts are replaced by a fresh scan over it; no tag stays selected |
| `App.ThumbnailApp.SaveAndRefresh` | src/main.py:264-285 | that rescan, then the grid redrawn with no tag filter |
| `App.ThumbnailApp.HandOver` | src/main.py:256-289 | a declined update changes nothing; an unsaved update leaves the map overwritten and no rescan; a saved one writes, rescans, drops the tag filter and redraws |
| `App.ThumbnailApp.OnTagMenuClose` | src/main.py:246-293 | no tags, or a save whose grid is drawn, destroys the dialog and forgets it. On a declined or unsaved update the handler touches neither the dialog nor the reference: `TagDialog.SubMenu.SaveTags` then destroys the dialog, and `tag_menu` keeps pointing at it. The same holds after a save whose rescan finds no media file, where the redraw raises at src/main.py:285 first. Each outcome's state is as in `HandOver` |
| `App.ThumbnailApp.CloseMenuWhen` | src/main.py:291-293 | when the handler reaches its last lines, the dialog is destroyed and the reference cleared; otherwise both are left as they are |

## Left out

- Tk itself is not modelled: widgets, frames, canvases, scrollbars, styles,
  label texts, mouse-wheel scrolling (main.py:224-235, src/main.py:222-233),
  the folder dialog `show_select_folder` (src/main.py:296-312) and the UI
  setup and clearing methods (src/main.py:52-151). They only arrange or
  restyle widgets.
- The filesystem, JSON, PIL, OpenCV, `os.startfile` and the clock are
  parameters. These are the listing, the modification times, the parsed tag
  file, whether a write succeeds, a `Loader`, and today's date.
  `datetime.fromtimestamp` is folded into the given times.
- Message boxes are not modelled. The answer of `askyesno` is a parameter;
  `showinfo` only informs.
- `self.canvas_thumb.yview_moveto(0)` after a redraw is left out (scrolling only).
- `logic.create_tag_buttons`, which main.py:137 binds, is not defined in
  src/logic.py, so the legacy constructor raises `AttributeError` as written.
  `LegacyApp.ThumbnailApp.CreateTagButtons` assumes the checkbox row that
  the legacy handlers and `TagButtonManager.create_tag_buttons` build.
- src/logic.py:104 reads `self.date_range_manager`, which the legacy window
  never sets, so every legacy redraw raises as written. `LegacyApp` filters
  on its own FROM/TO dates instead.
- src/main.py:156 calls a `scan_tags(folder)` that returns a tuple; the
  src/logic.py shown has only the method form. `Logic.Scan` models it as the
  shown reconciliation with fresh counts and no write.
- `logic.get_thumbnail_from_cache`, called at
  src/components/thumbnail_display_manager.py:193, is not part of this model.
  It is the `storedThumbnail` function of the `Loader`.
- `Logic.AsciiLower` lowers ASCII letters only, while `str.lower` is Unicode.
  An extension like ".MKV" spelled with the KELVIN SIGN (U+212A) is a video
  to Python but not media in the model.
- A write that fails after `open(..., "w")` has truncated the tag file is
  modelled as leaving the stored file unchanged. This applies to
  `Logic.ScanFolder`'s `saveOk` and to the unsaved outcomes. In Python the
  next scan would find unreadable JSON and start from `{}`, losing every tag.
- `Logic.Record` always has a `createday`, because every record the scan
  builds has one. So the `if "createday" in ...` filter of
  src/date_range_manager.py:181-186 and main.py:151-155 cannot be expressed.
  `DateRange.ScannedMapHasDates` states what holds instead: every record of
  a scanned map has a parsable `createday`.
- pandas' `to_datetime` accepts more formats than `strptime`. The model reads
  `createday` with the one format the scan writes.
- `Calendar.ParseDateTime` accepts only the zero-padded 19-character text.
  `strptime` with `"%Y-%m-%d %H:%M:%S"` also accepts unpadded fields such as
  `"2024-1-5 1:2:3"`. Every `createday` is written by the scan in the padded
  form (`Logic.ScannedDatesParse`), so no other text reaches it.
- `Decimal.ParseInt` rejects what Python's `int` also accepts: a sign,
  surrounding white space, underscores and non-ASCII digits. The date
  drop-downs are read-only (src/date_range_manager.py:55-96), so their texts
  are always empty or ASCII digits.
- src/main.py:8 imports `SubMenu` from `components/update_tag_menu`, and
  src/main.py:10 imports `DateRangeManager` from `components/date_range_manager`.
  Neither module is part of this model. `App.ThumbnailApp.OnMainFrameRightClick`
  opens the dialog of src/submenu.py (`TagDialog.SubMenu`), and `App` uses the
  manager of src/date_range_manager.py.
- The `TagButtonManager` calls its callback with the tag
  (src/components/tag_button_manager.py:100). src/main.py:165 passes
  `_show_thumbnails_wrapper`, which takes no argument, so a tag click raises
  `TypeError` there. `TagButtons.TagButtonManager.OnTagToggle` only reports
  that the callback runs.
- The thumbnail cache shared by reference between the window and the display
  manager (src/main.py:179) is the display manager's own field.
- `DateRange.DateRangeManager.constructor` requires every `createday` to
  parse; with one that does not, the source's constructor raises.
- `DateRange.DateRangeManager.Pick` states only that the range reads back in
  order after the pick. The texts are as `OnDateChange` leaves them after the
  picked text is set.
- `TagDialog.SubMenu.SaveTags` models `save_tags` when the close callback
  returns. When the callback raises, `on_close = None` and `destroy()` at
  src/submenu.py:70-71 are skipped, so the dialog stays open with its
  callback set. This happens after a save whose rescan finds no media file:
  the redraw of the empty map raises at src/logic.py:101 and
  src/components/thumbnail_display_manager.py:82. Both `OnTagMenuClose`
  members state that the handler leaves the dialog alone in that case
  (`Saved(false)`).
- `TagButtons.TagButtonManager.Click` and `TagButtons.Buttons` give a real
  tag spelled like the "no tags" label the sentinel's entry, and a click on
  the "no tags" box flips that entry. In the source the rebuilt row
  rebinds `check_vars[NONE_TAG_TEXT]` to the real tag's variable
  (src/components/tag_button_manager.py:77). The "no tags" checkbox keeps
  writing its own orphaned variable, so clicking it changes no entry and
  the no-tags filter can no longer be selected. The dialog lets such a tag
  be added, because its list holds only real tags (src/submenu.py:9, 58).
- `Logic.StoredRecord` and `Logic.ScanFolder` assume that the parsed tag file
  maps file names to objects whose `"tags"`, when present, is a list of
  strings. Other shapes raise in the source after the guarded `json.load`,
  and nothing catches them:
  - an entry that is not an object raises `AttributeError` at `.get`
    (src/logic.py:48);
  - `"tags": null` raises `TypeError` at `temp_tags.extend` (src/logic.py:58);
  - a top level that is not an object fails at the membership test.
- `App.ThumbnailApp.OnTagMenuClose` follows the code as written: after a save
  no tag filter survives (see Findings). The corrected rebuild is
  `App.ThumbnailApp.RebuildKeepingSelection`. The legacy window reads the
  selection before rebuilding (`LegacyApp.RestoreSelection`).
- The dialog's own `transient`, `grab_set`, `focus_set` and window-close
  binding are not modelled. A close through the window manager is
  `OnTagMenuClose` with no tags (`[]` stands for `None`).

## Findings

| source | as written | input that shows it | evidently intended | confidence | as-written member | corrected member |
|---|---|---|---|---|---|---|
| src/main.py:277-283 | the restore loop reads the selected tags with `get_selected_tags()` after `update_tag_counts` has rebuilt every box unchecked, so it re-checks nothing and every tag filter is lost on save | counts `{"a": 1}` with the box of "a" checked before a confirmed, saved update: afterwards no box is checked (`App.SelectionLostOnSave`) | read the selection before the rebuild and check those tags again where they still have a box, as the legacy window does with `selected_tags` | not executed | `App.RestoreAsWrittenSelectsNothing` | `App.RestoredKeepingSelection` |

=== FILE: app.dfy ===
/** The refactored viewer: a window that owns the tag map and the tag
    counts and hands the checkbox row, the date pickers and the thumbnail
    grid to three manager objects, which it wires together through
    callbacks. */
module App {
  import opened Wrappers
  import opened OrderedDict
  import opened Calendar
  import opened Logic
  import opened TagButtons
  import opened DateRange
  import opened TagDialog
  import opened ThumbnailDisplay
  import Constants

  /** What `on_tag_menu_close` did. */
  datatype MenuClose =
    | Dismissed           // no tags handed over: the dialog is destroyed and forgotten
    | Declined            // not confirmed: the handler leaves the dialog to `save_tags`, which destroys it
    | NotSaved            // no folder or no write: the handler leaves the dialog to `save_tags`
    | Saved(shown: bool)  // written and rescanned; drawn, and the dialog destroyed and forgotten, only when `shown`
  {
    /** Whether the handler itself closes the dialog. */
    predicate Closes() {
      Dismissed? || (Saved? && shown)
    }
  }

  /** The boxes the rescan leaves when the selection is read back only after
      the boxes were rebuilt, as the restore loop does: the rebuilt row,
      whatever was checked before. */
  function RestoredAsWritten(counts: TagCounts): (d: Dict<bool>)
    requires Valid(counts)
  {
    var rebuilt := Buttons(counts);
    CheckAll(rebuilt, SelectedKeys(rebuilt))
  }

  /** The restore loop as written re-checks nothing: every box of the
      rebuilt row is clear, so no tag filter survives a save. */
  lemma RestoreAsWrittenSelectsNothing(counts: TagCounts)
    requires Valid(counts)
    ensures RestoredAsWritten(counts) == Buttons(counts)
    ensures SelectedKeys(RestoredAsWritten(counts)) == []
  {
    var rebuilt := Buttons(counts);
    NothingSelectedWhenClear(rebuilt);
    assert CheckAll(rebuilt, []).items == rebuilt.items;
  }

  /** The boxes the rescan evidently means to leave: the row rebuilt for the
      new counts, with the tags that were checked before the rebuild checked
      again. */
  function RestoredKeeping(counts: TagCounts, before: seq<string>): (d: Dict<bool>)
    requires Valid(counts)
    ensures Valid(d)
  {
    CheckAll(Buttons(counts), before)
  }

  /** With the selection read before the rebuild, exactly the earlier
      selected tags that still have a box are checked again. */
  lemma RestoredKeepingSelection(counts: TagCounts, before: seq<string>)
    requires Valid(counts)
    ensures forall t :: t in SelectedKeys(RestoredKeeping(counts, before)) <==>
      t in before && (t == Constants.NoneTagText || t in counts.items)
  {
  }

  /** Any known tag shows the difference: with its box checked before the
      save, the rescan as written clears it, while reading the selection
      first keeps it. */
  lemma SelectionLostOnSave(counts: TagCounts, t: string)
    requires Valid(counts) && t in counts.items
    ensures t !in SelectedKeys(RestoredAsWritten(counts))
    ensures t in SelectedKeys(RestoredKeeping(counts, [t]))
  {
    RestoreAsWrittenSelectsNothing(counts);
    RestoredKeepingSelection(counts, [t]);
  }

  class ThumbnailApp {
    /** Whether a folder was chosen. */
    const folderSet: bool
    /** The tag file in the folder as it would parse; `None` when it is
        missing or unreadable. */
    var stored: Option<StoredMap>
    var imageTagMap: TagMap
    var allTags: TagCounts
    var lastSize: (int, int)
    var tagMenu: SubMenu?
    const tagButtons: TagButtonManager
    const dateRange: DateRangeManager
    /** The grid, which also holds the application's thumbnail cache. */
    const display: ThumbnailDisplayManager

    /** The checkbox row shows the current counts and the pickers hold
        texts. */
    ghost predicate Wired()
      reads this, tagButtons, dateRange
    {
      && Valid(imageTagMap) && Valid(allTags)
      && tagButtons.Consistent() && tagButtons.allTags == allTags
      && dateRange.Consistent()
    }

    /** Wired, and only files of the map are selected or on the grid. */
    ghost predicate Consistent()
      reads this, tagButtons, dateRange, display
    {
      && Wired()
      && display.selectedItems <= imageTagMap.items.Keys
      && (forall j :: 0 <= j < |display.placed| ==> display.placed[j].file in imageTagMap.items)
    }

    /** `__init__` with `_initialize_data`: the folder is scanned, the boxes
        are built for its counts, the pickers set to the range its files
        span, and the grid starts empty with an empty cache. */
    constructor(folderSet: bool, listing: seq<string>, mtime: map<string, DateTime>, stored: Option<StoredMap>,
                size: (int, int), today: Date)
      requires Distinct(listing) && HasTimes(MediaFiles(listing), mtime) && ValidDate(today)
      ensures Consistent()
      ensures this.folderSet == folderSet && this.stored == stored && lastSize == size && tagMenu == null
      ensures (imageTagMap, allTags) == Scan(listing, mtime, stored)
      ensures tagButtons.checkVars == Buttons(allTags) && tagButtons.hasCallback
      ensures dateRange.imageTagMap == imageTagMap && dateRange.hasCallback
      ensures CreatedayList(imageTagMap).Some?
      ensures imageTagMap.order != [] ==>
        var r := DataRange(CreatedayList(imageTagMap).value, today); dateRange.Shows(r.0, r.1)
      ensures display.selectedItems == {} && display.placed == [] && display.thumbnailCache == map[]
      ensures display.hasRightClickCallback
    {
      var scanned := Scan(listing, mtime, stored);
      MediaFilesSpec(listing);
      ScannedMapHasDates(MediaFiles(listing), mtime, Existing(stored));
      assert scanned.0 == Reconcile(MediaFiles(listing), mtime, Existing(stored));
      this.folderSet, this.stored, lastSize := folderSet, stored, size;
      imageTagMap, allTags := scanned.0, scanned.1;
      tagMenu := null;
      tagButtons := new TagButtonManager(scanned.1, true);
      dateRange := new DateRangeManager(scanned.0, true, today);
      display := new ThumbnailDisplayManager(map[], true);
    }

    /** `_show_thumbnails_wrapper`: the grid is redrawn for the checked tags
        and the picked dates; the selection is cleared on the way. */
    method ShowThumbnailsWrapper(frameWidth: nat, ld: Loader, today: Date) returns (ok: bool)
      requires Wired() && ValidDate(today)
      modifies display
      ensures Consistent()
      ensures display.selectedItems == {}
      ensures var table := ShownTable(imageTagMap, dateRange.GetFromDate(today), dateRange.GetToDate(today),
                                      SelectedKeys(tagButtons.checkVars));
        && (ok <==> table.Some?)
        && (ok ==> Grid(display.placed, display.thumbnailCache)
                     == WidgetRender(table.value, Columns(frameWidth), old(display.thumbnailCache), Fetcher(ld)))
        && (!ok ==> display.placed == [] && display.thumbnailCache == old(display.thumbnailCache))
    {
      var selected := tagButtons.GetSelectedTags();
      var range := dateRange.GetDateRange(today);
      ok := display.ShowThumbnails(imageTagMap, range.0, range.1, selected, frameWidth, ld);
      if ok {
        var table := ShownTable(imageTagMap, range.0, range.1, selected).value;
        WidgetLayout(table, Columns(frameWidth), old(display.thumbnailCache), Fetcher(ld));
      }
    }

    /** `_on_window_resize`: a new size of the window itself is recorded and
        a redraw is scheduled for when Tk is idle. */
    method OnWindowResize(fromWindow: bool, newSize: (int, int)) returns (scheduled: bool)
      modifies this`lastSize
      ensures scheduled <==> fromWindow && newSize != old(lastSize)
      ensures lastSize == if scheduled then newSize else old(lastSize)
    {
      scheduled := false;
      if fromWindow && newSize != lastSize {
        lastSize := newSize;
        scheduled := true;
      }
    }

    /** A click on the `j`-th thumbnail of the grid, which the grid binds to
        its own toggle: the file flips in the selection. */
    method OnThumbnailClick(j: nat)
      requires Consistent() && j < |display.placed|
      modifies display
      ensures Consistent()
      ensures display.selectedItems == Toggled(old(display.selectedItems), old(display.placed[j].file))
      ensures display.placed == old(display.placed) && display.thumbnailCache == old(display.thumbnailCache)
    {
      display.ToggleSelection(display.placed[j].file);
    }

    /** `on_main_frame_right_click`: opens the tag dialog on the known tags
        in count order, whether or not files are selected. */
    method OnMainFrameRightClick()
      modifies this`tagMenu
      ensures tagMenu != null && fresh(tagMenu)
      ensures tagMenu.allTags == allTags.order && tagMenu.items == allTags.order && tagMenu.Consistent()
      ensures forall i :: 0 <= i < |tagMenu.marks| ==> !tagMenu.marks[i]
      ensures tagMenu.hasOnClose && !tagMenu.destroyed && tagMenu.entry == []
    {
      tagMenu := new SubMenu(allTags.order, true);
    }

    /** `for tag in tags: if tag in check_vars: set_tag_selection(tag, True)` */
    method CheckTags(tags: seq<string>)
      requires tagButtons.Consistent()
      modifies tagButtons
      ensures tagButtons.Consistent() && tagButtons.allTags == old(tagButtons.allTags)
      ensures tagButtons.checkVars == CheckAll(old(tagButtons.checkVars), tags)
    {
      ghost var d := tagButtons.checkVars;
      var i := 0;
      while i < |tags|
        invariant 0 <= i <= |tags|
        invariant tagButtons.Consistent() && tagButtons.allTags == old(tagButtons.allTags)
        invariant tagButtons.checkVars.order == d.order && tagButtons.checkVars.items.Keys == d.items.Keys
        invariant forall k :: k in d.items ==> tagButtons.checkVars.items[k] == (d.items[k] || k in tags[..i])
      {
        assert tags[..i + 1] == tags[..i] + [tags[i]];
        if tags[i] in tagButtons.checkVars.items {
          tagButtons.SetTagSelection(tags[i], true);
        }
        i := i + 1;
      }
      assert tags[..i] == tags;
      CheckAllPointwise(d, tagButtons.checkVars, tags);
    }

    /** The rescan of `on_tag_menu_close` as written: the new counts rebuild
        the boxes, and the restore loop then walks the tags checked on the
        rebuilt row, which are none. */
    method RebuildAsWritten(counts: TagCounts)
      requires tagButtons.Consistent() && Valid(counts)
      modifies tagButtons
      ensures tagButtons.Consistent() && tagButtons.allTags == counts
      ensures tagButtons.checkVars == RestoredAsWritten(counts)
    {
      tagButtons.UpdateTagCounts(counts);
      var selected := tagButtons.GetSelectedTags();
      CheckTags(selected);
    }

    /** The rescan with the selection read before the boxes are rebuilt:
        the tags checked before are checked again where they still have a
        box. */
    method RebuildKeepingSelection(counts: TagCounts)
      requires tagButtons.Consistent() && Valid(counts)
      modifies tagButtons
      ensures tagButtons.Consistent() && tagButtons.allTags == counts
      ensures tagButtons.checkVars == RestoredKeeping(counts, SelectedKeys(old(tagButtons.checkVars)))
    {
      var selected := tagButtons.GetSelectedTags();
      tagButtons.UpdateTagCounts(counts);
      CheckTags(selected);
    }

    /** The save and the rescan of `on_tag_menu_close`: the map with the new
        tags is written, the folder is scanned again over it, and the boxes
        are rebuilt for the new counts with the restore loop as written. */
    method SaveAndRescan(listing: seq<string>, mtime: map<string, DateTime>)
      requires Wired() && HasTimes(MediaFiles(listing), mtime)
      modifies this`stored, this`imageTagMap, this`allTags, tagButtons
      ensures Wired()
      ensures stored == Some(Dump(old(imageTagMap)))
      ensures (imageTagMap, allTags) == Scan(listing, mtime, stored)
      ensures tagButtons.checkVars == RestoredAsWritten(allTags)
      ensures SelectedKeys(tagButtons.checkVars) == []
    {
      stored := Some(Dump(imageTagMap));
      var scanned := Scan(listing, mtime, stored);
      imageTagMap, allTags := scanned.0, scanned.1;
      RebuildAsWritten(allTags);
      RestoreAsWrittenSelectsNothing(allTags);
    }

    /** The save and the rescan, then the grid redrawn with no tag filter,
        since none survives the rebuild. */
    method SaveAndRefresh(listing: seq<string>, mtime: map<string, DateTime>,
                          frameWidth: nat, ld: Loader, today: Date) returns (shown: bool)
      requires Consistent() && ValidDate(today) && HasTimes(MediaFiles(listing), mtime)
      modifies this`stored, this`imageTagMap, this`allTags, tagButtons, display
      ensures Consistent()
      ensures stored == Some(Dump(old(imageTagMap)))
      ensures (imageTagMap, allTags) == Scan(listing, mtime, stored)
      ensures tagButtons.checkVars == RestoredAsWritten(allTags)
      ensures display.selectedItems == {}
      ensures var table := ShownTable(imageTagMap, dateRange.GetFromDate(today), dateRange.GetToDate(today), []);
        && (shown <==> table.Some?)
        && (shown ==> Grid(display.placed, display.thumbnailCache)
                        == WidgetRender(table.value, Columns(frameWidth), old(display.thumbnailCache), Fetcher(ld)))
    {
      SaveAndRescan(listing, mtime);
      shown := ShowThumbnailsWrapper(frameWidth, ld, today);
    }

    /** The branch of `on_tag_menu_close` for tags handed over: nothing
        happens unless the update is confirmed; a confirmed update gives the
        selected files exactly those tags, and only when the map is then
        written is the folder scanned again and the grid redrawn. */
    method HandOver(updateTags: seq<string>, confirmed: bool, saveOk: bool,
                    listing: seq<string>, mtime: map<string, DateTime>,
                    frameWidth: nat, ld: Loader, today: Date) returns (outcome: MenuClose)
      requires Consistent() && ValidDate(today) && HasTimes(MediaFiles(listing), mtime)
      modifies this`stored, this`imageTagMap, this`allTags, tagButtons, display
      ensures Consistent()
      ensures outcome != Dismissed
      ensures outcome == Declined <==> !confirmed
      ensures outcome == NotSaved <==> confirmed && !(folderSet && |Constants.PictureTagsJson| > 0 && saveOk)
      ensures outcome == Declined ==>
        && imageTagMap == old(imageTagMap) && stored == old(stored) && allTags == old(allTags)
        && unchanged(tagButtons) && unchanged(display)
      ensures outcome == NotSaved ==>
        && imageTagMap == Overwrite(old(imageTagMap), old(display.selectedItems), updateTags)
        && stored == old(stored) && allTags == old(allTags)
        && unchanged(tagButtons) && unchanged(display)
      ensures outcome.Saved? ==>
        && stored == Some(Dump(Overwrite(old(imageTagMap), old(display.selectedItems), updateTags)))
        && (imageTagMap, allTags) == Scan(listing, mtime, stored)
        && tagButtons.checkVars == Buttons(allTags) && SelectedKeys(tagButtons.checkVars) == []
        && display.selectedItems == {}
        && var table := ShownTable(imageTagMap, dateRange.GetFromDate(today), dateRange.GetToDate(today), []);
           && (outcome.shown <==> table.Some?)
           && (outcome.shown ==> Grid(display.placed, display.thumbnailCache)
                                  == WidgetRender(table.value, Columns(frameWidth), old(display.thumbnailCache), Fetcher(ld)))
    {
      var selected := display.GetSelectedItems();
      if !confirmed {
        return Declined;
      }
      imageTagMap := OverwriteSelected(imageTagMap, selected, updateTags);
      if !(folderSet && |Constants.PictureTagsJson| > 0 && saveOk) {
        return NotSaved;
      }
      var shown := SaveAndRefresh(listing, mtime, frameWidth, ld, today);
      RestoreAsWrittenSelectsNothing(allTags);
      outcome := Saved(shown);
    }

    /** `on_tag_menu_close`: no tags handed over closes the dialog; tags
        handed over go through `HandOver`, after which the dialog is closed
        only when the map was saved and the grid drawn. A rescan that finds
        no media file leaves nothing to draw: the redraw raises before the
        dialog is reached, so it stays open. A closed dialog is forgotten. */
    method OnTagMenuClose(updateTags: seq<string>, confirmed: bool, saveOk: bool,
                          listing: seq<string>, mtime: map<string, DateTime>,
                          frameWidth: nat, ld: Loader, today: Date) returns (outcome: MenuClose)
      requires Consistent() && ValidDate(today) && HasTimes(MediaFiles(listing), mtime)
      modifies this`stored, this`imageTagMap, this`allTags, this`tagMenu, tagButtons, display, tagMenu
      ensures Consistent()
      ensures outcome == Dismissed <==> updateTags == []
      ensures outcome == Declined <==> updateTags != [] && !confirmed
      ensures outcome == NotSaved <==> updateTags != [] && confirmed && !(folderSet && |Constants.PictureTagsJson| > 0 && saveOk)
      ensures outcome == Dismissed || outcome == Declined ==>
        && imageTagMap == old(imageTagMap) && stored == old(stored) && allTags == old(allTags)
        && unchanged(tagButtons) && unchanged(display)
      ensures outcome == NotSaved ==>
        && imageTagMap == Overwrite(old(imageTagMap), old(display.selectedItems), updateTags)
        && stored == old(stored) && allTags == old(allTags)
        && unchanged(tagButtons) && unchanged(display)
      ensures outcome.Saved? ==>
        && stored == Some(Dump(Overwrite(old(imageTagMap), old(display.selectedItems), updateTags)))
        && (imageTagMap, allTags) == Scan(listing, mtime, stored)
        && tagButtons.checkVars == Buttons(allTags) && SelectedKeys(tagButtons.checkVars) == []
        && display.selectedItems == {}
        && var table := ShownTable(imageTagMap, dateRange.GetFromDate(today), dateRange.GetToDate(today), []);
           && (outcome.shown <==> table.Some?)
           && (outcome.shown ==> Grid(display.placed, display.thumbnailCache)
                                  == WidgetRender(table.value, Columns(frameWidth), old(display.thumbnailCache), Fetcher(ld)))
      ensures outcome.Closes() ==>
        tagMenu == null && (old(tagMenu) != null ==> old(tagMenu).destroyed)
      ensures !outcome.Closes() ==>
        tagMenu == old(tagMenu) && (tagMenu != null ==> unchanged(tagMenu))
    {
      if updateTags != [] {
        outcome := HandOver(updateTags, confirmed, saveOk, listing, mtime, frameWidth, ld, today);
      } else {
        outcome := Dismissed;
      }
      CloseMenuWhen(outcome.Closes());
    }

    /** `tag_menu.destroy()` and `tag_menu = None` when `close` holds;
        otherwise the dialog and the reference are left alone. */
    method CloseMenuWhen(close: bool)
      modifies this`tagMenu, tagMenu
      ensures close ==> tagMenu == null && (old(tagMenu) != null ==> old(tagMenu).destroyed)
      ensures !close ==> tagMenu == old(tagMenu) && (tagMenu != null ==> unchanged(tagMenu))
    {
      if close && tagMenu != null {
        tagMenu.Destroy();
      }
      if close {
        tagMenu := null;
      }
    }
  }
}

=== FILE: calendar.dfy ===
/** Proleptic Gregorian dates and date-times as Python's `datetime` module
    has them, their order, and the `"%Y-%m-%d %H:%M:%S"` text the tag map
    stores them in. */
module Calendar {
  import opened Wrappers
  import opened Decimal

  datatype Date = Date(year: int, month: int, day: int)

  datatype DateTime = DateTime(date: Date, hour: int, minute: int, second: int)

  predicate IsLeapYear(y: int) {
    y % 4 == 0 && (y % 100 != 0 || y % 400 == 0)
  }

  function DaysInMonth(y: int, m: int): (n: int)
    requires 1 <= m <= 12
    ensures 28 <= n <= 31
  {
    if m == 2 then (if IsLeapYear(y) then 29 else 28)
    else if m == 4 || m == 6 || m == 9 || m == 11 then 30
    else 31
  }

  /** What `datetime.date(year, month, day)` accepts; anything else raises `ValueError`. */
  predicate ValidDate(d: Date) {
    && 1 <= d.year <= 9999
    && 1 <= d.month <= 12
    && 1 <= d.day <= DaysInMonth(d.year, d.month)
  }

  /** What `datetime.datetime(...)` accepts. */
  predicate ValidDateTime(t: DateTime) {
    && ValidDate(t.date)
    && 0 <= t.hour < 24
    && 0 <= t.minute < 60
    && 0 <= t.second < 60
  }

  /** `a <= b` on `datetime.date` */
  predicate DateLessEq(a: Date, b: Date) {
    || a.year < b.year
    || (a.year == b.year && a.month < b.month)
    || (a.year == b.year && a.month == b.month && a.day <= b.day)
  }

  /** `a <= b` on `datetime.datetime` */
  predicate DateTimeLessEq(a: DateTime, b: DateTime) {
    || (DateLessEq(a.date, b.date) && a.date != b.date)
    || (a.date == b.date && a.hour < b.hour)
    || (a.date == b.date && a.hour == b.hour && a.minute < b.minute)
    || (a.date == b.date && a.hour == b.hour && a.minute == b.minute && a.second <= b.second)
  }

  /** Both orders are total, so `min` and `max` exist and `from > to` means `to < from`. */
  lemma DateOrderTotal(a: Date, b: Date, c: Date)
    ensures DateLessEq(a, b) || DateLessEq(b, a)
    ensures DateLessEq(a, b) && DateLessEq(b, a) ==> a == b
    ensures DateLessEq(a, b) && DateLessEq(b, c) ==> DateLessEq(a, c)
  {
  }

  lemma DateTimeOrderTotal(a: DateTime, b: DateTime, c: DateTime)
    ensures DateTimeLessEq(a, b) || DateTimeLessEq(b, a)
    ensures DateTimeLessEq(a, b) && DateTimeLessEq(b, c) ==> DateTimeLessEq(a, c)
  {
  }

  /** Taking `.date()` keeps the order: the earliest date-time has the earliest date. */
  lemma DateOfMonotone(a: DateTime, b: DateTime)
    requires DateTimeLessEq(a, b)
    ensures DateLessEq(a.date, b.date)
  {
  }

  /** `a + [sep] + b + [sep] + c`, the shape of both halves of the stored text. */
  function Join3(a: string, sep: char, b: string, c: string): string {
    a + [sep] + b + [sep] + c
  }

  lemma Join3Parts(a: string, sep: char, b: string, c: string)
    ensures var s := Join3(a, sep, b, c);
      && |s| == |a| + |b| + |c| + 2
      && s[..|a|] == a && s[|a|] == sep
      && s[|a| + 1..|a| + 1 + |b|] == b && s[|a| + 1 + |b|] == sep
      && s[|a| + 2 + |b|..] == c
  {
  }

  /** `strftime("%Y-%m-%d %H:%M:%S")` */
  function FormatDateTime(t: DateTime): (s: string)
    requires ValidDateTime(t)
  {
    Join3(Pad(t.date.year, 4), '-', Pad(t.date.month, 2), Pad(t.date.day, 2)) + " "
      + Join3(Pad(t.hour, 2), ':', Pad(t.minute, 2), Pad(t.second, 2))
  }

  /** Three digit fields of the given widths separated by `sep`. */
  function Fields3(s: string, sep: char, w1: nat, w2: nat, w3: nat): Option<(nat, nat, nat)>
  {
    if |s| != w1 + w2 + w3 + 2 || s[w1] != sep || s[w1 + 1 + w2] != sep then None
    else
      var a, b, c := ParseInt(s[..w1]), ParseInt(s[w1 + 1..w1 + 1 + w2]), ParseInt(s[w1 + 2 + w2..]);
      if a.None? || b.None? || c.None? then None else Some((a.value, b.value, c.value))
  }

  lemma {:induction false} Fields3Join(a: nat, b: nat, c: nat, sep: char, w1: nat, w2: nat, w3: nat)
    requires |Pad(a, w1)| == w1 && |Pad(b, w2)| == w2 && |Pad(c, w3)| == w3
    ensures Fields3(Join3(Pad(a, w1), sep, Pad(b, w2), Pad(c, w3)), sep, w1, w2, w3) == Some((a, b, c))
  {
    Join3Parts(Pad(a, w1), sep, Pad(b, w2), Pad(c, w3));
  }

  /** `datetime.strptime(s, "%Y-%m-%d %H:%M:%S")`, with each field written at
      its full width: `None` where Python raises `ValueError`. */
  function ParseDateTime(s: string): (r: Option<DateTime>)
    ensures r.Some? ==> ValidDateTime(r.value)
  {
    if |s| != 19 || s[10] != ' ' then None
    else
      var date, time := Fields3(s[..10], '-', 4, 2, 2), Fields3(s[11..], ':', 2, 2, 2);
      if date.None? || time.None? then None
      else
        var t := DateTime(Date(date.value.0, date.value.1, date.value.2), time.value.0, time.value.1, time.value.2);
        if ValidDateTime(t) then Some(t) else None
  }

  lemma PadWidth(n: nat, width: nat)
    requires 1 <= width && n < Pow10(width)
    ensures |Pad(n, width)| == width
  {
    FormatNatFits(n, width);
  }

  /** Three fields written at the widths `Fields3` reads are read back. */
  lemma {:induction false} PartRoundTrip(a: nat, b: nat, c: nat, sep: char, w1: nat)
    requires 1 <= w1 && a < Pow10(w1) && b < 100 && c < 100
    ensures |Join3(Pad(a, w1), sep, Pad(b, 2), Pad(c, 2))| == w1 + 6
    ensures Fields3(Join3(Pad(a, w1), sep, Pad(b, 2), Pad(c, 2)), sep, w1, 2, 2) == Some((a, b, c))
  {
    assert Pow10(2) == 100;
    PadWidth(a, w1);
    PadWidth(b, 2);
    PadWidth(c, 2);
    Join3Parts(Pad(a, w1), sep, Pad(b, 2), Pad(c, 2));
    Fields3Join(a, b, c, sep, w1, 2, 2);
  }

  /** A date part and a time part that read back, joined by the space. */
  lemma ParseJoined(date: string, time: string, t: DateTime)
    requires ValidDateTime(t) && |date| == 10 && |time| == 8
    requires Fields3(date, '-', 4, 2, 2) == Some((t.date.year as nat, t.date.month as nat, t.date.day as nat))
    requires Fields3(time, ':', 2, 2, 2) == Some((t.hour as nat, t.minute as nat, t.second as nat))
    ensures ParseDateTime(date + " " + time) == Some(t)
  {
    var s := date + " " + time;
    assert s[..10] == date;
    assert s[11..] == time;
    assert s[10] == ' ';
  }

  /** Reading back what was written gives the same date-time: a `createday`
      the scan stores always parses. */
  lemma ParseFormat(t: DateTime)
    requires ValidDateTime(t)
    ensures ParseDateTime(FormatDateTime(t)) == Some(t)
  {
    assert Pow10(4) == 10000;
    PartRoundTrip(t.date.year, t.date.month, t.date.day, '-', 4);
    PartRoundTrip(t.hour, t.minute, t.second, ':', 2);
    ParseJoined(Join3(Pad(t.date.year, 4), '-', Pad(t.date.month, 2), Pad(t.date.day, 2)),
                Join3(Pad(t.hour, 2), ':', Pad(t.minute, 2), Pad(t.second, 2)), t);
  }
}

=== FILE: constants.dfy ===
/** The application's fixed settings. */
module Constants {

  /** The label of the "no tags" filter checkbox, the Japanese word for
      "no tags" (U+30BF U+30B0 U+306A U+3057). */
  const NoneTagText: string := "\U{30BF}\U{30B0}\U{306A}\U{3057}"

  /** Name of the tag-map file kept at the root of the browsed folder. */
  const PictureTagsJson: string := "image_tag_map.json"

  const VideoExts: seq<string> := [".mp4", ".mov", ".avi", ".mkv", ".wmv", ".flv"]

  const ImageExts: seq<string> := [".jpg", ".jpeg", ".png", ".bmp", ".gif"]

  /** Every extension the folder scan accepts: images first, then videos. */
  const VideoAndImageExts: seq<string> := ImageExts + VideoExts

  /** THUMBNAIL_SIZE, the box every thumbnail is shrunk into. */
  const ThumbnailWidth: nat := 128
  const ThumbnailHeight: nat := 128

  /** The minimum width of one grid column, padding included. */
  const MinThumbWidth: nat := 148

  /** Any character but an ASCII capital: lower-case letters, digits and
      everything outside ASCII pass. */
  predicate NotAsciiUpper(c: char) {
    !('A' <= c <= 'Z')
  }

  /** An extension as the scan compares it: a dot, then characters with no
      ASCII capital and no further dot. */
  predicate WellFormedExt(e: string) {
    && |e| >= 2 && e[0] == '.'
    && (forall i :: 1 <= i < |e| ==> e[i] != '.' && NotAsciiUpper(e[i]))
  }

  /** The extension tables are well formed and images and videos do not overlap. */
  lemma ExtensionTables()
    ensures forall e :: e in VideoAndImageExts <==> e in ImageExts || e in VideoExts
    ensures forall e :: e in VideoAndImageExts ==> WellFormedExt(e)
    ensures forall e :: e in ImageExts ==> e !in VideoExts
  {
  }

  /** The stored minimum column width agrees with the one computed from the
      thumbnail size (`THUMBNAIL_SIZE[0] + 20`). */
  lemma MinThumbWidthAgrees()
    ensures MinThumbWidth == ThumbnailWidth + 20
  {
  }
}

=== FILE: date_range.dfy ===
/** The FROM and TO date pickers of the refactored viewer: six read-only
    drop-downs (year, month, day twice) whose texts are read back as dates,
    kept in order, and initialised from the dates of the tag map. */
module DateRange {
  import opened Wrappers
  import opened Decimal
  import opened Calendar
  import opened OrderedDict
  import opened Logic

  // ---------------------------------------------------------------------
  // Reading and writing the drop-down texts
  // ---------------------------------------------------------------------

  /** The date three texts name: `datetime.date(int(y), int(m), int(d))`,
      or `None` where that raises `ValueError`. */
  function FieldsDate(y: string, m: string, d: string): (r: Option<Date>)
    ensures r.Some? ==> ValidDate(r.value)
    ensures r.Some? <==>
      && ParseInt(y).Some? && ParseInt(m).Some? && ParseInt(d).Some?
      && ValidDate(Date(ParseInt(y).value, ParseInt(m).value, ParseInt(d).value))
  {
    match (ParseInt(y), ParseInt(m), ParseInt(d))
    case (Some(a), Some(b), Some(c)) => if ValidDate(Date(a, b, c)) then Some(Date(a, b, c)) else None
    case _ => None
  }

  /** `str(year)`, `f"{month:02d}"`, `f"{day:02d}"`: what `set_from_date`
      and `set_to_date` write. */
  function YearText(d: Date): string
    requires ValidDate(d)
  {
    FormatNat(d.year)
  }

  function MonthText(d: Date): string
    requires ValidDate(d)
  {
    Pad(d.month, 2)
  }

  function DayText(d: Date): string
    requires ValidDate(d)
  {
    Pad(d.day, 2)
  }

  /** A date written to the drop-downs reads back unchanged. */
  lemma TextsRoundTrip(d: Date)
    requires ValidDate(d)
    ensures FieldsDate(YearText(d), MonthText(d), DayText(d)) == Some(d)
  {
    ParseFormatNat(d.year);
    ParsePad(d.month, 2);
    ParsePad(d.day, 2);
  }

  /** What a drop-down can hold: nothing yet, or a decimal text. */
  predicate FieldText(s: string) {
    s == [] || AllDigits(s)
  }

  /** The six drop-downs. */
  datatype Field = FromYear | FromMonth | FromDay | ToYear | ToMonth | ToDay

  /** The entries of the drop-downs, by the number they show: the years 2000
      to 2029, the months 1 to 12 and the days 1 to 31. */
  predicate IsChoice(f: Field, n: nat) {
    match f
    case FromYear | ToYear => 2000 <= n < 2030
    case FromMonth | ToMonth => 1 <= n <= 12
    case FromDay | ToDay => 1 <= n <= 31
  }

  /** The text of an entry: `str(y)` for a year, `f"{m:02d}"` otherwise. */
  function ChoiceText(f: Field, n: nat): (s: string)
    ensures FieldText(s) && ParseInt(s) == Some(n)
  {
    ParseFormatNat(n);
    ParsePad(n, 2);
    match f
    case FromYear | ToYear => FormatNat(n)
    case _ => Pad(n, 2)
  }

  // ---------------------------------------------------------------------
  // The range a tag map spans
  // ---------------------------------------------------------------------

  /** The parsed `createday` of every file of the map, in map order, or
      `None` when `strptime` raises for one of them. */
  function CreatedayList(m: TagMap): (r: Option<seq<DateTime>>)
    requires Valid(m)
    ensures r.Some? <==> forall k :: k in m.order ==> ParseDateTime(m.items[k].createday).Some?
    ensures r.Some? ==> |r.value| == |m.order| && forall i :: 0 <= i < |m.order| ==>
      Some(r.value[i]) == ParseDateTime(m.items[m.order[i]].createday)
  {
    match FrameRows(m.order, m.items)
    case None => None
    case Some(rows) => Some(seq(|rows|, i requires 0 <= i < |rows| => rows[i].created))
  }

  /** `min(ts)` */
  function Earliest(ts: seq<DateTime>): (r: DateTime)
    requires ts != []
    ensures r in ts && forall t :: t in ts ==> DateTimeLessEq(r, t)
  {
    if |ts| == 1 then ts[0]
    else
      var init, t := ts[..|ts| - 1], ts[|ts| - 1];
      assert ts == init + [t];
      var e := Earliest(init);
      DateTimeOrderTotal(e, t, e);
      forall u | u in init
        ensures DateTimeLessEq(t, e) ==> DateTimeLessEq(t, u)
      {
        DateTimeOrderTotal(t, e, u);
      }
      if DateTimeLessEq(e, t) then e else t
  }

  /** `max(ts)` */
  function Latest(ts: seq<DateTime>): (r: DateTime)
    requires ts != []
    ensures r in ts && forall t :: t in ts ==> DateTimeLessEq(t, r)
  {
    if |ts| == 1 then ts[0]
    else
      var init, t := ts[..|ts| - 1], ts[|ts| - 1];
      assert ts == init + [t];
      var l := Latest(init);
      DateTimeOrderTotal(l, t, l);
      forall u | u in init
        ensures DateTimeLessEq(l, t) ==> DateTimeLessEq(u, t)
      {
        DateTimeOrderTotal(u, l, t);
      }
      if DateTimeLessEq(t, l) then l else t
  }

  /** `set_date_range_from_data`: the dates of the earliest and the latest
      date-time, or today twice for no data. The range is ordered, holds the
      date of every given date-time, and each end is the date of one of them,
      so it is the narrowest such range. */
  function DataRange(ts: seq<DateTime>, today: Date): (r: (Date, Date))
    requires ValidDate(today) && forall t :: t in ts ==> ValidDateTime(t)
    ensures ValidDate(r.0) && ValidDate(r.1) && DateLessEq(r.0, r.1)
    ensures forall t :: t in ts ==> DateLessEq(r.0, t.date) && DateLessEq(t.date, r.1)
    ensures ts != [] ==> (exists t :: t in ts && t.date == r.0) && (exists t :: t in ts && t.date == r.1)
    ensures ts == [] ==> r == (today, today)
  {
    if ts == [] then (today, today)
    else
      var lo, hi := Earliest(ts), Latest(ts);
      assert ValidDateTime(lo) && ValidDateTime(hi) && DateTimeLessEq(lo, hi);
      DateOfMonotone(lo, hi);
      forall t | t in ts
        ensures DateLessEq(lo.date, t.date) && DateLessEq(t.date, hi.date)
      {
        DateOfMonotone(lo, t);
        DateOfMonotone(t, hi);
      }
      (lo.date, hi.date)
  }

  /** The range set from a map spans every file of it, so the first view
      filters no file out by date. */
  lemma RangeCoversMap(m: TagMap, today: Date)
    requires Valid(m) && ValidDate(today) && Frame(m).Some?
    ensures CreatedayList(m).Some?
    ensures var r := DataRange(CreatedayList(m).value, today);
      forall row :: row in Frame(m).value ==> InDateRange(row, r.0, r.1)
  {
    var ts := CreatedayList(m).value;
    var rows := Frame(m).value;
    forall row | row in rows
      ensures row.created in ts
    {
      var i :| 0 <= i < |rows| && rows[i] == row;
      assert Some(ts[i]) == ParseDateTime(m.items[m.order[i]].createday);
    }
  }

  /** A map the scan just built always yields its date list, and every
      entry of it is a real calendar date-time. */
  lemma ScannedMapHasDates(files: seq<string>, mtime: map<string, DateTime>, existing: StoredMap)
    requires HasTimes(files, mtime) && Distinct(files)
    ensures var m := Reconcile(files, mtime, existing);
      CreatedayList(m).Some? && forall t :: t in CreatedayList(m).value ==> ValidDateTime(t)
  {
    ScannedDatesParse(files, mtime, existing);
    ParsedTimesValid(Reconcile(files, mtime, existing), mtime);
  }

  /** When every `createday` of a map reads back as a real date-time, the
      date list exists and holds only real date-times. */
  lemma ParsedTimesValid(m: TagMap, mtime: map<string, DateTime>)
    requires Valid(m)
    requires forall k :: k in m.order ==> k in mtime && ValidDateTime(mtime[k])
    requires forall k :: k in m.order ==> ParseDateTime(m.items[k].createday) == Some(mtime[k])
    ensures CreatedayList(m).Some? && forall t :: t in CreatedayList(m).value ==> ValidDateTime(t)
  {
    var ts := CreatedayList(m).value;
    forall t | t in ts
      ensures ValidDateTime(t)
    {
      var i :| 0 <= i < |ts| && ts[i] == t;
      assert m.order[i] in m.order;
    }
  }

  // ---------------------------------------------------------------------
  // The manager
  // ---------------------------------------------------------------------

  class DateRangeManager {
    var fromYear: string
    var fromMonth: string
    var fromDay: string
    var toYear: string
    var toMonth: string
    var toDay: string
    /** The map given at construction, which `reset_date_range` reads again. */
    const imageTagMap: TagMap
    /** Whether a date-change callback was given. */
    const hasCallback: bool

    ghost predicate Consistent()
      reads this
    {
      && Valid(imageTagMap)
      && FieldText(fromYear) && FieldText(fromMonth) && FieldText(fromDay)
      && FieldText(toYear) && FieldText(toMonth) && FieldText(toDay)
    }

    /** `get_from_date`: the picked date, or today when the texts do not
        name a date. */
    function GetFromDate(today: Date): (d: Date)
      reads this
      requires ValidDate(today)
      ensures ValidDate(d)
    {
      FieldsDate(fromYear, fromMonth, fromDay).GetOr(today)
    }

    /** `get_to_date` */
    function GetToDate(today: Date): (d: Date)
      reads this
      requires ValidDate(today)
      ensures ValidDate(d)
    {
      FieldsDate(toYear, toMonth, toDay).GetOr(today)
    }

    /** `get_date_range` */
    function GetDateRange(today: Date): (r: (Date, Date))
      reads this
      requires ValidDate(today)
    {
      (GetFromDate(today), GetToDate(today))
    }

    /** The texts name `from` and `to` exactly. */
    ghost predicate Shows(from: Date, to: Date)
      reads this
    {
      && FieldsDate(fromYear, fromMonth, fromDay) == Some(from)
      && FieldsDate(toYear, toMonth, toDay) == Some(to)
    }

    /** Whatever day it is, a range the texts name is the range read back. */
    lemma ShowsReadsBack(from: Date, to: Date, today: Date)
      requires Shows(from, to) && ValidDate(today)
      ensures GetDateRange(today) == (from, to)
    {
    }

    /** Builds the drop-downs empty and, when the map has files, sets the
        range they span. */
    constructor(imageTagMap: TagMap, hasCallback: bool, today: Date)
      requires Valid(imageTagMap) && ValidDate(today)
      requires CreatedayList(imageTagMap).Some?
      ensures Consistent()
      ensures this.imageTagMap == imageTagMap && this.hasCallback == hasCallback
      ensures imageTagMap.order == [] ==> fromYear == fromMonth == fromDay == toYear == toMonth == toDay == []
      ensures imageTagMap.order != [] ==>
        var r := DataRange(CreatedayList(imageTagMap).value, today); Shows(r.0, r.1)
    {
      this.imageTagMap := imageTagMap;
      this.hasCallback := hasCallback;
      fromYear, fromMonth, fromDay := [], [], [];
      toYear, toMonth, toDay := [], [], [];
      new;
      if imageTagMap.order != [] {
        var ok := SetDateRangeFromImageData(imageTagMap, today);
      }
    }

    /** `set_from_date` */
    method SetFromDate(d: Date)
      requires Consistent() && ValidDate(d)
      modifies this
      ensures Consistent()
      ensures fromYear == YearText(d) && fromMonth == MonthText(d) && fromDay == DayText(d)
      ensures toYear == old(toYear) && toMonth == old(toMonth) && toDay == old(toDay)
      ensures FieldsDate(fromYear, fromMonth, fromDay) == Some(d)
    {
      fromYear, fromMonth, fromDay := YearText(d), MonthText(d), DayText(d);
      TextsRoundTrip(d);
    }

    /** `set_to_date` */
    method SetToDate(d: Date)
      requires Consistent() && ValidDate(d)
      modifies this
      ensures Consistent()
      ensures toYear == YearText(d) && toMonth == MonthText(d) && toDay == DayText(d)
      ensures fromYear == old(fromYear) && fromMonth == old(fromMonth) && fromDay == old(fromDay)
      ensures FieldsDate(toYear, toMonth, toDay) == Some(d)
    {
      toYear, toMonth, toDay := YearText(d), MonthText(d), DayText(d);
      TextsRoundTrip(d);
    }

    /** `set_date_range` */
    method SetDateRange(minDate: Date, maxDate: Date)
      requires Consistent() && ValidDate(minDate) && ValidDate(maxDate)
      modifies this
      ensures Consistent() && Shows(minDate, maxDate)
    {
      SetFromDate(minDate);
      SetToDate(maxDate);
    }

    /** `set_date_range_from_data` */
    method SetDateRangeFromData(ts: seq<DateTime>, today: Date)
      requires Consistent() && ValidDate(today) && forall t :: t in ts ==> ValidDateTime(t)
      modifies this
      ensures Consistent()
      ensures var r := DataRange(ts, today); Shows(r.0, r.1)
    {
      var r := DataRange(ts, today);
      SetDateRange(r.0, r.1);
    }

    /** `set_date_range_from_image_data`: `ok` is false where `strptime`
        raises, and then nothing is set. */
    method SetDateRangeFromImageData(m: TagMap, today: Date) returns (ok: bool)
      requires Consistent() && Valid(m) && ValidDate(today)
      modifies this
      ensures Consistent()
      ensures ok <==> CreatedayList(m).Some?
      ensures ok ==> var r := DataRange(CreatedayList(m).value, today); Shows(r.0, r.1)
      ensures !ok ==>
        && fromYear == old(fromYear) && fromMonth == old(fromMonth) && fromDay == old(fromDay)
        && toYear == old(toYear) && toMonth == old(toMonth) && toDay == old(toDay)
    {
      var ts := CreatedayList(m);
      if ts.None? {
        return false;
      }
      forall t | t in ts.value
        ensures ValidDateTime(t)
      {
        var i :| 0 <= i < |ts.value| && ts.value[i] == t;
        assert Some(t) == ParseDateTime(m.items[m.order[i]].createday);
      }
      SetDateRangeFromData(ts.value, today);
      ok := true;
    }

    /** `_on_date_change`: a FROM later than TO moves TO up to FROM and
        stops there; otherwise the callback runs. Either way the range reads
        back in order. */
    method OnDateChange(today: Date) returns (notified: bool)
      requires Consistent() && ValidDate(today)
      modifies this
      ensures Consistent()
      ensures DateLessEq(GetFromDate(today), GetToDate(today))
      ensures GetFromDate(today) == old(GetFromDate(today))
      ensures notified <==> hasCallback && DateLessEq(old(GetFromDate(today)), old(GetToDate(today)))
      ensures fromYear == old(fromYear) && fromMonth == old(fromMonth) && fromDay == old(fromDay)
      ensures DateLessEq(old(GetFromDate(today)), old(GetToDate(today))) ==>
        toYear == old(toYear) && toMonth == old(toMonth) && toDay == old(toDay)
      ensures !DateLessEq(old(GetFromDate(today)), old(GetToDate(today))) ==>
        && toYear == YearText(old(GetFromDate(today))) && toMonth == MonthText(old(GetFromDate(today)))
        && toDay == DayText(old(GetFromDate(today)))
        && GetToDate(today) == old(GetFromDate(today))
    {
      var from, to := GetFromDate(today), GetToDate(today);
      DateOrderTotal(from, to, from);
      if !DateLessEq(from, to) {
        SetToDate(from);
        return false;
      }
      notified := hasCallback;
    }

    /** Picking an entry of one drop-down, which fires `_on_date_change`. */
    method Pick(field: Field, n: nat, today: Date) returns (notified: bool)
      requires Consistent() && ValidDate(today) && IsChoice(field, n)
      modifies this
      ensures Consistent()
      ensures DateLessEq(GetFromDate(today), GetToDate(today))
    {
      var text := ChoiceText(field, n);
      match field {
        case FromYear => fromYear := text;
        case FromMonth => fromMonth := text;
        case FromDay => fromDay := text;
        case ToYear => toYear := text;
        case ToMonth => toMonth := text;
        case ToDay => toDay := text;
      }
      notified := OnDateChange(today);
    }

    /** `reset_date_range`: the range of the map given at construction
        again, then the callback. `ok` is false where `strptime` raises. */
    method ResetDateRange(today: Date) returns (ok: bool, notified: bool)
      requires Consistent() && ValidDate(today)
      modifies this
      ensures Consistent()
      ensures ok <==> CreatedayList(imageTagMap).Some?
      ensures ok ==> var r := DataRange(CreatedayList(imageTagMap).value, today); Shows(r.0, r.1)
      ensures notified <==> ok && hasCallback
    {
      ok := SetDateRangeFromImageData(imageTagMap, today);
      notified := ok && hasCallback;
    }
  }
}

=== FILE: decimal.dfy ===
/** Decimal text of non-negative integers: Python's `str(n)`, the
    zero-padded `f"{n:02d}"` / `%Y` style fields, and `int(s)` on a string
    of ASCII digits. */
module Decimal {
  import opened Wrappers

  predicate IsDigit(c: char) {
    '0' <= c <= '9'
  }

  predicate AllDigits(s: string) {
    forall i :: 0 <= i < |s| ==> IsDigit(s[i])
  }

  function DigitChar(d: nat): (c: char)
    requires d < 10
    ensures IsDigit(c)
  {
    ['0', '1', '2', '3', '4', '5', '6', '7', '8', '9'][d]
  }

  function DigitValue(c: char): (d: nat)
    requires IsDigit(c)
    ensures d < 10 && DigitChar(d) == c
  {
    (c as int) - ('0' as int)
  }

  /** The number a string of digits denotes (leading zeros allowed). */
  function DigitsValue(s: string): nat
    requires AllDigits(s)
  {
    if s == [] then 0 else DigitsValue(s[..|s| - 1]) * 10 + DigitValue(s[|s| - 1])
  }

  function Pow10(k: nat): (p: nat)
    ensures p >= 1
  {
    if k == 0 then 1 else 10 * Pow10(k - 1)
  }

  /** `str(n)`: the shortest decimal text of `n`. */
  function FormatNat(n: nat): (s: string)
    ensures 1 <= |s| && AllDigits(s)
    ensures DigitsValue(s) == n
    ensures |s| > 1 ==> s[0] != '0'
  {
    if n < 10 then [DigitChar(n)]
    else
      var s := FormatNat(n / 10) + [DigitChar(n % 10)];
      assert s[..|s| - 1] == FormatNat(n / 10);
      s
  }

  /** `n` written with at most `width` digits fits in `width` characters. */
  lemma {:induction false} FormatNatFits(n: nat, width: nat)
    requires 1 <= width && n < Pow10(width)
    ensures |FormatNat(n)| <= width
  {
    if n >= 10 {
      FormatNatFits(n / 10, width - 1);
    }
  }

  function Zeros(k: nat): (s: string)
    ensures |s| == k && AllDigits(s) && DigitsValue(s) == 0
  {
    if k == 0 then [] else
      var s := Zeros(k - 1) + ['0'];
      assert s[..k - 1] == Zeros(k - 1);
      s
  }

  /** Leading zeros do not change the value of a digit string. */
  lemma {:induction false} LeadingZeros(z: nat, s: string)
    requires AllDigits(s)
    ensures AllDigits(Zeros(z) + s)
    ensures DigitsValue(Zeros(z) + s) == DigitsValue(s)
  {
    if s != [] {
      var t := Zeros(z) + s;
      assert t[..|t| - 1] == Zeros(z) + s[..|s| - 1];
      LeadingZeros(z, s[..|s| - 1]);
    } else {
      assert Zeros(z) + s == Zeros(z);
    }
  }

  /** `f"{n:0{width}d}"`: `str(n)` left-padded with zeros to `width` characters. */
  function Pad(n: nat, width: nat): (s: string)
    ensures AllDigits(s) && DigitsValue(s) == n
    ensures |s| == if |FormatNat(n)| < width then width else |FormatNat(n)|
  {
    var digits := FormatNat(n);
    var z := if |digits| < width then width - |digits| else 0;
    LeadingZeros(z, digits);
    Zeros(z) + digits
  }

  /** `int(s)` on the texts a read-only drop-down can hold, which are empty
      or ASCII digits: `None` for the empty text, where Python raises
      `ValueError`. Python's signs, blanks, underscores and non-ASCII digits
      are not accepted here. */
  function ParseInt(s: string): (r: Option<nat>)
    ensures r.Some? <==> |s| > 0 && AllDigits(s)
    ensures r.Some? ==> r.value == DigitsValue(s)
  {
    if |s| > 0 && AllDigits(s) then Some(DigitsValue(s)) else None
  }

  /** `int(str(n)) == n` */
  lemma ParseFormatNat(n: nat)
    ensures ParseInt(FormatNat(n)) == Some(n)
  {
  }

  /** `int(f"{n:0{width}d}") == n` */
  lemma ParsePad(n: nat, width: nat)
    ensures ParseInt(Pad(n, width)) == Some(n)
  {
  }
}

=== FILE: legacy_app.dfy ===
/** The first version of the viewer: one window class that holds the tag
    map, the tag counts, the checkbox states, the selected files and tags and
    the thumbnail grid itself, with the folder scan and the thumbnail pass of
    the logic module bound onto it as methods. */
module LegacyApp {
  import opened Wrappers
  import opened OrderedDict
  import opened Calendar
  import opened Logic
  import opened TagButtons
  import opened DateRange
  import opened TagDialog
  import ThumbnailDisplay
  import Constants

  /** The position of the first `x` in `s`, or `|s|` when there is none. */
  function IndexOf(s: seq<string>, x: string): (i: nat)
    ensures i <= |s| && x !in s[..i]
    ensures i < |s| <==> x in s
    ensures i < |s| ==> s[i] == x
  {
    if s == [] then 0
    else if s[0] == x then 0
    else
      var i := IndexOf(s[1..], x);
      assert s[..i + 1] == [s[0]] + s[1..][..i];
      i + 1
  }

  /** `list.remove(x)`: the first `x` is dropped; a list without `x` stays
      as it is (where Python raises, which the restore loop never lets
      happen). */
  function RemoveFirst(s: seq<string>, x: string): (r: seq<string>)
    ensures r == s[..IndexOf(s, x)] + if x in s then s[IndexOf(s, x) + 1..] else []
  {
    var i := IndexOf(s, x);
    if i < |s| then s[..i] + s[i + 1..] else s
  }

  /** The restore loop of `on_tag_menu_close` from position `i` on: the
      list iterator walks `sel` by position while the body removes a tag
      without a box from that same list, so the element after a removed one
      is never visited. Gives the list left and the tags whose boxes were
      checked, in order. */
  function RestoreFrom(sel: seq<string>, present: set<string>, i: nat): (r: (seq<string>, seq<string>))
    ensures forall t :: t in r.1 ==> t in present
    decreases |sel| - i
  {
    if i >= |sel| then (sel, [])
    else if sel[i] in present then
      var r := RestoreFrom(sel, present, i + 1);
      (r.0, [sel[i]] + r.1)
    else
      RestoreFrom(RemoveFirst(sel, sel[i]), present, i + 1)
  }

  /** When every tag of the list still has a box, the loop keeps the list
      and checks the boxes of all the tags it visits. */
  lemma {:induction false} RestoreAllPresent(sel: seq<string>, present: set<string>, i: nat)
    requires i <= |sel| && forall t :: t in sel ==> t in present
    ensures RestoreFrom(sel, present, i) == (sel, sel[i..])
    decreases |sel| - i
  {
    if i < |sel| {
      assert sel[i] in present by { assert sel[i] in sel; }
      RestoreAllPresent(sel, present, i + 1);
      assert sel[i..] == [sel[i]] + sel[i + 1..];
    } else {
      assert sel[i..] == [];
    }
  }

  /** Dropping one position of a list without repetition leaves a list
      without repetition. */
  lemma DistinctDrop(s: seq<string>, i: nat)
    requires Distinct(s) && i < |s|
    ensures Distinct(s[..i] + s[i + 1..])
  {
    var t := s[..i] + s[i + 1..];
    DistinctIndices(s);
    forall a, b | 0 <= a < b < |t|
      ensures t[a] != t[b]
    {
      var a', b' := if a < i then a else a + 1, if b < i then b else b + 1;
      assert t[a] == s[a'] && t[b] == s[b'];
    }
    DistinctIndices(t);
  }

  /** In a list without repetition an element is first found where it is. */
  lemma IndexOfDistinct(s: seq<string>, j: nat)
    requires Distinct(s) && j < |s|
    ensures IndexOf(s, s[j]) == j
  {
    DistinctIndices(s);
  }

  /** In a list without repetition, the visits from position `j` on never
      touch the positions before `j`. */
  lemma {:induction false} RestoreKeepsVisited(sel: seq<string>, present: set<string>, j: nat)
    requires Distinct(sel) && j <= |sel|
    ensures |RestoreFrom(sel, present, j).0| >= j && RestoreFrom(sel, present, j).0[..j] == sel[..j]
    decreases |sel| - j
  {
    if j < |sel| {
      if sel[j] in present {
        RestoreKeepsVisited(sel, present, j + 1);
        assert sel[..j + 1][..j] == sel[..j];
      } else {
        IndexOfDistinct(sel, j);
        var s' := sel[..j] + sel[j + 1..];
        assert RemoveFirst(sel, sel[j]) == s';
        DistinctDrop(sel, j);
        if j + 1 <= |s'| {
          RestoreKeepsVisited(s', present, j + 1);
          assert s'[..j + 1][..j] == s'[..j] == sel[..j];
        } else {
          assert s'[..j] == sel[..j];
        }
      }
    }
  }

  /** The restore loop's skip: when the tag at position `i` has no box and
      is removed, the list closes up, so the tag after it moves into the
      position already visited and the loop goes on with the one after
      that. The skipped tag stays in the list whether or not it has a box. */
  lemma RestoreSkipsNext(sel: seq<string>, present: set<string>, i: nat)
    requires Distinct(sel) && i + 1 < |sel| && sel[i] !in present
    ensures RestoreFrom(sel, present, i) == RestoreFrom(sel[..i] + sel[i + 1..], present, i + 1)
    ensures (sel[..i] + sel[i + 1..])[i] == sel[i + 1]
    ensures sel[i + 1] in RestoreFrom(sel, present, i).0
  {
    IndexOfDistinct(sel, i);
    var s' := sel[..i] + sel[i + 1..];
    assert RemoveFirst(sel, sel[i]) == s';
    DistinctDrop(sel, i);
    RestoreKeepsVisited(s', present, i + 1);
    var r := RestoreFrom(s', present, i + 1).0;
    assert r[i] == r[..i + 1][i] == s'[..i + 1][i] == sel[i + 1];
  }

  /** The "no tags" branch of `on_tag_toggle`: every other box in turn is
      unchecked. */
  method UncheckRealTags(d: Dict<bool>) returns (r: Dict<bool>)
    requires Valid(d) && Constants.NoneTagText in d.items
    ensures r == AfterToggle(d, None)
  {
    DistinctIndices(d.order);
    r := d;
    var i := 0;
    while i < |r.order|
      invariant 0 <= i <= |d.order|
      invariant Valid(r) && r.order == d.order && r.items.Keys == d.items.Keys
      invariant forall j :: 0 <= j < |d.order| ==>
        r.items[d.order[j]] == (if j < i && d.order[j] != Constants.NoneTagText then false else d.items[d.order[j]])
    {
      var key := r.order[i];
      if key != Constants.NoneTagText {
        r := Put(r, key, false);
      }
      i := i + 1;
    }
    forall k | k in d.items
      ensures r.items[k] == (k == Constants.NoneTagText && d.items[k])
    {
      var j :| 0 <= j < |d.order| && d.order[j] == k;
    }
    assert r.items == AfterToggle(d, None).items;
  }

  /** One visit of the restore loop, unfolded. */
  lemma RestoreStep(sel: seq<string>, present: set<string>, i: nat)
    requires i < |sel|
    ensures sel[i] in present ==>
      var r := RestoreFrom(sel, present, i + 1);
      RestoreFrom(sel, present, i) == (r.0, [sel[i]] + r.1)
    ensures sel[i] !in present ==>
      RestoreFrom(sel, present, i) == RestoreFrom(RemoveFirst(sel, sel[i]), present, i + 1)
  {
  }

  /** One visit of the restore loop at position `i`: a tag with a box gets
      it checked, a tag without one is removed from the list. */
  method RestoreVisit(left: seq<string>, vars: map<string, bool>, i: nat, ghost d: Dict<bool>, ghost rechecked: seq<string>)
    returns (left': seq<string>, vars': map<string, bool>, ghost rechecked': seq<string>)
    requires i < |left| && forall k :: k in vars <==> k in d.items
    requires forall k :: k in d.items ==> vars[k] == (d.items[k] || k in rechecked)
    ensures forall k :: k in vars' <==> k in d.items
    ensures forall k :: k in d.items ==> vars'[k] == (d.items[k] || k in rechecked')
    ensures |left'| <= |left|
    ensures RestoreFrom(left', d.items.Keys, i + 1).0 == RestoreFrom(left, d.items.Keys, i).0
    ensures rechecked' + RestoreFrom(left', d.items.Keys, i + 1).1 == rechecked + RestoreFrom(left, d.items.Keys, i).1
  {
    var tag := left[i];
    RestoreStep(left, d.items.Keys, i);
    if tag in vars {
      ghost var rest := RestoreFrom(left, d.items.Keys, i + 1).1;
      assert rechecked + ([tag] + rest) == (rechecked + [tag]) + rest;
      left', vars', rechecked' := left, vars[tag := true], rechecked + [tag];
    } else {
      left', vars', rechecked' := RemoveFirst(left, tag), vars, rechecked;
    }
  }

  /** The restore loop of `on_tag_menu_close` as Python runs it on the
      selected tags `sel` and the rebuilt boxes `d`: the list left and the
      boxes are what `RestoreFrom` says. */
  method RestoreLoop(sel: seq<string>, d: Dict<bool>) returns (left: seq<string>, r: Dict<bool>)
    requires Valid(d)
    ensures left == RestoreFrom(sel, d.items.Keys, 0).0
    ensures r == CheckAll(d, RestoreFrom(sel, d.items.Keys, 0).1)
  {
    left := sel;
    var vars := d.items;
    ghost var rechecked: seq<string> := [];
    ghost var target := RestoreFrom(sel, d.items.Keys, 0);
    var i := 0;
    while i < |left|
      invariant forall k :: k in vars <==> k in d.items
      invariant forall k :: k in d.items ==> vars[k] == (d.items[k] || k in rechecked)
      invariant RestoreFrom(left, d.items.Keys, i).0 == target.0
      invariant rechecked + RestoreFrom(left, d.items.Keys, i).1 == target.1
      decreases |left| - i
    {
      left, vars, rechecked := RestoreVisit(left, vars, i, d, rechecked);
      i := i + 1;
    }
    assert RestoreFrom(left, d.items.Keys, i) == (left, []);
    assert rechecked == target.1 by { assert rechecked + [] == rechecked; }
    r := Dict(d.order, vars);
    CheckAllPointwise(d, r, rechecked);
  }

  /** The restore loop when every selected tag still has a box, as after a
      rescan, which only adds tags: the list stays whole and every selected
      tag gets its box checked again. */
  method RestoreSelection(sel: seq<string>, d: Dict<bool>) returns (left: seq<string>, r: Dict<bool>)
    requires Valid(d) && forall t :: t in sel ==> t in d.items
    ensures left == sel && r == CheckAll(d, sel)
  {
    RestoreAllPresent(sel, d.items.Keys, 0);
    left, r := RestoreLoop(sel, d);
  }

  /** The grid and the cache are what the thumbnail pass over the filtered
      table of `m` makes from `cache0`; when the table cannot be built the
      grid is empty and the cache and the column count are left alone. */
  ghost predicate GridDrawn(m: TagMap, from: Date, to: Date, selected: seq<string>, frameWidth: nat, ld: Loader,
                            cache0: map<string, Image>, columns0: nat,
                            ok: bool, placed: seq<Placement>, cache: map<string, Image>, columns: nat)
    requires Valid(m)
  {
    && (ok <==> Frame(m).Some?)
    && (ok ==>
          && columns == Columns(frameWidth)
          && Grid(placed, cache) == LegacyRender(ShownTable(m, from, to, selected).value, Columns(frameWidth), cache0, Generator(ld)))
    && (!ok ==> placed == [] && cache == cache0 && columns == columns0)
  }

  /** The body of `show_thumbnails`: the grid is emptied, the filtered table
      built (`ok` is false where that raises) and laid out in as many columns
      as fit; only files of the map reach the grid. */
  method DrawGrid(m: TagMap, from: Date, to: Date, selected: seq<string>, frameWidth: nat, ld: Loader,
                  cache0: map<string, Image>, columns0: nat)
    returns (ok: bool, placed: seq<Placement>, cache: map<string, Image>, columns: nat)
    requires Valid(m)
    ensures GridDrawn(m, from, to, selected, frameWidth, ld, cache0, columns0, ok, placed, cache, columns)
    ensures forall j :: 0 <= j < |placed| ==> placed[j].file in m.items
  {
    var table := ShownTable(m, from, to, selected);
    if table.None? {
      return false, [], cache0, columns0;
    }
    columns := Columns(frameWidth);
    placed, cache := PlaceThumbnails(table.value, columns, cache0, Generator(ld));
    LegacyLayout(table.value, columns, cache0, Generator(ld));
    ok := true;
  }

  /** There is a box for "no tags" and for every known tag and for nothing
      else, and every selected tag has a box. */
  ghost predicate BoxesMatch(allTags: TagCounts, checkVars: Dict<bool>, selectedTags: seq<string>) {
    && Valid(allTags) && Valid(checkVars)
    && (forall k :: k in checkVars.items <==> k == Constants.NoneTagText || k in allTags.items)
    && (forall t :: t in selectedTags ==> t in checkVars.items)
  }

  /** Only files of the map are selected. */
  ghost predicate FilesKnown(m: TagMap, selectedItems: set<string>) {
    Valid(m) && selectedItems <= m.items.Keys
  }

  /** A rescan only adds tags, so after the boxes are rebuilt every tag that
      was selected still has a box, and checking them all again keeps the
      boxes matching the counts. */
  lemma RescanKeepsBoxes(allTags: TagCounts, checkVars: Dict<bool>, selectedTags: seq<string>, m: TagMap)
    requires BoxesMatch(allTags, checkVars, selectedTags) && Valid(m)
    ensures var counts := AccumulateCounts(allTags, m);
      && (forall t :: t in selectedTags ==> t in Buttons(counts).items)
      && BoxesMatch(counts, CheckAll(Buttons(counts), selectedTags), selectedTags)
  {
  }
  /** What saving and scanning again leave behind, from the map `written`
      to the folder: the rescanned map, the tag counts grown by it, the map
      that was stored last, no selected files, and the earlier tag selection
      checked again on fresh boxes. */
  ghost predicate Rescanned(written: StoredMap, tags0: TagCounts, sel0: seq<string>,
                            listing: seq<string>, mtime: map<string, DateTime>, scanSaveOk: bool,
                            m: TagMap, tags: TagCounts, stored: Option<StoredMap>,
                            items: set<string>, sel: seq<string>, boxes: Dict<bool>)
  {
    && HasTimes(MediaFiles(listing), mtime) && Valid(tags0)
    && m == Reconcile(MediaFiles(listing), mtime, written)
    && tags == AccumulateCounts(tags0, m)
    && stored == Some(if scanSaveOk then Dump(m) else written)
    && items == {} && sel == sel0
    && BoxesMatch(tags, boxes, sel)
    && boxes == CheckAll(Buttons(tags), sel0)
  }
  /** The rescan after a save, from the map `written` that the folder now
      holds: the folder is scanned again over it, the counts grow, and the
      earlier tag selection is checked again on fresh boxes. */
  method RescanWritten(written: TagMap, tags0: TagCounts, boxes0: Dict<bool>, sel0: seq<string>,
                       listing: seq<string>, mtime: map<string, DateTime>, scanSaveOk: bool)
    returns (m: TagMap, tags: TagCounts, stored: Option<StoredMap>, sel: seq<string>, boxes: Dict<bool>)
    requires BoxesMatch(tags0, boxes0, sel0) && Distinct(listing) && HasTimes(MediaFiles(listing), mtime)
    ensures Rescanned(Dump(written), tags0, sel0, listing, mtime, scanSaveOk, m, tags, stored, {}, sel, boxes)
  {
    var saved := Some(Dump(written));
    assert Existing(saved) == Dump(written);
    var counts;
    m, counts, stored := ScanFolder(tags0, listing, mtime, saved, scanSaveOk);
    RescanKeepsBoxes(tags0, boxes0, sel0, m);
    sel, boxes := RestoreSelection(sel0, Buttons(counts));
    tags := counts;
  }



  /** What `on_tag_menu_close` did. */
  datatype MenuClose =
    | Dismissed           // no tags handed over: the dialog is destroyed
    | Declined            // not confirmed: the handler leaves the dialog to `save_tags`, which destroys it
    | NotSaved            // no folder or no write: the handler leaves the dialog to `save_tags`
    | Saved(shown: bool)  // written and rescanned; drawn, and the dialog destroyed, only when `shown`
  {
    /** Whether the handler itself closes the dialog. */
    predicate Closes() {
      Dismissed? || (Saved? && shown)
    }
  }

  class ThumbnailApp {
    /** Whether a folder was chosen. */
    const folderSet: bool
    /** The tag file in the folder as it would parse; `None` when it is
        missing or unreadable. */
    var stored: Option<StoredMap>
    var imageTagMap: TagMap
    var allTags: TagCounts
    /** The checkbox states, by tag, "no tags" first. */
    var checkVars: Dict<bool>
    var selectedItems: set<string>
    var selectedTags: seq<string>
    /** The thumbnail cache, by cache key. */
    var thumbnailCache: map<string, Image>
    var currentColumns: nat
    /** The thumbnails on the grid, in the order they were placed. */
    var placed: seq<Placement>
    var lastSize: (int, int)
    /** The dates the FROM and TO pickers show. */
    var fromDate: Date
    var toDate: Date
    var tagMenu: SubMenu?

    /** There is a box for "no tags" and for every known tag and for nothing
        else, every selected tag has a box, only files of the map are
        selected, and the pickers show real dates. */
    ghost predicate Settled()
      reads this`allTags, this`checkVars, this`selectedTags, this`imageTagMap, this`selectedItems
      reads this`fromDate, this`toDate
    {
      && BoxesMatch(allTags, checkVars, selectedTags)
      && FilesKnown(imageTagMap, selectedItems)
      && ValidDate(fromDate) && ValidDate(toDate)
    }

    /** Settled, and only files of the map are on the grid. */
    ghost predicate Consistent()
      reads this
    {
      Settled() && forall j :: 0 <= j < |placed| ==> placed[j].file in imageTagMap.items
    }

    /** The grid and the cache are what the thumbnail pass over the current
        filtered table makes from `cache0`; when the table cannot be built
        the grid is empty and nothing else changed. */
    ghost predicate Drawn(ok: bool, frameWidth: nat, ld: Loader, cache0: map<string, Image>, columns0: nat)
      reads this
      requires Valid(imageTagMap)
    {
      GridDrawn(imageTagMap, fromDate, toDate, selectedTags, frameWidth, ld, cache0, columns0,
                ok, placed, thumbnailCache, currentColumns)
    }

    /** Scans the folder, builds the tag boxes and sets both pickers to the
        range the files span (today twice for an empty folder). */
    constructor(folderSet: bool, listing: seq<string>, mtime: map<string, DateTime>, stored: Option<StoredMap>,
                saveOk: bool, size: (int, int), today: Date)
      requires Distinct(listing) && HasTimes(MediaFiles(listing), mtime) && ValidDate(today)
      ensures Consistent()
      ensures this.folderSet == folderSet && lastSize == size && tagMenu == null
      ensures imageTagMap == Reconcile(MediaFiles(listing), mtime, Existing(stored))
      ensures allTags == AccumulateCounts(Empty(), imageTagMap)
      ensures this.stored == if saveOk then Some(Dump(imageTagMap)) else stored
      ensures checkVars == Buttons(allTags) && selectedTags == [] && selectedItems == {}
      ensures thumbnailCache == map[] && placed == [] && currentColumns == 1
      ensures CreatedayList(imageTagMap).Some?
      ensures (fromDate, toDate) == DataRange(CreatedayList(imageTagMap).value, today)
    {
      var m, counts, stored' := ScanFolder(Empty(), listing, mtime, stored, saveOk);
      ScannedMapHasDates(MediaFiles(listing), mtime, Existing(stored));
      var range := DataRange(CreatedayList(m).value, today);
      this.folderSet, this.stored, lastSize := folderSet, stored', size;
      imageTagMap, allTags, checkVars := m, counts, Buttons(counts);
      selectedItems, selectedTags := {}, [];
      thumbnailCache, currentColumns, placed := map[], 1, [];
      fromDate, toDate := range.0, range.1;
      tagMenu := null;
    }

    /** `scan_tags`: rebuilds the tag map from the folder listing and the
        stored file, merges the fresh counts into `all_tags`, and writes the
        map back when `saveOk` (a failed write is only reported). */
    method ScanTags(listing: seq<string>, mtime: map<string, DateTime>, saveOk: bool)
      requires Valid(allTags) && Distinct(listing) && HasTimes(MediaFiles(listing), mtime)
      modifies this`imageTagMap, this`allTags, this`stored
      ensures imageTagMap == Reconcile(MediaFiles(listing), mtime, Existing(old(stored)))
      ensures imageTagMap.order == MediaFiles(listing)
      ensures allTags == AccumulateCounts(old(allTags), imageTagMap)
      ensures stored == if saveOk then Some(Dump(imageTagMap)) else old(stored)
    {
      imageTagMap, allTags, stored := ScanFolder(allTags, listing, mtime, stored, saveOk);
    }

    /** `create_tag_buttons`: a fresh row of boxes for the current counts. */
    method CreateTagButtons()
      requires Valid(allTags)
      modifies this`checkVars
      ensures checkVars == Buttons(allTags)
    {
      checkVars := Buttons(allTags);
    }

    /** `show_thumbnails`: empties the grid and lays out the filtered table;
        `ok` is false where building the table raises. */
    method ShowThumbnails(frameWidth: nat, ld: Loader) returns (ok: bool)
      requires Valid(imageTagMap)
      modifies this`placed, this`thumbnailCache, this`currentColumns
      ensures Drawn(ok, frameWidth, ld, old(thumbnailCache), old(currentColumns))
      ensures forall j :: 0 <= j < |placed| ==> placed[j].file in imageTagMap.items
    {
      ok, placed, thumbnailCache, currentColumns :=
        DrawGrid(imageTagMap, fromDate, toDate, selectedTags, frameWidth, ld, thumbnailCache, currentColumns);
    }

    /** `on_date_change`: a FROM later than TO moves TO up to FROM and
        stops; otherwise the grid is redrawn. */
    method OnDateChange(frameWidth: nat, ld: Loader) returns (shown: bool, ok: bool)
      requires Consistent()
      modifies this`toDate, this`placed, this`thumbnailCache, this`currentColumns
      ensures Consistent()
      ensures DateLessEq(fromDate, toDate)
      ensures shown <==> DateLessEq(old(fromDate), old(toDate))
      ensures !shown ==> toDate == fromDate && placed == old(placed) && thumbnailCache == old(thumbnailCache)
      ensures shown ==> toDate == old(toDate) && Drawn(ok, frameWidth, ld, old(thumbnailCache), old(currentColumns))
    {
      if !DateLessEq(fromDate, toDate) {
        toDate := fromDate;
        return false, false;
      }
      shown := true;
      ok := ShowThumbnails(frameWidth, ld);
    }

    /** The box half of `on_tag_toggle`: applies the rule that "no tags" and
        the real tags exclude each other (`None` is the "no tags" box), reads
        the checked tags back and clears the file selection. */
    method ToggleBoxes(tag: Option<string>)
      requires Settled()
      modifies this`checkVars, this`selectedTags, this`selectedItems
      ensures Settled()
      ensures checkVars == AfterToggle(old(checkVars), tag)
      ensures selectedTags == SelectedKeys(checkVars) && selectedItems == {}
    {
      match tag {
        case None =>
          checkVars := UncheckRealTags(checkVars);
        case Some(_) =>
          checkVars := Put(checkVars, Constants.NoneTagText, false);
      }
      selectedTags := SelectedKeys(checkVars);
      selectedItems := {};
    }

    /** `on_tag_toggle`: the boxes as `ToggleBoxes` leaves them, then the
        grid redrawn for the new tag selection. */
    method OnTagToggle(tag: Option<string>, frameWidth: nat, ld: Loader) returns (ok: bool)
      requires Consistent()
      modifies this`checkVars, this`selectedTags, this`selectedItems, this`placed, this`thumbnailCache, this`currentColumns
      ensures Consistent()
      ensures checkVars == AfterToggle(old(checkVars), tag)
      ensures selectedTags == SelectedKeys(checkVars) && selectedItems == {}
      ensures Drawn(ok, frameWidth, ld, old(thumbnailCache), old(currentColumns))
    {
      ToggleBoxes(tag);
      ok := ShowThumbnails(frameWidth, ld);
    }

    /** `on_window_resize`: a new size of the window itself is recorded and
        a redraw is scheduled for when Tk is idle. */
    method OnWindowResize(fromWindow: bool, newSize: (int, int)) returns (scheduled: bool)
      modifies this`lastSize
      ensures scheduled <==> fromWindow && newSize != old(lastSize)
      ensures lastSize == if scheduled then newSize else old(lastSize)
    {
      scheduled := false;
      if fromWindow && newSize != lastSize {
        lastSize := newSize;
        scheduled := true;
      }
    }

    /** `on_thumbnail_click` on the `j`-th thumbnail of the grid: its file
        flips in the selection. */
    method OnThumbnailClick(j: nat)
      requires Consistent() && j < |placed|
      modifies this`selectedItems
      ensures Consistent()
      ensures selectedItems == ThumbnailDisplay.Toggled(old(selectedItems), placed[j].file)
    {
      var path := placed[j].file;
      if path in selectedItems {
        selectedItems := selectedItems - {path};
      } else {
        selectedItems := selectedItems + {path};
      }
    }

    /** `on_main_frame_right_click`: with files selected, opens the tag
        dialog on the known tags in count order; otherwise only informs. */
    method OnMainFrameRightClick() returns (menuOpened: bool)
      requires Consistent()
      modifies this`tagMenu
      ensures Consistent()
      ensures menuOpened <==> selectedItems != {}
      ensures menuOpened ==>
        && tagMenu != null && fresh(tagMenu)
        && tagMenu.allTags == allTags.order && tagMenu.items == allTags.order && tagMenu.Consistent()
        && (forall i :: 0 <= i < |tagMenu.marks| ==> !tagMenu.marks[i])
        && tagMenu.hasOnClose && !tagMenu.destroyed && tagMenu.entry == []
      ensures !menuOpened ==> tagMenu == old(tagMenu)
    {
      if selectedItems == {} {
        return false;
      }
      tagMenu := new SubMenu(allTags.order, true);
      menuOpened := true;
    }

    /** The tags handed over replace the tags of every selected file. */
    method ApplyTags(updateTags: seq<string>)
      requires Consistent()
      modifies this`imageTagMap
      ensures Consistent()
      ensures imageTagMap == Overwrite(old(imageTagMap), selectedItems, updateTags)
    {
      imageTagMap := OverwriteSelected(imageTagMap, selectedItems, updateTags);
    }

    /** The confirmed update written to the folder and scanned back in:
        the selected files get the tags handed over, the folder is scanned
        again over that map, and the earlier tag selection is checked again
        on fresh boxes. */
    method SaveAndRescan(updateTags: seq<string>, listing: seq<string>, mtime: map<string, DateTime>, scanSaveOk: bool)
      requires Settled() && Distinct(listing) && HasTimes(MediaFiles(listing), mtime)
      modifies this`imageTagMap, this`stored, this`selectedItems, this`allTags, this`checkVars, this`selectedTags
      ensures Settled()
      ensures Rescanned(Dump(Overwrite(old(imageTagMap), old(selectedItems), updateTags)), old(allTags), old(selectedTags),
                        listing, mtime, scanSaveOk, imageTagMap, allTags, stored, selectedItems, selectedTags, checkVars)
    {
      var written := OverwriteSelected(imageTagMap, selectedItems, updateTags);
      imageTagMap, allTags, stored, selectedTags, checkVars :=
        RescanWritten(written, allTags, checkVars, selectedTags, listing, mtime, scanSaveOk);
      selectedItems := {};
    }

    /** The confirmed and written update, followed by a fresh grid. */
    method SaveAndRedraw(updateTags: seq<string>, listing: seq<string>, mtime: map<string, DateTime>, scanSaveOk: bool,
                         frameWidth: nat, ld: Loader) returns (shown: bool)
      requires Consistent() && Distinct(listing) && HasTimes(MediaFiles(listing), mtime)
      modifies this`imageTagMap, this`stored, this`selectedItems, this`allTags, this`checkVars, this`selectedTags
      modifies this`placed, this`thumbnailCache, this`currentColumns
      ensures Consistent()
      ensures Rescanned(Dump(Overwrite(old(imageTagMap), old(selectedItems), updateTags)), old(allTags), old(selectedTags),
                        listing, mtime, scanSaveOk, imageTagMap, allTags, stored, selectedItems, selectedTags, checkVars)
      ensures Drawn(shown, frameWidth, ld, old(thumbnailCache), old(currentColumns))
    {
      SaveAndRescan(updateTags, listing, mtime, scanSaveOk);
      shown := ShowThumbnails(frameWidth, ld);
    }

    /** Closes the tag dialog, when one was opened. */
    method CloseMenu()
      modifies tagMenu
      ensures tagMenu != null ==> tagMenu.destroyed
    {
      if tagMenu != null {
        tagMenu.Destroy();
      }
    }

    /** `CloseMenu` when `close` holds; otherwise the dialog is left alone. */
    method CloseMenuWhen(close: bool)
      modifies tagMenu
      ensures close && tagMenu != null ==> tagMenu.destroyed
      ensures !close && tagMenu != null ==> unchanged(tagMenu)
    {
      if close {
        CloseMenu();
      }
    }

    /** The branch of `on_tag_menu_close` for tags handed over: nothing
        happens unless the update is confirmed; a confirmed update gives the
        selected files exactly those tags, and when the map is then written
        the folder is scanned again, the boxes are rebuilt with the earlier
        tag selection checked, and the grid is redrawn. */
    method HandOver(updateTags: seq<string>, confirmed: bool, saveOk: bool,
                    listing: seq<string>, mtime: map<string, DateTime>, scanSaveOk: bool,
                    frameWidth: nat, ld: Loader) returns (outcome: MenuClose)
      requires Consistent() && Distinct(listing) && HasTimes(MediaFiles(listing), mtime)
      modifies this`imageTagMap, this`stored, this`selectedItems, this`allTags, this`checkVars, this`selectedTags
      modifies this`placed, this`thumbnailCache, this`currentColumns
      ensures Consistent()
      ensures outcome != Dismissed
      ensures outcome == Declined <==> !confirmed
      ensures outcome == NotSaved <==> confirmed && !(folderSet && |Constants.PictureTagsJson| > 0 && saveOk)
      ensures outcome == Declined ==>
        && stored == old(stored) && imageTagMap == old(imageTagMap) && allTags == old(allTags)
        && checkVars == old(checkVars) && selectedItems == old(selectedItems) && selectedTags == old(selectedTags)
        && thumbnailCache == old(thumbnailCache) && placed == old(placed)
      ensures outcome == NotSaved ==>
        && imageTagMap == Overwrite(old(imageTagMap), old(selectedItems), updateTags)
        && stored == old(stored) && allTags == old(allTags)
        && checkVars == old(checkVars) && selectedItems == old(selectedItems) && selectedTags == old(selectedTags)
        && thumbnailCache == old(thumbnailCache) && placed == old(placed)
      ensures outcome.Saved? ==>
        && Rescanned(Dump(Overwrite(old(imageTagMap), old(selectedItems), updateTags)), old(allTags), old(selectedTags),
                     listing, mtime, scanSaveOk, imageTagMap, allTags, stored, selectedItems, selectedTags, checkVars)
        && Drawn(outcome.shown, frameWidth, ld, old(thumbnailCache), old(currentColumns))
    {
      if !confirmed {
        return Declined;
      }
      if !(folderSet && |Constants.PictureTagsJson| > 0 && saveOk) {
        ApplyTags(updateTags);
        return NotSaved;
      }
      var shown := SaveAndRedraw(updateTags, listing, mtime, scanSaveOk, frameWidth, ld);
      outcome := Saved(shown);
    }

    /** `on_tag_menu_close`: no tags handed over closes the dialog; tags
        handed over go through `HandOver`, and the dialog is closed after a
        save whose grid was drawn. A rescan that finds no media file leaves
        nothing to draw: the redraw raises before the dialog is reached.
        Otherwise the handler does not touch the dialog, which `save_tags`
        destroys once the handler returns. */
    method OnTagMenuClose(updateTags: seq<string>, confirmed: bool, saveOk: bool,
                          listing: seq<string>, mtime: map<string, DateTime>, scanSaveOk: bool,
                          frameWidth: nat, ld: Loader) returns (outcome: MenuClose)
      requires Consistent() && Distinct(listing) && HasTimes(MediaFiles(listing), mtime)
      modifies this`imageTagMap, this`stored, this`selectedItems, this`allTags, this`checkVars, this`selectedTags
      modifies this`placed, this`thumbnailCache, this`currentColumns, tagMenu
      ensures Consistent()
      ensures outcome == Dismissed <==> updateTags == []
      ensures outcome == Declined <==> updateTags != [] && !confirmed
      ensures outcome == NotSaved <==> updateTags != [] && confirmed && !(folderSet && |Constants.PictureTagsJson| > 0 && saveOk)
      ensures outcome == Dismissed || outcome == Declined ==>
        && stored == old(stored) && imageTagMap == old(imageTagMap) && allTags == old(allTags)
        && checkVars == old(checkVars) && selectedItems == old(selectedItems) && selectedTags == old(selectedTags)
        && thumbnailCache == old(thumbnailCache) && placed == old(placed)
      ensures outcome == NotSaved ==>
        && imageTagMap == Overwrite(old(imageTagMap), old(selectedItems), updateTags)
        && stored == old(stored) && allTags == old(allTags)
        && checkVars == old(checkVars) && selectedItems == old(selectedItems) && selectedTags == old(selectedTags)
        && thumbnailCache == old(thumbnailCache) && placed == old(placed)
      ensures outcome.Saved? ==>
        && Rescanned(Dump(Overwrite(old(imageTagMap), old(selectedItems), updateTags)), old(allTags), old(selectedTags),
                     listing, mtime, scanSaveOk, imageTagMap, allTags, stored, selectedItems, selectedTags, checkVars)
        && Drawn(outcome.shown, frameWidth, ld, old(thumbnailCache), old(currentColumns))
      ensures outcome.Closes() && old(tagMenu) != null ==> old(tagMenu).destroyed
      ensures !outcome.Closes() && tagMenu != null ==> unchanged(tagMenu)
    {
      if updateTags == [] {
        CloseMenu();
        return Dismissed;
      }
      outcome := HandOver(updateTags, confirmed, saveOk, listing, mtime, scanSaveOk, frameWidth, ld);
      CloseMenuWhen(outcome.Closes());
    }
  }
}

=== FILE: logic.dfy ===
/** The data logic under the widgets: reconciling the stored tag map with
    the folder, counting tags, the display filter, the thumbnail grid and
    the thumbnail cache. The methods that run these steps on the
    application's state live with the classes that own that state. */
module Logic {
  import opened Wrappers
  import opened OrderedDict
  import opened Decimal
  import opened Calendar
  import Constants

  // ---------------------------------------------------------------------
  // File names
  // ---------------------------------------------------------------------

  function LowerChar(c: char): char {
    if 'A' <= c <= 'Z' then ((c as int) + 32) as char else c
  }

  /** `s.lower()` restricted to ASCII letters. */
  function AsciiLower(s: string): (r: string)
    ensures |r| == |s|
    ensures forall i :: 0 <= i < |s| ==> r[i] == LowerChar(s[i])
  {
    seq(|s|, i requires 0 <= i < |s| => LowerChar(s[i]))
  }

  /** The position of the last dot of `s`, if any. */
  function LastDot(s: string): (r: Option<nat>)
    ensures r.Some? ==> r.value < |s| && s[r.value] == '.'
    ensures r.Some? ==> forall j :: r.value < j < |s| ==> s[j] != '.'
    ensures r.None? ==> forall j :: 0 <= j < |s| ==> s[j] != '.'
  {
    if s == [] then None
    else if s[|s| - 1] == '.' then Some(|s| - 1)
    else LastDot(s[..|s| - 1])
  }

  predicate AllDots(s: string) {
    forall j :: 0 <= j < |s| ==> s[j] == '.'
  }

  /** `os.path.splitext(name)[1]` for a directory entry (a name without
      separators): from the last dot on, unless only dots precede it, as in
      `.jpg` or `..png`, which have no extension. */
  function Extension(name: string): (ext: string)
    ensures |ext| <= |name| && ext == name[|name| - |ext|..]
    ensures ext != [] ==> ext[0] == '.'
  {
    match LastDot(name)
    case None => []
    case Some(i) => if AllDots(name[..i]) then [] else name[i..]
  }

  /** The scan's test: the lower-cased extension is an image or video extension. */
  predicate IsMediaName(name: string) {
    AsciiLower(Extension(name)) in Constants.VideoAndImageExts
  }

  predicate IsVideoName(name: string) {
    AsciiLower(Extension(name)) in Constants.VideoExts
  }

  lemma {:induction false} LastDotLower(s: string)
    ensures LastDot(AsciiLower(s)) == LastDot(s)
  {
    if s != [] {
      assert AsciiLower(s)[..|s| - 1] == AsciiLower(s[..|s| - 1]);
      LastDotLower(s[..|s| - 1]);
    }
  }

  /** Lower-casing commutes with taking the extension. */
  lemma ExtensionLower(s: string)
    ensures Extension(AsciiLower(s)) == AsciiLower(Extension(s))
  {
    LastDotLower(s);
    match LastDot(s)
    case None =>
    case Some(i) =>
      assert AsciiLower(s)[..i] == AsciiLower(s[..i]);
      assert AsciiLower(s)[i..] == AsciiLower(s[i..]);
      assert AllDots(AsciiLower(s[..i])) == AllDots(s[..i]);
  }

  /** Matching is case-insensitive: names that differ only in the case of
      ASCII letters are both media files or both not. */
  lemma MediaMatchIgnoresCase(a: string, b: string)
    requires AsciiLower(a) == AsciiLower(b)
    ensures IsMediaName(a) == IsMediaName(b)
    ensures IsVideoName(a) == IsVideoName(b)
  {
    ExtensionLower(a);
    ExtensionLower(b);
    LowerTwice(Extension(a));
    LowerTwice(Extension(b));
  }

  lemma LowerTwice(s: string)
    ensures AsciiLower(AsciiLower(s)) == AsciiLower(s)
  {
  }

  /** The tag-map file itself is never taken for a media file, and neither
      is a hidden-style name such as `.jpg`. */
  lemma TagFileIsNotMedia()
    ensures !IsMediaName(Constants.PictureTagsJson)
    ensures !IsMediaName(".jpg")
  {
    var j := Constants.PictureTagsJson;
    assert j[13] == '.' && j[14] == 'j' && j[15] == 's' && j[16] == 'o' && j[17] == 'n' && |j| == 18;
    assert LastDot(j) == Some(13);
    assert !AllDots(j[..13]) by { assert j[..13][0] == 'i'; }
    assert Extension(j) == ".json";
    assert AsciiLower(".json") == ".json";
    var h := ".jpg";
    assert h[0] == '.' && h[1] == 'j' && h[2] == 'p' && h[3] == 'g' && |h| == 4;
    assert LastDot(h) == Some(0);
    assert Extension(".jpg") == [];
    assert AsciiLower([]) == [];
  }

  /** `[f for f in os.listdir(folder) if os.path.splitext(f)[1].lower() in VIDEO_AND_IMAGE_EXTS]` */
  function MediaFiles(listing: seq<string>): seq<string> {
    if listing == [] then []
    else if IsMediaName(listing[0]) then [listing[0]] + MediaFiles(listing[1..])
    else MediaFiles(listing[1..])
  }

  /** The scan keeps exactly the media files of the listing, and a listing
      names each file once. */
  lemma {:induction false} MediaFilesSpec(listing: seq<string>)
    ensures forall f :: f in MediaFiles(listing) <==> f in listing && IsMediaName(f)
    ensures Distinct(listing) ==> Distinct(MediaFiles(listing))
  {
    if listing != [] {
      MediaFilesSpec(listing[1..]);
      assert forall f :: f in listing <==> f == listing[0] || f in listing[1..];
    }
  }

  // ---------------------------------------------------------------------
  // The tag map and its reconciliation with the folder
  // ---------------------------------------------------------------------

  /** One entry of `image_tag_map`: the `createday` text and the `tags` list. */
  datatype Record = Record(createday: string, tags: seq<string>)

  /** An entry of the JSON file as loaded: an object where either key may
      be absent and `tags`, when present, is a list of strings; other keys
      (old thumbnails, hashes) are ignored. */
  datatype StoredRecord = StoredRecord(createday: Option<string>, tags: Option<seq<string>>)

  /** `image_tag_map`: file name to record, in insertion order. */
  type TagMap = Dict<Record>

  /** `all_tags`: tag to number of occurrences, in insertion order. */
  type TagCounts = Dict<nat>

  /** The parsed JSON file. */
  type StoredMap = map<string, StoredRecord>

  /** The stored map the scan starts from: the parsed file, or `{}` when the
      file is missing or does not parse. */
  function Existing(json: Option<StoredMap>): StoredMap {
    json.GetOr(map[])
  }

  /** `existing_tag_map[fname].get("tags", [])` for a known file, `[]` for a new one. */
  function StoredTags(existing: StoredMap, f: string): seq<string> {
    if f in existing then existing[f].tags.GetOr([]) else []
  }

  /** Every listed file has a modification time (the model of `os.path.getmtime`). */
  ghost predicate HasTimes(files: seq<string>, mtime: map<string, DateTime>) {
    forall f :: f in files ==> f in mtime && ValidDateTime(mtime[f])
  }

  /** The record the scan builds for `f`. */
  function NewRecord(f: string, mtime: map<string, DateTime>, existing: StoredMap): Record
    requires f in mtime && ValidDateTime(mtime[f])
  {
    Record(FormatDateTime(mtime[f]), StoredTags(existing, f))
  }

  /** The map the scan loop builds: `image_tag_map[fname] = ...` for each file in turn. */
  function Reconcile(files: seq<string>, mtime: map<string, DateTime>, existing: StoredMap): (m: TagMap)
    requires HasTimes(files, mtime)
    ensures Valid(m)
    decreases |files|
  {
    if files == [] then Empty()
    else
      var f := files[|files| - 1];
      Put(Reconcile(files[..|files| - 1], mtime, existing), f, NewRecord(f, mtime, existing))
  }

  /** The rebuilt map lists exactly the scanned files, in listing order; each
      record carries the file's current time as `createday` and the stored
      tags, or `[]` for a file the JSON did not know. */
  lemma {:induction false} ReconcileShape(files: seq<string>, mtime: map<string, DateTime>, existing: StoredMap)
    requires HasTimes(files, mtime) && Distinct(files)
    ensures Reconcile(files, mtime, existing).order == files
    ensures forall f :: f in files ==> Reconcile(files, mtime, existing).items[f] == NewRecord(f, mtime, existing)
  {
    if files != [] {
      var init, f := files[..|files| - 1], files[|files| - 1];
      assert files == init + [f];
      DistinctSnoc(init, f);
      ReconcileShape(init, mtime, existing);
      var m0 := Reconcile(init, mtime, existing);
      assert f !in m0.items;
      var m := Put(m0, f, NewRecord(f, mtime, existing));
      assert Reconcile(files, mtime, existing) == m;
      forall g | g in files
        ensures m.items[g] == NewRecord(g, mtime, existing)
      {
        if g != f {
          assert g in init;
        }
      }
    }
  }

  /** The scan reads nothing from a stored record but its tags. */
  lemma {:induction false} ReconcileReadsOnlyTags(files: seq<string>, mtime: map<string, DateTime>, e1: StoredMap, e2: StoredMap)
    requires HasTimes(files, mtime)
    requires forall f :: f in files ==> StoredTags(e1, f) == StoredTags(e2, f)
    ensures Reconcile(files, mtime, e1) == Reconcile(files, mtime, e2)
  {
    if files != [] {
      ReconcileReadsOnlyTags(files[..|files| - 1], mtime, e1, e2);
    }
  }

  /** `json.dump(image_tag_map)` as `json.load` reads it back. */
  function Dump(m: TagMap): (j: StoredMap)
    ensures j.Keys == m.items.Keys
    ensures forall f :: f in m.items ==> j[f].tags == Some(m.items[f].tags)
  {
    map f | f in m.items :: StoredRecord(Some(m.items[f].createday), Some(m.items[f].tags))
  }

  /** Rescanning an unchanged folder after the scan saved its map gives the same map. */
  lemma {:induction false} RescanIsIdempotent(files: seq<string>, mtime: map<string, DateTime>, existing: StoredMap)
    requires HasTimes(files, mtime) && Distinct(files)
    ensures var m := Reconcile(files, mtime, existing);
      Reconcile(files, mtime, Dump(m)) == m
  {
    var m := Reconcile(files, mtime, existing);
    ReconcileShape(files, mtime, existing);
    ReconcileReadsOnlyTags(files, mtime, Dump(m), existing);
  }

  /** Without a readable JSON file every scanned file starts with no tags. */
  lemma {:induction false} MissingJsonMeansNoTags(files: seq<string>, mtime: map<string, DateTime>)
    requires HasTimes(files, mtime) && Distinct(files)
    ensures Reconcile(files, mtime, Existing(None)).order == files
    ensures forall f :: f in files ==> Reconcile(files, mtime, Existing(None)).items[f].tags == []
  {
    var m := Reconcile(files, mtime, Existing(None));
    ReconcileShape(files, mtime, Existing(None));
    forall f | f in files
      ensures m.items[f].tags == []
    {
      assert m.items[f] == NewRecord(f, mtime, map[]);
    }
  }

  // ---------------------------------------------------------------------
  // Tag counting
  // ---------------------------------------------------------------------

  /** The tags of the records under `keys`, concatenated in key order
      (the scan's `temp_tags`). */
  function TagsAlong(keys: seq<string>, items: map<string, Record>): seq<string>
    requires forall k :: k in keys ==> k in items
  {
    if keys == [] then [] else TagsAlong(keys[..|keys| - 1], items) + items[keys[|keys| - 1]].tags
  }

  /** The distinct elements of `s`, in order of first occurrence. */
  function FirstOccurrences(s: seq<string>): (r: seq<string>)
    ensures Distinct(r)
    ensures forall t :: t in r <==> t in s
  {
    if s == [] then []
    else
      var init, t := s[..|s| - 1], s[|s| - 1];
      assert s == init + [t];
      if t in init then FirstOccurrences(init)
      else
        DistinctSnoc(FirstOccurrences(init), t);
        FirstOccurrences(init) + [t]
  }

  /** `collections.Counter(s)`: one key per distinct tag, in order of first
      occurrence, counting every occurrence. */
  function Counter(s: seq<string>): (c: TagCounts)
    ensures Valid(c)
    ensures forall t :: t in c.items <==> t in s
    ensures forall t :: t in c.items ==> c.items[t] == multiset(s)[t]
  {
    if s == [] then Empty()
    else
      var init, t := s[..|s| - 1], s[|s| - 1];
      var c := Counter(init);
      assert s == init + [t];
      assert forall u :: u in s <==> u in init || u == t;
      Put(c, t, (if t in c.items then c.items[t] else 0) + 1)
  }

  /** The counter lists the tags in the order they first occur. */
  lemma {:induction false} CounterOrder(s: seq<string>)
    ensures Counter(s).order == FirstOccurrences(s)
  {
    if s != [] {
      var init := s[..|s| - 1];
      CounterOrder(init);
    }
  }

  /** Records added under other names do not change the tags collected so far. */
  lemma {:induction false} TagsAlongIgnoresOthers(keys: seq<string>, items: map<string, Record>, k: string, v: Record)
    requires forall j :: j in keys ==> j in items
    requires k !in keys
    ensures TagsAlong(keys, items[k := v]) == TagsAlong(keys, items)
  {
    if keys != [] {
      TagsAlongIgnoresOthers(keys[..|keys| - 1], items, k, v);
    }
  }

  /** One more file of the scan loop: its record goes last and its tags
      are appended to those collected so far. */
  lemma ScanStep(init: seq<string>, f: string, mtime: map<string, DateTime>, existing: StoredMap)
    requires HasTimes(init + [f], mtime) && f !in init
    requires Reconcile(init, mtime, existing).order == init
    ensures var m0 := Reconcile(init, mtime, existing);
      var m := Reconcile(init + [f], mtime, existing);
      && m == Put(m0, f, NewRecord(f, mtime, existing))
      && m.order == init + [f]
      && TagsAlong(m.order, m.items) == TagsAlong(m0.order, m0.items) + NewRecord(f, mtime, existing).tags
  {
    var m0 := Reconcile(init, mtime, existing);
    assert (init + [f])[..|init|] == init;
    var m := Reconcile(init + [f], mtime, existing);
    assert m == Put(m0, f, NewRecord(f, mtime, existing));
    TagsAlongIgnoresOthers(m0.order, m0.items, f, NewRecord(f, mtime, existing));
    assert (init + [f])[..|init|] == init;
  }

  /** The body of the scan loop for one file: `image_tag_map[fname] = {...}`
      with the current time and the stored tags, or none for a file the JSON
      did not know, then `temp_tags.extend(...)`. After the files `done`, it
      gives the map and the tags of `done + [fname]`. */
  method ScanFile(m: TagMap, tempTags: seq<string>, fname: string, mtime: map<string, DateTime>, existing: StoredMap,
                  ghost done: seq<string>)
    returns (m': TagMap, tempTags': seq<string>)
    requires HasTimes(done + [fname], mtime) && fname !in done
    requires m == Reconcile(done, mtime, existing) && m.order == done
    requires tempTags == TagsAlong(m.order, m.items)
    ensures m' == Reconcile(done + [fname], mtime, existing) && m'.order == done + [fname]
    ensures tempTags' == TagsAlong(m'.order, m'.items)
  {
    ScanStep(done, fname, mtime, existing);
    var mtimeStr := FormatDateTime(mtime[fname]);
    if fname in existing {
      m' := Put(m, fname, Record(mtimeStr, existing[fname].tags.GetOr([])));
    } else {
      m' := Put(m, fname, Record(mtimeStr, []));
    }
    tempTags' := tempTags + m'.items[fname].tags;
  }

  /** Taking the next file of a listing without repetition: it was not
      seen before and it has a time. */
  lemma NextFile(files: seq<string>, done: seq<string>, rest: seq<string>, mtime: map<string, DateTime>)
    requires HasTimes(files, mtime) && Distinct(files) && files == done + rest && rest != []
    ensures rest[0] !in done && HasTimes(done + [rest[0]], mtime)
    ensures files == (done + [rest[0]]) + rest[1..]
  {
    DistinctIndices(files);
    forall j | 0 <= j < |done|
      ensures done[j] != rest[0]
    {
      assert (done + rest)[j] == done[j] && (done + rest)[|done|] == rest[0];
    }
    assert files == (done + [rest[0]]) + rest[1..];
  }

  /** The loop of `scan_tags`: builds the map file by file and collects the
      tags of each record in `temp_tags`. */
  method ScanLoop(files: seq<string>, mtime: map<string, DateTime>, existing: StoredMap)
    returns (m: TagMap, tempTags: seq<string>)
    requires HasTimes(files, mtime) && Distinct(files)
    ensures m == Reconcile(files, mtime, existing) && m.order == files
    ensures tempTags == TagsAlong(m.order, m.items)
  {
    m := Empty();
    tempTags := [];
    ghost var done: seq<string> := [];
    var rest := files;
    while rest != []
      invariant files == done + rest
      invariant m == Reconcile(done, mtime, existing) && m.order == done
      invariant tempTags == TagsAlong(m.order, m.items)
    {
      var fname := rest[0];
      NextFile(files, done, rest, mtime);
      m, tempTags := ScanFile(m, tempTags, fname, mtime, existing, done);
      done, rest := done + [fname], rest[1..];
    }
    assert done == files;
  }

  /** What the tuple-returning scan yields: the reconciled map and the tag
      counts of that map alone. */
  function Scan(listing: seq<string>, mtime: map<string, DateTime>, json: Option<StoredMap>): (r: (TagMap, TagCounts))
    requires HasTimes(MediaFiles(listing), mtime)
    ensures Valid(r.0) && Valid(r.1)
  {
    var m := Reconcile(MediaFiles(listing), mtime, Existing(json));
    (m, Counter(TagsAlong(m.order, m.items)))
  }

  /** The legacy scan keeps the counts of `all_tags` and overwrites them
      with the fresh ones (`dict.update`): a tag no file carries any more
      keeps its old count. */
  function AccumulateCounts(allTags: TagCounts, m: TagMap): (r: TagCounts)
    requires Valid(allTags) && Valid(m)
    ensures Valid(r)
    ensures forall t :: t in r.items <==> t in allTags.items || t in TagsAlong(m.order, m.items)
    ensures forall t :: t in r.items ==>
      r.items[t] == if t in TagsAlong(m.order, m.items) then multiset(TagsAlong(m.order, m.items))[t] else allTags.items[t]
    ensures |allTags.order| <= |r.order| && r.order[..|allTags.order|] == allTags.order
  {
    Update(allTags, Counter(TagsAlong(m.order, m.items)))
  }

  /** Tags the counts did not know yet come after the known ones, in the
      order the map's records first mention them. */
  lemma AccumulateOrder(allTags: TagCounts, m: TagMap)
    requires Valid(allTags) && Valid(m)
    ensures AccumulateCounts(allTags, m).order
      == allTags.order + NewKeys(FirstOccurrences(TagsAlong(m.order, m.items)), allTags.items.Keys)
  {
    var c := Counter(TagsAlong(m.order, m.items));
    CounterOrder(TagsAlong(m.order, m.items));
    UpdateOrder(allTags, c);
  }

  /** `scan_tags` on a window: the folder's media files reconciled with the
      stored tag file, the fresh counts merged into `allTags`, and the map
      written back when `saveOk` (a failed write is only reported, so the
      stored file stays as it was). */
  method ScanFolder(allTags: TagCounts, listing: seq<string>, mtime: map<string, DateTime>,
                    stored: Option<StoredMap>, saveOk: bool)
    returns (m: TagMap, counts: TagCounts, stored': Option<StoredMap>)
    requires Valid(allTags) && Distinct(listing) && HasTimes(MediaFiles(listing), mtime)
    ensures m == Reconcile(MediaFiles(listing), mtime, Existing(stored)) && m.order == MediaFiles(listing)
    ensures counts == AccumulateCounts(allTags, m)
    ensures stored' == if saveOk then Some(Dump(m)) else stored
  {
    var files := MediaFiles(listing);
    MediaFilesSpec(listing);
    var tempTags;
    m, tempTags := ScanLoop(files, mtime, Existing(stored));
    counts := Update(allTags, Counter(tempTags));
    stored' := if saveOk then Some(Dump(m)) else stored;
  }

  // ---------------------------------------------------------------------
  // Batch tag overwrite
  // ---------------------------------------------------------------------

  /** The map after `image_tag_map[fname]["tags"] = update_tags` for every
      selected file: the tags of a selected file are replaced, not merged,
      and nothing else changes. */
  function Overwrite(m: TagMap, sel: set<string>, tags: seq<string>): (r: TagMap)
    requires Valid(m)
    ensures Valid(r) && r.order == m.order && r.items.Keys == m.items.Keys
    ensures forall f :: f in m.items ==> r.items[f].createday == m.items[f].createday
    ensures forall f :: f in m.items ==> r.items[f].tags == if f in sel then tags else m.items[f].tags
  {
    Dict(m.order, map f | f in m.items :: if f in sel then m.items[f].(tags := tags) else m.items[f])
  }

  /** The overwrite loop, visiting the selected files in any order; a
      selected file the map lacks would raise `KeyError`. */
  method OverwriteSelected(m: TagMap, sel: set<string>, tags: seq<string>) returns (r: TagMap)
    requires Valid(m) && sel <= m.items.Keys
    ensures r == Overwrite(m, sel, tags)
  {
    r := m;
    var rest := sel;
    while rest != {}
      invariant rest <= sel
      invariant Valid(r) && r.order == m.order && r.items.Keys == m.items.Keys
      invariant forall f :: f in m.items ==> r.items[f] == if f in sel && f !in rest then m.items[f].(tags := tags) else m.items[f]
      decreases |rest|
    {
      var fname :| fname in rest;
      r := Put(r, fname, r.items[fname].(tags := tags));
      rest := rest - {fname};
    }
    assert r.items == Overwrite(m, sel, tags).items;
  }

  /** Saving the overwritten map and scanning again brings the new tags back:
      every selected file still in the folder carries exactly `tags`, every
      other known file its old tags, and a new file none. */
  lemma OverwriteSurvivesRescan(files: seq<string>, mtime: map<string, DateTime>, m: TagMap, sel: set<string>, tags: seq<string>)
    requires HasTimes(files, mtime) && Distinct(files) && Valid(m)
    ensures Reconcile(files, mtime, Dump(Overwrite(m, sel, tags))).order == files
    ensures var r := Reconcile(files, mtime, Dump(Overwrite(m, sel, tags)));
      forall f :: f in files ==>
        r.items[f].tags == if f !in m.items then [] else if f in sel then tags else m.items[f].tags
  {
    ReconcileShape(files, mtime, Dump(Overwrite(m, sel, tags)));
  }

  // ---------------------------------------------------------------------
  // The table the thumbnail views are drawn from
  // ---------------------------------------------------------------------

  /** One row of `pd.DataFrame(image_tag_map).T` after `pd.to_datetime`. */
  datatype Row = Row(file: string, created: DateTime, tags: seq<string>)

  /** The rows for `keys`, or `None` when some `createday` does not parse. */
  function FrameRows(keys: seq<string>, items: map<string, Record>): (rows: Option<seq<Row>>)
    requires forall k :: k in keys ==> k in items
    ensures rows.Some? <==> forall k :: k in keys ==> ParseDateTime(items[k].createday).Some?
    ensures rows.Some? ==> |rows.value| == |keys|
    ensures rows.Some? ==> forall i :: 0 <= i < |keys| ==>
      && rows.value[i].file == keys[i]
      && rows.value[i].tags == items[keys[i]].tags
      && Some(rows.value[i].created) == ParseDateTime(items[keys[i]].createday)
  {
    if keys == [] then Some([])
    else
      var init, k := keys[..|keys| - 1], keys[|keys| - 1];
      assert keys == init + [k];
      match FrameRows(init, items)
      case None => None
      case Some(rows) =>
        match ParseDateTime(items[k].createday)
        case None => None
        case Some(t) => Some(rows + [Row(k, t, items[k].tags)])
  }

  /** The table of the whole map, in the map's order. An empty map has no
      `createday` column and selecting it raises, and so does a `createday`
      that does not parse: both give `None`. */
  function Frame(m: TagMap): (rows: Option<seq<Row>>)
    requires Valid(m)
    ensures rows.Some? <==> m.order != [] && forall k :: k in m.order ==> ParseDateTime(m.items[k].createday).Some?
    ensures rows.Some? ==> |rows.value| == |m.order| && forall i :: 0 <= i < |m.order| ==> rows.value[i].file == m.order[i]
  {
    if m.order == [] then None else FrameRows(m.order, m.items)
  }

  /** A map the scan built always gives a table as soon as the folder holds a
      media file: every `createday` it wrote reads back. */
  lemma ScannedMapFrames(files: seq<string>, mtime: map<string, DateTime>, existing: StoredMap)
    requires HasTimes(files, mtime) && Distinct(files)
    ensures Frame(Reconcile(files, mtime, existing)).Some? <==> files != []
  {
    ScannedDatesParse(files, mtime, existing);
  }

  /** Every `createday` the scan wrote reads back as the file's time. */
  lemma ScannedDatesParse(files: seq<string>, mtime: map<string, DateTime>, existing: StoredMap)
    requires HasTimes(files, mtime) && Distinct(files)
    ensures Reconcile(files, mtime, existing).order == files
    ensures var m := Reconcile(files, mtime, existing);
      forall k :: k in m.order ==> ParseDateTime(m.items[k].createday) == Some(mtime[k])
  {
    var m := Reconcile(files, mtime, existing);
    ReconcileShape(files, mtime, existing);
    forall k | k in m.order
      ensures ParseDateTime(m.items[k].createday) == Some(mtime[k])
    {
      ParseFormat(mtime[k]);
    }
  }

  /** The date filter: `from <= createday.date() <= to`. */
  predicate InDateRange(r: Row, from: Date, to: Date) {
    DateLessEq(from, r.created.date) && DateLessEq(r.created.date, to)
  }

  /** The tag filter: the lone "no tags" selection keeps untagged files, any
      other selection keeps the files carrying every selected tag, and no
      selection keeps everything. */
  predicate TagsPass(tags: seq<string>, selected: seq<string>) {
    if selected == [Constants.NoneTagText] then |tags| == 0
    else forall t :: t in selected ==> t in tags
  }

  predicate Keep(r: Row, from: Date, to: Date, selected: seq<string>) {
    InDateRange(r, from, to) && TagsPass(r.tags, selected)
  }

  /** The rows both filters keep, in table order. */
  function Filter(rows: seq<Row>, from: Date, to: Date, selected: seq<string>): (kept: seq<Row>)
    ensures |kept| <= |rows|
    ensures forall r :: r in kept <==> r in rows && Keep(r, from, to, selected)
  {
    if rows == [] then []
    else
      var init, r := rows[..|rows| - 1], rows[|rows| - 1];
      assert rows == init + [r];
      Filter(init, from, to, selected) + (if Keep(r, from, to, selected) then [r] else [])
  }

  /** The file column of a table. */
  function RowFiles(rows: seq<Row>): (files: seq<string>)
    ensures |files| == |rows| && forall i :: 0 <= i < |rows| ==> files[i] == rows[i].file
  {
    seq(|rows|, i requires 0 <= i < |rows| => rows[i].file)
  }

  /** Filtering a table without repeated files gives a table without
      repeated files. */
  lemma {:induction false} FilterKeepsFilesDistinct(rows: seq<Row>, from: Date, to: Date, selected: seq<string>)
    requires Distinct(RowFiles(rows))
    ensures Distinct(RowFiles(Filter(rows, from, to, selected)))
    ensures forall f :: f in RowFiles(Filter(rows, from, to, selected)) ==> f in RowFiles(rows)
  {
    if rows != [] {
      var init, r := rows[..|rows| - 1], rows[|rows| - 1];
      var kept := Filter(init, from, to, selected);
      var tail := if Keep(r, from, to, selected) then [r] else [];
      assert Filter(rows, from, to, selected) == kept + tail;
      assert RowFiles(rows) == RowFiles(init) + [r.file];
      DistinctSnoc(RowFiles(init), r.file);
      FilterKeepsFilesDistinct(init, from, to, selected);
      if tail == [] {
        assert kept + tail == kept;
      } else {
        assert RowFiles(kept + [r]) == RowFiles(kept) + [r.file];
        DistinctSnoc(RowFiles(kept), r.file);
      }
    }
  }

  /** Filtering keeps the table order: it distributes over concatenation. */
  lemma {:induction false} FilterAppend(a: seq<Row>, b: seq<Row>, from: Date, to: Date, selected: seq<string>)
    ensures Filter(a + b, from, to, selected) == Filter(a, from, to, selected) + Filter(b, from, to, selected)
    decreases |b|
  {
    if b == [] {
      assert a + b == a;
    } else {
      var init, r := b[..|b| - 1], b[|b| - 1];
      var tail := if Keep(r, from, to, selected) then [r] else [];
      assert (a + b)[..|a + b| - 1] == a + init && (a + b)[|a + b| - 1] == r;
      assert Filter(a + b, from, to, selected) == Filter(a + init, from, to, selected) + tail;
      assert Filter(b, from, to, selected) == Filter(init, from, to, selected) + tail;
      FilterAppend(a, init, from, to, selected);
    }
  }

  /** With no tag selected and the widest possible range, nothing is filtered out. */
  lemma {:induction false} FilterKeepsAllWhenOpen(rows: seq<Row>, from: Date, to: Date)
    requires forall r :: r in rows ==> InDateRange(r, from, to)
    ensures Filter(rows, from, to, []) == rows
  {
    if rows != [] {
      var init := rows[..|rows| - 1];
      assert rows == init + [rows[|rows| - 1]];
      FilterKeepsAllWhenOpen(init, from, to);
    }
  }

  /** "No tags" and a real tag never both match: selecting the "no tags" box
      with another tag (which the checkboxes prevent) would show no file. */
  lemma NoneTagExcludesOthers(tags: seq<string>, t: string)
    requires TagsPass(tags, [Constants.NoneTagText, t])
    ensures Constants.NoneTagText in tags
  {
    assert Constants.NoneTagText in [Constants.NoneTagText, t];
  }

  /** Selecting more tags never shows more files. */
  lemma MoreTagsFewerFiles(tags: seq<string>, s1: seq<string>, s2: seq<string>)
    requires s1 != [Constants.NoneTagText] && s2 != [Constants.NoneTagText]
    requires forall t :: t in s1 ==> t in s2
    requires TagsPass(tags, s2)
    ensures TagsPass(tags, s1)
  {
  }

  /** The files a thumbnail view shows: the file column of the filtered
      table of the map, or `None` when the table cannot be built. */
  function ShownTable(m: TagMap, from: Date, to: Date, selected: seq<string>): (files: Option<seq<string>>)
    requires Valid(m)
    ensures files.Some? <==> Frame(m).Some?
    ensures files.Some? ==> Distinct(files.value) && forall f :: f in files.value ==> f in m.items
  {
    match Frame(m)
    case None => None
    case Some(rows) =>
      assert RowFiles(rows) == m.order;
      FilterKeepsFilesDistinct(rows, from, to, selected);
      Some(RowFiles(Filter(rows, from, to, selected)))
  }

  // ---------------------------------------------------------------------
  // Grid geometry and the thumbnail cache
  // ---------------------------------------------------------------------

  /** `max(1, frame_width // min_thumb_width)`: as many columns as fit, at least one. */
  function Columns(frameWidth: nat): (c: nat)
    ensures c >= 1
    ensures frameWidth < (c + 1) * Constants.MinThumbWidth
    ensures c == 1 || c * Constants.MinThumbWidth <= frameWidth
  {
    var c := frameWidth / Constants.MinThumbWidth;
    if c < 1 then 1 else c
  }

  /** The grid slot `(idx // columns, idx % columns)` of the `idx`-th thumbnail. */
  function Cell(idx: nat, columns: nat): (cell: (nat, nat))
    requires columns >= 1
    ensures cell.1 < columns
    ensures cell.0 * columns + cell.1 == idx
  {
    (idx / columns, idx % columns)
  }

  /** Reading a grid slot back in row-major order. */
  function Slot(row: nat, column: nat, columns: nat): nat {
    row * columns + column
  }

  /** The fixed tail `_128_128` of every cache key. */
  function KeySuffix(): string {
    "_" + FormatNat(Constants.ThumbnailWidth) + "_" + FormatNat(Constants.ThumbnailHeight)
  }

  /** `f"{file}_{THUMBNAIL_SIZE[0]}_{THUMBNAIL_SIZE[1]}"` */
  function CacheKey(file: string): (k: string)
    ensures |k| > |file| && k[..|file|] == file
  {
    file + KeySuffix()
  }

  /** Different files never share a cache entry. */
  lemma CacheKeyInjective(a: string, b: string)
    ensures CacheKey(a) == CacheKey(b) <==> a == b
  {
    if CacheKey(a) == CacheKey(b) {
      assert |a| == |b|;
      assert a == CacheKey(a)[..|a|];
    }
  }

  /** A decoded image, or the gray placeholder a video falls back to. */
  datatype Image = Placeholder | Picture(handle: nat)

  /** What the thumbnail code reads from outside: a file opened and shrunk
      with PIL (`None` when that raises), the first frame of a video read with
      OpenCV (`None` when reading fails), and the thumbnail stored for a row of
      the map (`None` when there is none). */
  datatype Loader = Loader(
    openImage: string -> Option<Image>,
    videoFrame: string -> Option<Image>,
    storedThumbnail: string -> Option<Image>)

  /** `get_video_thumbnail`: the first frame, or the gray placeholder. */
  function VideoThumbnail(f: string, ld: Loader): (img: Image)
    ensures ld.videoFrame(f).None? ==> img == Placeholder
  {
    ld.videoFrame(f).GetOr(Placeholder)
  }

  /** A fresh thumbnail: videos through `get_video_thumbnail`, everything
      else through PIL. */
  function Generate(f: string, ld: Loader): Option<Image> {
    if IsVideoName(f) then Some(VideoThumbnail(f, ld)) else ld.openImage(f)
  }

  /** A video always gets a thumbnail (its first frame or the placeholder);
      only a picture PIL cannot open gets none. */
  lemma GenerateFails(f: string, ld: Loader)
    ensures IsVideoName(f) ==> Generate(f, ld).Some?
    ensures Generate(f, ld).None? <==> !IsVideoName(f) && ld.openImage(f).None?
  {
  }

  /** The display manager's miss path: the stored thumbnail if there is one,
      else a fresh one. */
  function Fetch(f: string, ld: Loader): Option<Image> {
    if ld.storedThumbnail(f).Some? then ld.storedThumbnail(f) else Generate(f, ld)
  }

  /** A stored thumbnail wins over a fresh one, and a file goes without only
      when it has no stored thumbnail and no fresh one can be made; so the
      display manager shows every file the legacy code shows, and more. */
  lemma StoredThumbnailWins(f: string, ld: Loader)
    ensures ld.storedThumbnail(f).Some? ==> Fetch(f, ld) == ld.storedThumbnail(f)
    ensures Fetch(f, ld).None? <==> ld.storedThumbnail(f).None? && Generate(f, ld).None?
    ensures Generate(f, ld).Some? ==> Fetch(f, ld).Some?
  {
  }

  /** The legacy thumbnail maker, as a function of the file. */
  function Generator(ld: Loader): string -> Option<Image> {
    f => Generate(f, ld)
  }

  /** The display manager's thumbnail source, as a function of the file. */
  function Fetcher(ld: Loader): string -> Option<Image> {
    f => Fetch(f, ld)
  }

  /** One thumbnail on the grid. */
  datatype Placement = Placement(file: string, row: nat, column: nat, image: Image)

  /** What a rendering pass leaves behind: the thumbnails placed, in order,
      and the cache. */
  datatype Grid = Grid(placed: seq<Placement>, cache: map<string, Image>)

  /** Every placed thumbnail shows the cached image of its file, and the
      cache kept what it held before. */
  ghost predicate Cached(g: Grid, cache0: map<string, Image>) {
    && (forall k :: k in cache0 ==> k in g.cache && g.cache[k] == cache0[k])
    && (forall j :: 0 <= j < |g.placed| ==>
          CacheKey(g.placed[j].file) in g.cache && g.cache[CacheKey(g.placed[j].file)] == g.placed[j].image)
  }

  /** A file gets a thumbnail when it is cached or its image can be made. */
  predicate Placeable(f: string, cache: map<string, Image>, miss: Option<Image>) {
    CacheKey(f) in cache || miss.Some?
  }

  /** The step both thumbnail loops take for file `f` at grid index `idx`:
      a cached image is shown as it is; otherwise `miss` is tried, and a
      thumbnail it makes is cached and shown; a file with neither is skipped. */
  function PlaceNext(g: Grid, f: string, idx: nat, columns: nat, miss: Option<Image>): Grid
    requires columns >= 1
  {
    var key, cell := CacheKey(f), Cell(idx, columns);
    if key in g.cache then Grid(g.placed + [Placement(f, cell.0, cell.1, g.cache[key])], g.cache)
    else
      match miss
      case None => g
      case Some(img) => Grid(g.placed + [Placement(f, cell.0, cell.1, img)], g.cache[key := img])
  }

  /** A step places `f` in slot `idx` exactly when it is placeable, and adds
      at most the key of `f` to the cache. */
  lemma PlaceNextPlaces(g: Grid, f: string, idx: nat, columns: nat, miss: Option<Image>)
    requires columns >= 1
    ensures var g' := PlaceNext(g, f, idx, columns, miss);
      && g.cache.Keys <= g'.cache.Keys <= g.cache.Keys + {CacheKey(f)}
      && (Placeable(f, g.cache, miss) ==>
            && |g'.placed| == |g.placed| + 1 && g'.placed[..|g.placed|] == g.placed
            && g'.placed[|g.placed|].file == f
            && (g'.placed[|g.placed|].row, g'.placed[|g.placed|].column) == Cell(idx, columns))
      && (!Placeable(f, g.cache, miss) ==> g' == g)
  {
    var g' := PlaceNext(g, f, idx, columns, miss);
    if Placeable(f, g.cache, miss) {
      assert g'.placed == g.placed + [g'.placed[|g.placed|]];
    }
  }

  /** A step keeps a cached grid cached. */
  lemma PlaceNextCached(g: Grid, f: string, idx: nat, columns: nat, miss: Option<Image>, cache0: map<string, Image>)
    requires columns >= 1 && Cached(g, cache0)
    ensures Cached(PlaceNext(g, f, idx, columns, miss), cache0)
  {
    var g' := PlaceNext(g, f, idx, columns, miss);
    PlaceNextPlaces(g, f, idx, columns, miss);
    if Placeable(f, g.cache, miss) {
      forall j | 0 <= j < |g'.placed|
        ensures CacheKey(g'.placed[j].file) in g'.cache && g'.cache[CacheKey(g'.placed[j].file)] == g'.placed[j].image
      {
        if j < |g.placed| {
          assert g'.placed[j] == g.placed[j];
        }
      }
    }
  }

  /** One pass of the legacy loop: the grid index is the number of
      thumbnails placed so far, so a file whose image fails leaves no gap. */
  function LegacyRender(files: seq<string>, columns: nat, cache: map<string, Image>, miss: string -> Option<Image>): Grid
    requires columns >= 1
  {
    if files == [] then Grid([], cache)
    else
      var init, f := files[..|files| - 1], files[|files| - 1];
      assert files == init + [f];
      var g := LegacyRender(init, columns, cache, miss);
      PlaceNext(g, f, |g.placed|, columns, miss(f))
  }

  /** One pass of the display manager's loop: the grid index is the file's
      position in the filtered table, so a file whose image fails leaves its
      slot empty. */
  function WidgetRender(files: seq<string>, columns: nat, cache: map<string, Image>, miss: string -> Option<Image>): Grid
    requires columns >= 1
  {
    if files == [] then Grid([], cache)
    else
      var init, f := files[..|files| - 1], files[|files| - 1];
      assert files == init + [f];
      PlaceNext(WidgetRender(init, columns, cache, miss), f, |init|, columns, miss(f))
  }

  /** The legacy pass keeps what the cache held and shows every placed
      file with its cached image. */
  lemma {:induction false} LegacyCached(files: seq<string>, columns: nat, cache: map<string, Image>, miss: string -> Option<Image>)
    requires columns >= 1
    ensures Cached(LegacyRender(files, columns, cache, miss), cache)
  {
    if files != [] {
      var init, f := files[..|files| - 1], files[|files| - 1];
      LegacyCached(init, columns, cache, miss);
      var g := LegacyRender(init, columns, cache, miss);
      PlaceNextCached(g, f, |g.placed|, columns, miss(f), cache);
    }
  }

  /** The legacy pass fills the grid row by row without gaps, the `j`-th
      thumbnail in cell `(j // columns, j % columns)`, and places only files
      of the table. */
  lemma {:induction false} LegacyLayout(files: seq<string>, columns: nat, cache: map<string, Image>, miss: string -> Option<Image>)
    requires columns >= 1
    ensures var g := LegacyRender(files, columns, cache, miss);
      && (forall j :: 0 <= j < |g.placed| ==> (g.placed[j].row, g.placed[j].column) == Cell(j, columns))
      && (forall j :: 0 <= j < |g.placed| ==> g.placed[j].file in files)
  {
    if files != [] {
      var init, f := files[..|files| - 1], files[|files| - 1];
      assert files == init + [f];
      LegacyLayout(init, columns, cache, miss);
      var g := LegacyRender(init, columns, cache, miss);
      PlaceNextPlaces(g, f, |g.placed|, columns, miss(f));
      var g' := LegacyRender(files, columns, cache, miss);
      forall j | 0 <= j < |g'.placed|
        ensures (g'.placed[j].row, g'.placed[j].column) == Cell(j, columns)
        ensures g'.placed[j].file in files
      {
        if j < |g.placed| {
          assert g'.placed[j] == g.placed[j];
        }
      }
    }
  }

  /** The display manager's pass keeps what the cache held, shows every
      placed file with its cached image, and puts the thumbnail of the
      `i`-th file of the table in slot `i`, so the slots grow along the grid. */
  lemma {:induction false} WidgetLayout(files: seq<string>, columns: nat, cache: map<string, Image>, miss: string -> Option<Image>)
    requires columns >= 1
    ensures var g := WidgetRender(files, columns, cache, miss);
      && Cached(g, cache)
      && (forall j :: 0 <= j < |g.placed| ==>
            && g.placed[j].column < columns
            && Slot(g.placed[j].row, g.placed[j].column, columns) < |files|
            && files[Slot(g.placed[j].row, g.placed[j].column, columns)] == g.placed[j].file)
      && (forall i, j :: 0 <= i < j < |g.placed| ==>
            Slot(g.placed[i].row, g.placed[i].column, columns) < Slot(g.placed[j].row, g.placed[j].column, columns))
  {
    if files != [] {
      var init, f := files[..|files| - 1], files[|files| - 1];
      assert files == init + [f];
      WidgetLayout(init, columns, cache, miss);
      var g := WidgetRender(init, columns, cache, miss);
      PlaceNextPlaces(g, f, |init|, columns, miss(f));
      PlaceNextCached(g, f, |init|, columns, miss(f), cache);
    }
  }

  /** The files of the placed thumbnails, in grid order. */
  function PlacedFiles(placed: seq<Placement>): (fs: seq<string>)
    ensures |fs| == |placed| && forall j :: 0 <= j < |placed| ==> fs[j] == placed[j].file
  {
    seq(|placed|, j requires 0 <= j < |placed| => placed[j].file)
  }

  /** The cache keys of `files`. */
  function KeysOf(files: seq<string>): set<string> {
    set f | f in files :: CacheKey(f)
  }

  /** The files of `files` that get a thumbnail when every miss goes through
      `miss`, in order. */
  function PlaceableFiles(files: seq<string>, cache: map<string, Image>, miss: string -> Option<Image>): seq<string> {
    if files == [] then []
    else
      var init, f := files[..|files| - 1], files[|files| - 1];
      PlaceableFiles(init, cache, miss) + (if Placeable(f, cache, miss(f)) then [f] else [])
  }

  /** A file of the table whose cache key was not there before the pass
      finds the cache as it was before. */
  lemma {:induction false} FreshKey(init: seq<string>, f: string, cache: map<string, Image>, g: Grid)
    requires f !in init
    requires cache.Keys <= g.cache.Keys <= cache.Keys + KeysOf(init)
    ensures CacheKey(f) in g.cache <==> CacheKey(f) in cache
  {
    forall f' | f' in init
      ensures CacheKey(f') != CacheKey(f)
    {
      CacheKeyInjective(f', f);
    }
  }

  /** A step that finds the cache as it was before the pass adds `f` to the
      shown files exactly when it is placeable. */
  lemma PlaceNextShows(g: Grid, f: string, idx: nat, columns: nat, miss: Option<Image>, cache: map<string, Image>)
    requires columns >= 1
    requires CacheKey(f) in g.cache <==> CacheKey(f) in cache
    ensures PlacedFiles(PlaceNext(g, f, idx, columns, miss).placed)
      == PlacedFiles(g.placed) + (if Placeable(f, cache, miss) then [f] else [])
  {
    var g' := PlaceNext(g, f, idx, columns, miss);
    PlaceNextPlaces(g, f, idx, columns, miss);
    if Placeable(f, cache, miss) {
      assert g'.placed == g.placed + [g'.placed[|g.placed|]];
      assert PlacedFiles(g'.placed) == PlacedFiles(g.placed) + [f];
    } else {
      assert PlacedFiles(g.placed) + [] == PlacedFiles(g.placed);
    }
  }

  /** For a table without repeated files the legacy pass shows exactly the
      files that are cached or whose image can be made, in table order. */
  lemma {:induction false} LegacyShows(files: seq<string>, columns: nat, cache: map<string, Image>, miss: string -> Option<Image>)
    requires columns >= 1 && Distinct(files)
    ensures cache.Keys <= LegacyRender(files, columns, cache, miss).cache.Keys <= cache.Keys + KeysOf(files)
    ensures PlacedFiles(LegacyRender(files, columns, cache, miss).placed)
      == PlaceableFiles(files, cache, miss)
  {
    if files != [] {
      var init, f := files[..|files| - 1], files[|files| - 1];
      assert files == init + [f];
      DistinctSnoc(init, f);
      LegacyShows(init, columns, cache, miss);
      var g := LegacyRender(init, columns, cache, miss);
      FreshKey(init, f, cache, g);
      assert KeysOf(init) + {CacheKey(f)} <= KeysOf(files);
      PlaceNextPlaces(g, f, |g.placed|, columns, miss(f));
      PlaceNextShows(g, f, |g.placed|, columns, miss(f), cache);
    }
  }

  /** The same for the display manager's pass, whose misses try the stored
      thumbnail first. */
  lemma {:induction false} WidgetShows(files: seq<string>, columns: nat, cache: map<string, Image>, miss: string -> Option<Image>)
    requires columns >= 1 && Distinct(files)
    ensures cache.Keys <= WidgetRender(files, columns, cache, miss).cache.Keys <= cache.Keys + KeysOf(files)
    ensures PlacedFiles(WidgetRender(files, columns, cache, miss).placed)
      == PlaceableFiles(files, cache, miss)
  {
    if files != [] {
      var init, f := files[..|files| - 1], files[|files| - 1];
      assert files == init + [f];
      DistinctSnoc(init, f);
      WidgetShows(init, columns, cache, miss);
      var g := WidgetRender(init, columns, cache, miss);
      FreshKey(init, f, cache, g);
      assert KeysOf(init) + {CacheKey(f)} <= KeysOf(files);
      PlaceNextPlaces(g, f, |init|, columns, miss(f));
      PlaceNextShows(g, f, |init|, columns, miss(f), cache);
    }
  }

  /** The thumbnail loop of `show_thumbnails`: each file of the table in
      turn, from the cache or freshly made and then cached, goes to the next
      free grid slot; a file whose image cannot be opened is skipped. */
  method PlaceThumbnails(files: seq<string>, columns: nat, cache: map<string, Image>, miss: string -> Option<Image>)
    returns (placed: seq<Placement>, cache': map<string, Image>)
    requires columns >= 1
    ensures Grid(placed, cache') == LegacyRender(files, columns, cache, miss)
  {
    placed, cache' := [], cache;
    var idx := 0;
    var i := 0;
    while i < |files|
      invariant 0 <= i <= |files| && idx == |placed|
      invariant Grid(placed, cache') == LegacyRender(files[..i], columns, cache, miss)
    {
      var file := files[i];
      assert files[..i + 1][..i] == files[..i];
      var cacheKey := CacheKey(file);
      var img: Option<Image>;
      if cacheKey !in cache' {
        img := miss(file);
        if img.Some? {
          cache' := cache'[cacheKey := img.value];
        }
      } else {
        img := Some(cache'[cacheKey]);
      }
      if img.Some? {
        var cell := Cell(idx, columns);
        placed := placed + [Placement(file, cell.0, cell.1, img.value)];
        idx := idx + 1;
      }
      i := i + 1;
    }
    assert files[..i] == files;
  }
}

=== FILE: ordered_dict.dfy ===
/** Python's `dict`, which remembers the order in which keys were first
    inserted: `order` lists the keys in that order and `items` holds the
    values (keys here are always file or tag names). Assigning to an existing key keeps its position. */
module OrderedDict {

  datatype Dict<V> = Dict(order: seq<string>, items: map<string, V>)

  /** No element occurs twice. */
  ghost predicate Distinct<T>(s: seq<T>) {
    s == [] || (s[0] !in s[1..] && Distinct(s[1..]))
  }

  /** `Distinct` compares every pair of positions. */
  lemma {:induction false} DistinctIndices<T>(s: seq<T>)
    ensures Distinct(s) <==> forall i, j :: 0 <= i < j < |s| ==> s[i] != s[j]
  {
    if s != [] {
      DistinctIndices(s[1..]);
    }
  }

  /** Appending keeps a sequence distinct exactly when the new element is
      not in it yet. */
  lemma {:induction false} DistinctSnoc<T>(s: seq<T>, x: T)
    ensures Distinct(s + [x]) <==> Distinct(s) && x !in s
  {
    if s != [] {
      assert (s + [x])[0] == s[0] && (s + [x])[1..] == s[1..] + [x];
      DistinctSnoc(s[1..], x);
    }
  }

  /** A prefix of a distinct sequence is distinct. */
  lemma DistinctPrefix<T>(s: seq<T>, n: nat)
    requires Distinct(s) && n <= |s|
    ensures Distinct(s[..n])
  {
    DistinctIndices(s);
    DistinctIndices(s[..n]);
  }

  /** The key list has no repetition and names exactly the keys of `items`. */
  ghost predicate Valid<V>(d: Dict<V>) {
    && Distinct(d.order)
    && (forall k :: k in d.items <==> k in d.order)
  }

  /** `{}` */
  function Empty<V>(): (d: Dict<V>)
    ensures Valid(d) && d.order == []
  {
    Dict([], map[])
  }

  /** `d[k] = v`: an existing key keeps its place, a new key goes last. */
  function Put<V>(d: Dict<V>, k: string, v: V): (r: Dict<V>)
    requires Valid(d)
    ensures Valid(r)
  {
    DistinctSnoc(d.order, k);
    Dict(if k in d.items then d.order else d.order + [k], d.items[k := v])
  }

  /** The keys of `ks`, in order, each assigned its value from `src`. */
  function PutAll<V>(d: Dict<V>, ks: seq<string>, src: map<string, V>): (r: Dict<V>)
    requires Valid(d)
    requires forall k :: k in ks ==> k in src
    ensures Valid(r)
    ensures forall k :: k in r.items <==> k in d.items || k in ks
    ensures forall k :: k in r.items ==> r.items[k] == if k in ks then src[k] else d.items[k]
    ensures |d.order| <= |r.order| && r.order[..|d.order|] == d.order
    decreases |ks|
  {
    if ks == [] then d
    else
      var d' := Put(d, ks[0], src[ks[0]]);
      var r := PutAll(d', ks[1..], src);
      assert forall k :: k in ks <==> k == ks[0] || k in ks[1..];
      assert r.order[..|d.order|] == r.order[..|d'.order|][..|d.order|];
      r
  }

  /** The keys of `ks` that are not in `present`, each once, in order of
      first occurrence. */
  function NewKeys(ks: seq<string>, present: set<string>): (r: seq<string>)
    ensures forall k :: k in r <==> k in ks && k !in present
    ensures Distinct(r)
  {
    if ks == [] then []
    else if ks[0] in present then NewKeys(ks[1..], present)
    else [ks[0]] + NewKeys(ks[1..], present + {ks[0]})
  }

  /** One key of `ks` taken: it is appended when new and joins the known keys. */
  lemma NewKeysStep(order: seq<string>, present: set<string>, ks: seq<string>)
    requires ks != []
    ensures var k := ks[0];
      (if k in present then order else order + [k]) + NewKeys(ks[1..], present + {k})
        == order + NewKeys(ks, present)
  {
    var k := ks[0];
    var rest := NewKeys(ks[1..], present + {k});
    if k in present {
      assert present + {k} == present;
      assert NewKeys(ks, present) == rest;
    } else {
      assert NewKeys(ks, present) == [k] + rest;
      assert (order + [k]) + rest == order + ([k] + rest);
    }
  }

  /** Putting keys one by one appends each new key once, where it first
      comes. */
  lemma {:induction false} PutAllOrder<V>(d: Dict<V>, ks: seq<string>, src: map<string, V>)
    requires Valid(d)
    requires forall k :: k in ks ==> k in src
    ensures PutAll(d, ks, src).order == d.order + NewKeys(ks, d.items.Keys)
    decreases |ks|
  {
    if ks != [] {
      var k := ks[0];
      var d' := Put(d, k, src[k]);
      assert PutAll(d, ks, src) == PutAll(d', ks[1..], src);
      assert d'.order == (if k in d.items then d.order else d.order + [k]);
      assert d'.items.Keys == d.items.Keys + {k};
      PutAllOrder(d', ks[1..], src);
      NewKeysStep(d.order, d.items.Keys, ks);
    }
  }

  /** `d.update(e)`: every key of `e` takes its value from `e`; keys of `d`
      that `e` lacks keep theirs; `d`'s keys keep their place. */
  function Update<V>(d: Dict<V>, e: Dict<V>): (r: Dict<V>)
    requires Valid(d) && Valid(e)
    ensures Valid(r)
    ensures r.items == d.items + e.items
    ensures |d.order| <= |r.order| && r.order[..|d.order|] == d.order
  {
    PutAll(d, e.order, e.items)
  }

  /** The keys only `e` has come after `d`'s, in `e`'s order. */
  lemma UpdateOrder<V>(d: Dict<V>, e: Dict<V>)
    requires Valid(d) && Valid(e)
    ensures Update(d, e).order == d.order + NewKeys(e.order, d.items.Keys)
  {
    PutAllOrder(d, e.order, e.items);
  }
}

=== FILE: tag_buttons.dfy ===
/** The row of tag checkboxes above the thumbnails: one "no tags" box
    followed by one box per known tag, and the rule that "no tags" and the
    real tags exclude each other. */
module TagButtons {
  import opened Wrappers
  import opened OrderedDict
  import opened Logic
  import Constants

  /** The elements of `s` other than `x`, in order. */
  function Without(s: seq<string>, x: string): (r: seq<string>)
    ensures forall t :: t in r <==> t in s && t != x
    ensures forall j :: 0 <= j < |r| ==> r[j] != x
    ensures Distinct(s) ==> Distinct(r)
  {
    if s == [] then []
    else
      var init, t := s[..|s| - 1], s[|s| - 1];
      assert s == init + [t];
      var w := Without(init, x);
      DistinctSnoc(init, t);
      DistinctSnoc(w, t);
      assert w + [] == w;
      w + (if t != x then [t] else [])
  }

  /** The keys among `keys` whose box is checked, in order. */
  function CheckedAlong(keys: seq<string>, items: map<string, bool>): (r: seq<string>)
    requires forall k :: k in keys ==> k in items
    ensures forall t :: t in r <==> t in keys && items[t]
    ensures Distinct(keys) ==> Distinct(r)
  {
    if keys == [] then []
    else
      var init, t := keys[..|keys| - 1], keys[|keys| - 1];
      assert keys == init + [t];
      var c := CheckedAlong(init, items);
      DistinctSnoc(init, t);
      DistinctSnoc(c, t);
      assert c + [] == c;
      c + (if items[t] then [t] else [])
  }

  /** `[tag for tag, var in check_vars.items() if var.get()]`: the checked
      tags in button order, each once. */
  function SelectedKeys(d: Dict<bool>): (r: seq<string>)
    requires Valid(d)
    ensures forall t :: t in r <==> t in d.items && d.items[t]
    ensures Distinct(r)
  {
    CheckedAlong(d.order, d.items)
  }

  /** No box is checked. */
  ghost predicate AllClear(d: Dict<bool>) {
    forall k :: k in d.items ==> !d.items[k]
  }

  lemma {:induction false} NoneCheckedAlong(keys: seq<string>, items: map<string, bool>, x: string)
    requires Distinct(keys) && forall k :: k in keys ==> k in items
    requires forall k :: k in keys && k != x ==> !items[k]
    ensures CheckedAlong(keys, items) == if x in keys && items[x] then [x] else []
  {
    if keys != [] {
      var init := keys[..|keys| - 1];
      assert keys == init + [keys[|keys| - 1]];
      DistinctSnoc(init, keys[|keys| - 1]);
      NoneCheckedAlong(init, items, x);
    }
  }

  lemma NothingSelectedWhenClear(d: Dict<bool>)
    requires Valid(d) && AllClear(d)
    ensures SelectedKeys(d) == []
  {
    NoneCheckedAlong(d.order, d.items, "");
  }

  /** The boxes after "no tags" and the tags of `keys` were added, none checked. */
  function BoxesFor(keys: seq<string>): (d: Dict<bool>)
    requires Distinct(keys)
    ensures Valid(d) && AllClear(d)
    ensures forall k :: k in d.items <==> k == Constants.NoneTagText || k in keys
  {
    var rest := Without(keys, Constants.NoneTagText);
    assert forall j :: 0 <= j < |rest| ==> rest[j] != Constants.NoneTagText;
    assert ([Constants.NoneTagText] + rest)[1..] == rest;
    Dict(BoxOrder(keys), BoxItems(keys))
  }

  lemma WithoutSnoc(s: seq<string>, t: string, x: string)
    ensures Without(s + [t], x) == Without(s, x) + (if t != x then [t] else [])
  {
    assert (s + [t])[..|s|] == s;
  }

  /** Adding one more tag box to the row. */
  lemma BoxesStep(keys: seq<string>, t: string)
    requires Distinct(keys + [t])
    ensures Distinct(keys) && Put(BoxesFor(keys), t, false) == BoxesFor(keys + [t])
  {
    DistinctSnoc(keys, t);
    BoxesStepOrder(keys, t);
    BoxItemsSnoc(keys, t);
  }

  /** The box order after one more tag. */
  lemma BoxesStepOrder(keys: seq<string>, t: string)
    requires Distinct(keys) && t !in keys && Distinct(keys + [t])
    ensures Put(BoxesFor(keys), t, false).order == BoxesFor(keys + [t]).order
  {
    var d := BoxesFor(keys);
    BoxOrderSnoc(keys, t);
    if t == Constants.NoneTagText {
      assert t in d.items;
    } else {
      assert t !in d.items;
    }
  }

  /** The order of the boxes for `keys`: "no tags", then the other tags. */
  function BoxOrder(keys: seq<string>): seq<string> {
    [Constants.NoneTagText] + Without(keys, Constants.NoneTagText)
  }

  /** Every box of "no tags" and of `keys`, unchecked. */
  function BoxItems(keys: seq<string>): map<string, bool> {
    map k | k in [Constants.NoneTagText] + keys :: false
  }

  lemma BoxItemsSnoc(keys: seq<string>, t: string)
    ensures BoxItems(keys + [t]) == BoxItems(keys)[t := false]
  {
  }

  lemma BoxOrderSnoc(keys: seq<string>, t: string)
    ensures BoxOrder(keys + [t])
      == if t == Constants.NoneTagText then BoxOrder(keys) else BoxOrder(keys) + [t]
  {
    WithoutSnoc(keys, t, Constants.NoneTagText);
    var w := Without(keys, Constants.NoneTagText);
    assert ([Constants.NoneTagText] + w) + [t] == [Constants.NoneTagText] + (w + [t]);
  }

  /** The boxes `create_tag_buttons` builds: "no tags" first, then every tag
      in the order of `all_tags`, none of them checked. A real tag spelled
      like the "no tags" label takes over the sentinel's entry, which keeps
      its first place. */
  function Buttons(allTags: TagCounts): (d: Dict<bool>)
    requires Valid(allTags)
    ensures Valid(d) && AllClear(d)
    ensures |d.order| >= 1 && d.order[0] == Constants.NoneTagText
    ensures d.order[1..] == Without(allTags.order, Constants.NoneTagText)
    ensures forall k :: k in d.items <==> k == Constants.NoneTagText || k in allTags.items
  {
    BoxesFor(allTags.order)
  }

  /** What `_on_tag_toggle` leaves checked: after the "no tags" box every
      other box is cleared; after a real tag the "no tags" box is cleared. */
  function AfterToggle(d: Dict<bool>, tag: Option<string>): (r: Dict<bool>)
    requires Valid(d) && Constants.NoneTagText in d.items
    ensures Valid(r) && r.order == d.order && r.items.Keys == d.items.Keys
  {
    match tag
    case None => Dict(d.order, map k | k in d.items :: k == Constants.NoneTagText && d.items[k])
    case Some(_) => Dict(d.order, d.items[Constants.NoneTagText := false])
  }

  /** After the "no tags" box is handled, it is either the only selection or
      nothing is selected. */
  lemma NoneTagIsExclusive(d: Dict<bool>)
    requires Valid(d) && Constants.NoneTagText in d.items
    ensures SelectedKeys(AfterToggle(d, None))
      == if d.items[Constants.NoneTagText] then [Constants.NoneTagText] else []
  {
    var r := AfterToggle(d, None);
    NoneCheckedAlong(r.order, r.items, Constants.NoneTagText);
  }

  /** After a real tag is handled, "no tags" is not selected and every other
      box keeps its state. */
  lemma TagClearsNoneTag(d: Dict<bool>, tag: string)
    requires Valid(d) && Constants.NoneTagText in d.items
    ensures Constants.NoneTagText !in SelectedKeys(AfterToggle(d, Some(tag)))
    ensures forall t :: t != Constants.NoneTagText ==>
      (t in SelectedKeys(AfterToggle(d, Some(tag))) <==> t in SelectedKeys(d))
  {
  }

  /** The boxes after `check_vars[t].set(True)` for every tag `t` of `ts`
      that has a box: those are checked, the others keep their state. */
  function CheckAll(d: Dict<bool>, ts: seq<string>): (r: Dict<bool>)
    requires Valid(d)
    ensures Valid(r) && r.order == d.order && r.items.Keys == d.items.Keys
    ensures forall k :: k in d.items ==> r.items[k] == (d.items[k] || k in ts)
  {
    Dict(d.order, map k | k in d.items :: d.items[k] || k in ts)
  }

  /** A row with the order and the boxes of `d` whose every box is checked
      exactly when it was or its tag is in `ts` is `CheckAll(d, ts)`. */
  lemma CheckAllPointwise(d: Dict<bool>, r: Dict<bool>, ts: seq<string>)
    requires Valid(d) && r.order == d.order && forall k :: k in r.items <==> k in d.items
    requires forall k :: k in d.items ==> r.items[k] == (d.items[k] || k in ts)
    ensures r == CheckAll(d, ts)
  {
    assert r.items == CheckAll(d, ts).items;
  }

  /** The checkbox row. */
  class TagButtonManager {
    var allTags: TagCounts
    var checkVars: Dict<bool>
    /** Whether a toggle callback was given. */
    const hasCallback: bool

    ghost predicate Consistent()
      reads this
    {
      && Valid(allTags) && Valid(checkVars)
      && Constants.NoneTagText in checkVars.items
    }

    constructor(allTags: TagCounts, hasCallback: bool)
      requires Valid(allTags)
      ensures Consistent()
      ensures this.allTags == allTags && this.hasCallback == hasCallback
      ensures checkVars == Buttons(allTags)
    {
      this.allTags := allTags;
      this.hasCallback := hasCallback;
      new;
      CreateTagButtons();
    }

    /** Rebuilds the boxes from `all_tags`, all unchecked. */
    method CreateTagButtons()
      requires Valid(allTags)
      modifies this
      ensures Consistent()
      ensures allTags == old(allTags) && checkVars == Buttons(allTags)
    {
      checkVars := Put(Empty(), Constants.NoneTagText, false);
      assert checkVars == BoxesFor([]);
      var i := 0;
      while i < |allTags.order|
        invariant 0 <= i <= |allTags.order|
        invariant allTags == old(allTags)
        invariant Distinct(allTags.order[..i]) && checkVars == BoxesFor(allTags.order[..i])
      {
        assert allTags.order[..i + 1] == allTags.order[..i] + [allTags.order[i]];
        DistinctPrefix(allTags.order, i + 1);
        BoxesStep(allTags.order[..i], allTags.order[i]);
        checkVars := Put(checkVars, allTags.order[i], false);
        i := i + 1;
      }
      assert allTags.order[..i] == allTags.order;
    }

    /** `get_selected_tags` */
    method GetSelectedTags() returns (selected: seq<string>)
      requires Consistent()
      ensures selected == SelectedKeys(checkVars)
    {
      selected := [];
      var i := 0;
      while i < |checkVars.order|
        invariant 0 <= i <= |checkVars.order|
        invariant selected == CheckedAlong(checkVars.order[..i], checkVars.items)
      {
        assert checkVars.order[..i + 1] == checkVars.order[..i] + [checkVars.order[i]];
        if checkVars.items[checkVars.order[i]] {
          selected := selected + [checkVars.order[i]];
        }
        i := i + 1;
      }
      assert checkVars.order[..i] == checkVars.order;
    }

    /** `set_tag_selection`: sets the box of `tag` when there is one. */
    method SetTagSelection(tag: string, selected: bool)
      requires Consistent()
      modifies this
      ensures Consistent() && allTags == old(allTags)
      ensures checkVars.order == old(checkVars.order)
      ensures checkVars.items == if tag in old(checkVars.items) then old(checkVars.items)[tag := selected] else old(checkVars.items)
    {
      if tag in checkVars.items {
        checkVars := Put(checkVars, tag, selected);
      }
    }

    /** `_on_tag_toggle`: applies the exclusivity rule, then reports whether
        the toggle callback runs. */
    method OnTagToggle(tag: Option<string>) returns (notified: bool)
      requires Consistent()
      modifies this
      ensures Consistent() && allTags == old(allTags)
      ensures checkVars == AfterToggle(old(checkVars), tag)
      ensures notified == hasCallback
    {
      match tag {
        case None =>
          ghost var d := checkVars;
          DistinctIndices(d.order);
          var i := 0;
          while i < |checkVars.order|
            invariant 0 <= i <= |d.order|
            invariant Consistent() && allTags == old(allTags)
            invariant checkVars.order == d.order
            invariant checkVars.items.Keys == d.items.Keys
            invariant forall j :: 0 <= j < |d.order| ==>
              checkVars.items[d.order[j]] == (if j < i && d.order[j] != Constants.NoneTagText then false else d.items[d.order[j]])
          {
            var key := checkVars.order[i];
            if key != Constants.NoneTagText {
              SetTagSelection(key, false);
            }
            i := i + 1;
          }
          forall k | k in d.items
            ensures checkVars.items[k] == (k == Constants.NoneTagText && d.items[k])
          {
            var j :| 0 <= j < |d.order| && d.order[j] == k;
          }
          assert checkVars.items == AfterToggle(d, None).items;
        case Some(_) =>
          SetTagSelection(Constants.NoneTagText, false);
      }
      notified := hasCallback;
    }

    /** A click on a box: Tk flips the box, then runs `_on_tag_toggle`
        (`None` is the "no tags" box). */
    method Click(tag: Option<string>) returns (notified: bool)
      requires Consistent()
      requires tag.Some? ==> tag.value in checkVars.items
      modifies this
      ensures Consistent() && allTags == old(allTags)
      ensures var key := tag.GetOr(Constants.NoneTagText);
        checkVars == AfterToggle(Dict(old(checkVars).order, old(checkVars).items[key := !old(checkVars).items[key]]), tag)
      ensures notified == hasCallback
    {
      var key := tag.GetOr(Constants.NoneTagText);
      checkVars := Put(checkVars, key, !checkVars.items[key]);
      notified := OnTagToggle(tag);
    }

    /** `clear_selection`: every box unchecked. */
    method ClearSelection()
      requires Consistent()
      modifies this
      ensures Consistent() && allTags == old(allTags)
      ensures checkVars.order == old(checkVars.order) && checkVars.items.Keys == old(checkVars.items.Keys)
      ensures AllClear(checkVars)
    {
      var i := 0;
      while i < |checkVars.order|
        invariant 0 <= i <= |checkVars.order|
        invariant Consistent() && allTags == old(allTags)
        invariant checkVars.order == old(checkVars.order) && checkVars.items.Keys == old(checkVars.items.Keys)
        invariant forall k :: k in checkVars.order[..i] ==> !checkVars.items[k]
      {
        SetTagSelection(checkVars.order[i], false);
        i := i + 1;
      }
      assert forall k :: k in checkVars.items ==> k in checkVars.order[..i];
    }

    /** `update_tag_counts`: takes the new counts and rebuilds the boxes,
        which drops every selection. */
    method UpdateTagCounts(newAllTags: TagCounts)
      requires Valid(newAllTags)
      modifies this
      ensures Consistent()
      ensures allTags == newAllTags && checkVars == Buttons(newAllTags)
      ensures SelectedKeys(checkVars) == []
    {
      allTags := newAllTags;
      CreateTagButtons();
      NothingSelectedWhenClear(checkVars);
    }
  }
}

=== FILE: tag_dialog.dfy ===
/** The tag-editing dialog: a list of the known tags in which several can be
    picked, an entry to add a new tag at the top, and a button that hands the
    picked tags to the caller and closes the dialog. */
module TagDialog {

  /** `str.isspace` for one character: the ASCII blanks and separators and
      the Unicode spaces, the ideographic space U+3000 among them. */
  predicate IsSpace(c: char) {
    || ('\t' <= c <= '\r') || ('\U{1C}' <= c <= '\U{1F}') || c == ' '
    || c == '\U{85}' || c == '\U{A0}' || c == '\U{1680}'
    || ('\U{2000}' <= c <= '\U{200A}') || c == '\U{2028}' || c == '\U{2029}'
    || c == '\U{202F}' || c == '\U{205F}' || c == '\U{3000}'
  }

  /** The first position at or after `i` that is not white space, or the end. */
  function LeftEnd(s: string, i: nat): (r: nat)
    requires i <= |s|
    ensures i <= r <= |s|
    ensures forall k :: i <= k < r ==> IsSpace(s[k])
    ensures r == |s| || !IsSpace(s[r])
    decreases |s| - i
  {
    if i == |s| || !IsSpace(s[i]) then i else LeftEnd(s, i + 1)
  }

  /** The position just after the last character before `j` and not before
      `lo` that is not white space, or `lo`. */
  function RightEnd(s: string, lo: nat, j: nat): (r: nat)
    requires lo <= j <= |s|
    ensures lo <= r <= j
    ensures forall k :: r <= k < j ==> IsSpace(s[k])
    ensures r == lo || !IsSpace(s[r - 1])
    decreases j
  {
    if j == lo || !IsSpace(s[j - 1]) then j else RightEnd(s, lo, j - 1)
  }

  /** `str.strip()`: the text between the leading and the trailing white
      space; what is cut off is white space, what is kept starts and ends
      with something else. */
  function Strip(s: string): (r: string)
    ensures var i := LeftEnd(s, 0);
      && i + |r| <= |s| && r == s[i..i + |r|]
      && (forall k :: 0 <= k < i ==> IsSpace(s[k]))
      && (forall k :: i + |r| <= k < |s| ==> IsSpace(s[k]))
    ensures r == [] || (!IsSpace(r[0]) && !IsSpace(r[|r| - 1]))
  {
    var i := LeftEnd(s, 0);
    var j := RightEnd(s, i, |s|);
    assert j == i || (!IsSpace(s[i]) && !IsSpace(s[j - 1]));
    s[i..j]
  }

  /** Stripping twice changes nothing more. */
  lemma StripIdempotent(s: string)
    ensures Strip(Strip(s)) == Strip(s)
  {
    StripKeepsTrimmed(Strip(s));
  }

  /** A text with no white space at either end is kept as it is. */
  lemma StripKeepsTrimmed(s: string)
    requires s == [] || (!IsSpace(s[0]) && !IsSpace(s[|s| - 1]))
    ensures Strip(s) == s
  {
    assert LeftEnd(s, 0) == 0;
    assert RightEnd(s, 0, |s|) == |s|;
  }

  /** The indices of the marked entries, in increasing order
      (`listbox.curselection()`). */
  function MarkedIndices(marks: seq<bool>): (r: seq<nat>)
    ensures forall k :: 0 <= k < |r| ==> r[k] < |marks| && marks[r[k]]
    ensures forall i :: 0 <= i < |marks| && marks[i] ==> i in r
    ensures forall j, k :: 0 <= j < k < |r| ==> r[j] < r[k]
  {
    if marks == [] then []
    else
      var n := |marks| - 1;
      assert forall i :: 0 <= i < n ==> marks[..n][i] == marks[i];
      MarkedIndices(marks[..n]) + (if marks[n] then [n] else [])
  }

  /** The picked entries of the list, top to bottom:
      `[listbox.get(i) for i in listbox.curselection()]`. */
  function Picked(items: seq<string>, marks: seq<bool>): seq<string>
    requires |items| == |marks|
  {
    if items == [] then []
    else
      var n := |items| - 1;
      Picked(items[..n], marks[..n]) + (if marks[n] then [items[n]] else [])
  }

  /** The `k`-th entry handed over is the entry at the `k`-th marked index:
      the picked entries come in list order, each once. */
  lemma {:induction false} PickedAtMarks(items: seq<string>, marks: seq<bool>)
    requires |items| == |marks|
    ensures |Picked(items, marks)| == |MarkedIndices(marks)|
    ensures forall k :: 0 <= k < |Picked(items, marks)| ==> Picked(items, marks)[k] == items[MarkedIndices(marks)[k]]
  {
    if items != [] {
      var n := |items| - 1;
      PickedAtMarks(items[..n], marks[..n]);
      var p, m := Picked(items[..n], marks[..n]), MarkedIndices(marks[..n]);
      assert MarkedIndices(marks) == m + (if marks[n] then [n] else []);
      assert Picked(items, marks) == p + (if marks[n] then [items[n]] else []);
      forall k | 0 <= k < |p|
        ensures Picked(items, marks)[k] == items[MarkedIndices(marks)[k]]
      {
        assert Picked(items, marks)[k] == p[k] && MarkedIndices(marks)[k] == m[k];
      }
    }
  }

  /** Nothing picked, nothing handed over. */
  lemma {:induction false} NothingPicked(items: seq<string>, marks: seq<bool>)
    requires |items| == |marks| && forall i :: 0 <= i < |marks| ==> !marks[i]
    ensures Picked(items, marks) == []
  {
    if items != [] {
      var n := |items| - 1;
      assert forall i :: 0 <= i < n ==> marks[..n][i] == marks[i];
      NothingPicked(items[..n], marks[..n]);
    }
  }

  /** Everything picked, the whole list in its order. */
  lemma {:induction false} AllPicked(items: seq<string>, marks: seq<bool>)
    requires |items| == |marks| && forall i :: 0 <= i < |marks| ==> marks[i]
    ensures Picked(items, marks) == items
  {
    if items != [] {
      var n := |items| - 1;
      assert forall i :: 0 <= i < n ==> marks[..n][i] == marks[i];
      AllPicked(items[..n], marks[..n]);
      assert marks[n];
      assert items == items[..n] + [items[n]];
    }
  }

  /** Picking is decided entry by entry: an entry put on top of the list
      comes first among the picked ones exactly when it is picked. */
  lemma {:induction false} PickedCons(t: string, b: bool, items: seq<string>, marks: seq<bool>)
    requires |items| == |marks|
    ensures Picked([t] + items, [b] + marks) == (if b then [t] else []) + Picked(items, marks)
  {
    if items != [] {
      var n := |items| - 1;
      assert ([t] + items)[..n + 1] == [t] + items[..n];
      assert ([b] + marks)[..n + 1] == [b] + marks[..n];
      PickedCons(t, b, items[..n], marks[..n]);
    } else {
      assert ([t] + items)[..0] == [] && ([b] + marks)[..0] == [];
    }
  }

  class SubMenu {
    /** A copy of the tags the dialog was opened with. */
    const allTags: seq<string>
    /** The list entries, top to bottom, and which of them are picked. */
    var items: seq<string>
    var marks: seq<bool>
    /** The text of the new-tag entry. */
    var entry: string
    /** Whether the close callback is still set. */
    var hasOnClose: bool
    var destroyed: bool

    ghost predicate Consistent()
      reads this
    {
      |items| == |marks|
    }

    /** Lists every known tag, in the given order, none picked. */
    constructor(allTags: seq<string>, hasOnClose: bool)
      ensures Consistent()
      ensures this.allTags == allTags && this.hasOnClose == hasOnClose
      ensures items == allTags && (forall i :: 0 <= i < |marks| ==> !marks[i])
      ensures entry == [] && !destroyed
    {
      this.allTags := allTags;
      this.hasOnClose := hasOnClose;
      entry := [];
      destroyed := false;
      items, marks := [], [];
      new;
      var i := 0;
      while i < |allTags|
        invariant 0 <= i <= |allTags|
        invariant items == allTags[..i] && |marks| == i
        invariant forall k :: 0 <= k < i ==> !marks[k]
        invariant this.hasOnClose == hasOnClose && entry == [] && !destroyed
      {
        assert allTags[..i + 1] == allTags[..i] + [allTags[i]];
        items, marks := items + [allTags[i]], marks + [false];
        i := i + 1;
      }
    }

    /** Typing into the new-tag entry. */
    method SetEntry(text: string)
      modifies this
      ensures entry == text
      ensures items == old(items) && marks == old(marks) && hasOnClose == old(hasOnClose) && destroyed == old(destroyed)
    {
      entry := text;
    }

    /** Clicking an entry of the list flips whether it is picked. */
    method ClickItem(i: nat)
      requires Consistent() && i < |items|
      modifies this
      ensures Consistent()
      ensures items == old(items) && marks == old(marks)[i := !old(marks)[i]]
      ensures entry == old(entry) && hasOnClose == old(hasOnClose) && destroyed == old(destroyed)
    {
      marks := marks[i := !marks[i]];
    }

    /** `add_tag`: a stripped, non-empty text that is not a known tag goes to
        the top of the list, picked, and the entry is emptied; anything else
        changes nothing. */
    method AddTag()
      requires Consistent()
      modifies this
      ensures Consistent()
      ensures var t := Strip(old(entry));
        if t != [] && t !in allTags then
          items == [t] + old(items) && marks == [true] + old(marks) && entry == []
        else
          items == old(items) && marks == old(marks) && entry == old(entry)
      ensures hasOnClose == old(hasOnClose) && destroyed == old(destroyed)
    {
      var t := Strip(entry);
      if t != [] && t !in allTags {
        items, marks := [t] + items, [true] + marks;
        entry := [];
      }
    }

    /** `save_tags`: hands the picked entries to the close callback when it
        is still set, unsets it, and closes the dialog. */
    method SaveTags() returns (tags: seq<string>, fired: bool)
      requires Consistent()
      modifies this
      ensures tags == Picked(old(items), old(marks))
      ensures fired == old(hasOnClose) && !hasOnClose && destroyed
      ensures items == old(items) && marks == old(marks) && entry == old(entry)
    {
      tags := Picked(items, marks);
      fired := hasOnClose;
      hasOnClose := false;
      destroyed := true;
    }

    /** `destroy` */
    method Destroy()
      modifies this
      ensures destroyed
      ensures items == old(items) && marks == old(marks) && entry == old(entry) && hasOnClose == old(hasOnClose)
    {
      destroyed := true;
    }
  }

  /** A tag just added is handed over first when the dialog is saved. */
  lemma AddedTagComesFirst(t: string, items: seq<string>, marks: seq<bool>)
    requires |items| == |marks|
    ensures Picked([t] + items, [true] + marks) == [t] + Picked(items, marks)
  {
    PickedCons(t, true, items, marks);
  }
}

=== FILE: thumbnail_display.dfy ===
/** The thumbnail grid of the refactored viewer: the filtered table laid
    out in as many columns as fit, the thumbnail cache it fills, and the set
    of selected files. */
module ThumbnailDisplay {
  import opened Wrappers
  import opened OrderedDict
  import opened Calendar
  import opened Logic

  /** The selection after a click on `f`: `f` flips, nothing else changes. */
  function Toggled(s: set<string>, f: string): (r: set<string>)
    ensures f in r <==> f !in s
    ensures forall g :: g != f ==> (g in r <==> g in s)
  {
    if f in s then s - {f} else s + {f}
  }

  /** Clicking the same thumbnail twice restores the selection. */
  lemma ToggleTwice(s: set<string>, f: string)
    ensures Toggled(Toggled(s, f), f) == s
  {
  }

  /** A pass over a table shows exactly the files that were cached or whose
      thumbnail can be fetched, in table order. */
  lemma ShowsPlaceableFiles(m: TagMap, from: Date, to: Date, selected: seq<string>,
                            columns: nat, cache: map<string, Image>, ld: Loader)
    requires Valid(m) && columns >= 1 && ShownTable(m, from, to, selected).Some?
    ensures var files := ShownTable(m, from, to, selected).value;
      PlacedFiles(WidgetRender(files, columns, cache, Fetcher(ld)).placed)
        == PlaceableFiles(files, cache, Fetcher(ld))
  {
    WidgetShows(ShownTable(m, from, to, selected).value, columns, cache, Fetcher(ld));
  }

  class ThumbnailDisplayManager {
    var selectedItems: set<string>
    /** The cache shared with the application, by cache key. */
    var thumbnailCache: map<string, Image>
    var currentColumns: nat
    /** The thumbnails on the grid, in the order they were placed. */
    var placed: seq<Placement>
    /** Whether a right-click callback was given. */
    const hasRightClickCallback: bool

    constructor(thumbnailCache: map<string, Image>, hasRightClickCallback: bool)
      ensures this.thumbnailCache == thumbnailCache && this.hasRightClickCallback == hasRightClickCallback
      ensures selectedItems == {} && currentColumns == 1 && placed == []
    {
      this.thumbnailCache := thumbnailCache;
      this.hasRightClickCallback := hasRightClickCallback;
      selectedItems := {};
      currentColumns := 1;
      placed := [];
    }

    /** `add_to_selection` */
    method AddToSelection(file: string)
      modifies this
      ensures selectedItems == old(selectedItems) + {file}
      ensures thumbnailCache == old(thumbnailCache) && placed == old(placed) && currentColumns == old(currentColumns)
    {
      selectedItems := selectedItems + {file};
    }

    /** `remove_from_selection` (a `discard`: an unselected file is no error) */
    method RemoveFromSelection(file: string)
      modifies this
      ensures selectedItems == old(selectedItems) - {file}
      ensures thumbnailCache == old(thumbnailCache) && placed == old(placed) && currentColumns == old(currentColumns)
    {
      selectedItems := selectedItems - {file};
    }

    /** `get_selected_items`: a copy of the selection. */
    method GetSelectedItems() returns (items: set<string>)
      ensures items == selectedItems
    {
      items := selectedItems;
    }

    /** `is_selected` */
    predicate IsSelected(file: string)
      reads this
    {
      file in selectedItems
    }

    /** `toggle_selection`, which a click on a thumbnail runs. */
    method ToggleSelection(file: string)
      modifies this
      ensures selectedItems == Toggled(old(selectedItems), file)
      ensures IsSelected(file) <==> !old(IsSelected(file))
      ensures thumbnailCache == old(thumbnailCache) && placed == old(placed) && currentColumns == old(currentColumns)
    {
      if IsSelected(file) {
        RemoveFromSelection(file);
      } else {
        AddToSelection(file);
      }
    }

    /** A double click opens the file with the system's default program and
        leaves it unselected. */
    method OnThumbnailDoubleClick(file: string)
      modifies this
      ensures selectedItems == old(selectedItems) - {file}
      ensures thumbnailCache == old(thumbnailCache) && placed == old(placed) && currentColumns == old(currentColumns)
    {
      RemoveFromSelection(file);
      RemoveFromSelection(file);
    }

    /** `_on_thumbnail_right_click`: the callback runs only when something
        is selected. */
    method OnThumbnailRightClick() returns (invoked: bool)
      ensures invoked <==> selectedItems != {} && hasRightClickCallback
    {
      var items := GetSelectedItems();
      if items == {} {
        return false;
      }
      invoked := hasRightClickCallback;
    }

    /** `_clear_selection` */
    method ClearSelection()
      modifies this
      ensures selectedItems == {}
      ensures thumbnailCache == old(thumbnailCache) && placed == old(placed) && currentColumns == old(currentColumns)
    {
      while selectedItems != {}
        invariant thumbnailCache == old(thumbnailCache) && placed == old(placed) && currentColumns == old(currentColumns)
        decreases |selectedItems|
      {
        var file :| file in selectedItems;
        RemoveFromSelection(file);
      }
    }

    /** `_calculate_columns` */
    method CalculateColumns(frameWidth: nat) returns (columns: nat)
      modifies this
      ensures columns == Columns(frameWidth) && currentColumns == columns
      ensures selectedItems == old(selectedItems) && thumbnailCache == old(thumbnailCache) && placed == old(placed)
    {
      columns := Columns(frameWidth);
      currentColumns := columns;
    }

    /** `_create_thumbnail_widget`: a cached image, else the stored or a
        fresh thumbnail, which is cached; the thumbnail goes to grid slot
        `idx`. A file whose image cannot be made is skipped. */
    method CreateThumbnailWidget(file: string, idx: nat, columns: nat, ld: Loader)
      requires columns >= 1
      modifies this
      ensures var key, cell := CacheKey(file), Cell(idx, columns);
        if key in old(thumbnailCache) then
          placed == old(placed) + [Placement(file, cell.0, cell.1, old(thumbnailCache)[key])]
          && thumbnailCache == old(thumbnailCache)
        else if Fetch(file, ld).Some? then
          placed == old(placed) + [Placement(file, cell.0, cell.1, Fetch(file, ld).value)]
          && thumbnailCache == old(thumbnailCache)[key := Fetch(file, ld).value]
        else
          placed == old(placed) && thumbnailCache == old(thumbnailCache)
      ensures selectedItems == old(selectedItems) && currentColumns == old(currentColumns)
    {
      var key := CacheKey(file);
      var img: Image;
      if key in thumbnailCache {
        img := thumbnailCache[key];
      } else {
        var fetched := Fetch(file, ld);
        if fetched.None? {
          return;
        }
        img := fetched.value;
        thumbnailCache := thumbnailCache[key := img];
      }
      var cell := Cell(idx, columns);
      placed := placed + [Placement(file, cell.0, cell.1, img)];
    }

    /** The loop of `show_thumbnails`: the `idx`-th file of the table goes
        to grid slot `idx`, after the thumbnails already placed. */
    method PlaceAll(files: seq<string>, columns: nat, ld: Loader)
      requires columns >= 1 && placed == []
      modifies this
      ensures Grid(placed, thumbnailCache) == WidgetRender(files, columns, old(thumbnailCache), Fetcher(ld))
      ensures selectedItems == old(selectedItems) && currentColumns == old(currentColumns)
    {
      var idx := 0;
      while idx < |files|
        invariant 0 <= idx <= |files|
        invariant selectedItems == old(selectedItems) && currentColumns == old(currentColumns)
        invariant Grid(placed, thumbnailCache) == WidgetRender(files[..idx], columns, old(thumbnailCache), Fetcher(ld))
      {
        ghost var g := Grid(placed, thumbnailCache);
        CreateThumbnailWidget(files[idx], idx, columns, ld);
        assert Grid(placed, thumbnailCache) == PlaceNext(g, files[idx], idx, columns, Fetch(files[idx], ld));
        assert files[..idx + 1][..idx] == files[..idx] && Fetcher(ld)(files[idx]) == Fetch(files[idx], ld);
        idx := idx + 1;
      }
      assert files[..idx] == files;
    }

    /** `show_thumbnails`: clears the selection and the grid, then lays out
        the filtered table; `ok` is false where building the table raises. */
    method ShowThumbnails(m: TagMap, from: Date, to: Date, selected: seq<string>, frameWidth: nat, ld: Loader)
      returns (ok: bool)
      requires Valid(m)
      modifies this
      ensures selectedItems == {}
      ensures ok <==> ShownTable(m, from, to, selected).Some?
      ensures !ok ==> placed == [] && thumbnailCache == old(thumbnailCache) && currentColumns == old(currentColumns)
      ensures ok ==>
        && currentColumns == Columns(frameWidth)
        && Grid(placed, thumbnailCache)
          == WidgetRender(ShownTable(m, from, to, selected).value, Columns(frameWidth), old(thumbnailCache), Fetcher(ld))
    {
      ClearSelection();
      placed := [];
      var table := ShownTable(m, from, to, selected);
      if table.None? {
        return false;
      }
      var columns := CalculateColumns(frameWidth);
      PlaceAll(table.value, columns, ld);
      ok := true;
    }
  }
}

=== FILE: wrappers.dfy ===
/** The optional value used wherever the source returns None, catches an
    exception, or reads a key that may be missing. */
module Wrappers {

  datatype Option<+T> = None | Some(value: T) {

    /** The value, or `default` when there is none (Python's `x or default`, `d.get(k, default)`). */
    function GetOr(default: T): T {
      match this
      case Some(v) => v
      case None => default
    }
  }
}
